=== FILE: README.md ===
# docflow document-request rules, in Dafny

docflow is an advisor/client document portal. Behind its dashboards sits a
small rules engine, and this project models that engine as pure Dafny
functions over immutable records:

- **Document store.** This is an ordered list of document records.
  - Requesting a document either reconciles the request onto an uploaded
    record with a similar name, or prepends a new outstanding record.
  - Other operations flag an update request, change a record's frequency or
    due date, and delete a record.
  - The store also keeps a preset list: save, update, delete, and apply a
    preset to a client. Applying issues one request per distinct item name,
    ignoring case, and the first occurrence wins.
  - A bin label's wording names a request frequency.
- **Due dates.** The next due date comes from the upload time, the request
  frequency and an optional explicit date.
  - JavaScript's `setDate`, `setMonth` and `setFullYear` roll day overflow
    over into the next month; the model writes this out on a
    proleptic-Gregorian civil date.
  - The financial overview splits records into overdue and due-soon
    (14 days) buckets.
  - It also has the eight-item upcoming list, the client filter, the
    per-client rows and the calendar's per-day lists, with "+N more".
- **Base names and grouping.** Trailing period tokens ("2024 Jan",
  "Q1 2024", "2024") are stripped according to the frequency, and records are
  grouped by what is left. Both the plain-object and the insertion-ordered
  `Map` variant of the grouping are modelled.
- **Editors and the request dialog.**
  - The "Documents Needed", "Prepared Materials" and Settings preset editors
    share their bin operations: a de-duplicating insert that ignores case,
    remove by id, relabel, and counting.
  - Each editor adds its own reaction to a drop.
  - The request dialog trims and validates what it submits.
- **Dashboard.**
  - Cycling through the clients.
  - The "Request Update" action with its year bump.
  - The "Add Request" prefill.
  - The dashboard's own next-due-date rule.
  - The outstanding, update-request and reports lists.
- **Library search.** A case-insensitive substring test on a record's name or
  folder.

"Now" and fresh ids are parameters. A `Clock` carries the millisecond
timestamp that the source turns into ids (`req-…`, `preset-…`, `prep-…`,
`<bin>-<ms>`), together with the local civil time. Local dates are
`Calendar.DateTime(year, month 0..11, day, msOfDay)`. They are ordered by a
days-from-civil day number, and there are no time zones.

Some behaviours of the source, as modelled:

- **Two label classifiers.** The store's classifier checks "day" first. The
  editors' classifiers have no "day" rule. The two agree whenever the label
  does not contain "day" (`Bins.ClassifiersAgreeWithoutDay`). "Daily Docs"
  does not contain "day" ("dai-ly"), so both classifiers file it as
  one-time.
- **Similarity threshold.** The 60% threshold is `min(2, 0.6·M)`, where M is
  the larger number of significant words. It is exactly "M matches when
  M ≤ 1, else 2" (`DocumentStore.ThresholdIsSmall`). A long name therefore
  needs only two shared words.
- **Grouping without a frequency.** The global month and year patterns match
  prefixes of words. "A Decoy" groups as "Aoy".
- **Edit then Save on the settings page.** This saves a second preset; the
  page never calls `updatePreset`.
- **The record's type.** The record's fields are reconstructed from what the
  store writes. The declared `Document` type in `src/types/dashboard.ts` is
  out of date and lacks most of them.

## Model

| member | source | states |
|---|---|---|
| DocumentStore.SignificantWords | src/context/DocumentsContext.tsx:66-71 | the words of the lower-cased name, without its extension, split on single spaces: every piece longer than two characters is kept, in order, and nothing else; none contains a space |
| DocumentStore.ThresholdIsSmall | src/context/DocumentsContext.tsx:74-75 | the threshold `matches >= min(2, 0.6·M)` holds exactly when matches reach 0 for M = 0, 1 for M = 1 and 2 for M ≥ 2 |
| DocumentStore.ShortNamesAlwaysSimilar | src/context/DocumentsContext.tsx:69-75 | two names with no word longer than two characters are always similar |
| DocumentStore.TwoSharedWordsSuffice | src/context/DocumentsContext.tsx:74-75 | two shared significant words make names similar, however long they are |
| DocumentStore.FindMatch | src/context/DocumentsContext.tsx:63-76 | the index of the first record in list order that has a url and a similar name, and no earlier record qualifies; none when no record does |
| DocumentStore.RequestDocumentUpdate | src/context/DocumentsContext.tsx:134-148 | only records with the id change; they gain the update flag, requester, time, description and version; all other records are identical |
| DocumentStore.RequestDocumentUpdateIdempotent | src/context/DocumentsContext.tsx:134-148 | flagging the same update twice is the same as once |
| DocumentStore.RequestDocumentUpdateUnknownId | src/context/DocumentsContext.tsx:134-148 | an unknown id leaves the list identical; the target need not be uploaded |
| DocumentStore.UpdateRequestFrequency | src/context/DocumentsContext.tsx:150-152 | only records with the id get the new frequency; nothing else changes |
| DocumentStore.UpdateRequestFrequencyLastWins | src/context/DocumentsContext.tsx:150-152 | two frequency changes equal the last one alone |
| DocumentStore.UpdateDocumentDueDate | src/context/DocumentsContext.tsx:154-156 | only records with the id get the new due date, which may be cleared |
| DocumentStore.DueDateSetThenClear | src/context/DocumentsContext.tsx:154-156 | setting a due date and then clearing it restores a list whose target had none |
| DocumentStore.DeleteRequestedDocument | src/context/DocumentsContext.tsx:158-160 | exactly the records with another id remain, each as often as before, whether or not the deleted one was outstanding |
| DocumentStore.DeleteKeepsOrder | src/context/DocumentsContext.tsx:158-160 | the remaining records keep their order |
| DocumentStore.DeleteUnknownId | src/context/DocumentsContext.tsx:158-160 | deleting an unknown id leaves the list identical |
| DocumentStore.NewRequestRecord | src/context/DocumentsContext.tsx:104-120 | a new request is outstanding, has no url, sits in "Documents", carries the client and the frequency and has no update flag |
| DocumentStore.RequestDocument | src/context/DocumentsContext.tsx:59-132 | with no match, one new record is prepended and the old list is its tail; with a match, no record is added, and the first match is flagged with the name's first 19xx/20xx year as version, its frequency is kept and its id returned; both paths return a pending request with the caller's fields |
| DocumentStore.RequestAddsAtMostOne | src/context/DocumentsContext.tsx:63-120 | the list grows by at most one, and grows exactly when no record is a candidate |
| DocumentStore.DeleteUndoesNewRequest | src/context/DocumentsContext.tsx:104-160 | deleting the id of a freshly created request restores the list |
| DocumentStore.RequestKeepsCandidates | src/context/DocumentsContext.tsx:63-101 | a request never changes which record a later request is reconciled onto, shifting its index by one when a record was prepended |
| DocumentStore.InferFrequencyFromLabel | src/context/DocumentsContext.tsx:162-170 | daily iff the lower-cased label contains "day"; else monthly iff "month"; else quarterly iff "quarter"; else yearly iff "year"; else one-time |
| DocumentStore.DailyLabelExamples | src/context/DocumentsContext.tsx:162-170 | "Daily Docs" is one-time and "Every day" is daily |
| Presets.DefaultPresetName | src/context/DocumentsContext.tsx:176 | the default name is "Preset " followed by the decimal digits of one more than the number of presets |
| Presets.SavePreset | src/context/DocumentsContext.tsx:172-183 | one preset is prepended, under the trimmed name or the default name when blank and so never empty, with the bins as given and equal creation and update stamps |
| Presets.SavedNameIsStable | src/context/DocumentsContext.tsx:172-183 | saving under a saved preset's name keeps that name |
| Presets.ApplyUpdate | src/context/DocumentsContext.tsx:185-187 | an update replaces the given fields, keeps id and creation time and stamps the update time |
| Presets.UpdatePreset | src/context/DocumentsContext.tsx:185-187 | only presets with the id are updated |
| Presets.UpdateUnknownPreset | src/context/DocumentsContext.tsx:185-187 | an unknown id leaves the presets identical |
| Presets.EmptyUpdateTouchesOnlyStamp | src/context/DocumentsContext.tsx:185-187 | an empty update changes nothing but the update time |
| Presets.DeletePreset | src/context/DocumentsContext.tsx:189-191 | exactly the presets with another id remain |
| Presets.DeleteUndoesSave | src/context/DocumentsContext.tsx:172-191 | deleting a freshly saved preset restores the list |
| Presets.FindPreset | src/context/DocumentsContext.tsx:194-195 | finds the first preset with the id, and finds none exactly when there is none |
| Presets.BinCalls | src/context/DocumentsContext.tsx:198-207 | a bin asks for each of its items in order, with the frequency its label names |
| Presets.Keys | src/context/DocumentsContext.tsx:196-202 | the lower-cased names a sequence of calls has asked for |
| Presets.FirstOccurrencesMeaning | src/context/DocumentsContext.tsx:197-209 | the issued calls have distinct names ignoring case, cover every name the preset holds, and each is the first call of its name in bin-then-item order |
| Presets.IssueItem | src/context/DocumentsContext.tsx:200-206 | one item is skipped when its lower-cased name was seen, and issued otherwise |
| Presets.IssueBin | src/context/DocumentsContext.tsx:198-207 | after a bin, the issued calls are the first occurrences of everything so far |
| Presets.ApplyPresetToClient | src/context/DocumentsContext.tsx:193-211 | an unknown preset changes nothing; otherwise the requests issued are exactly the first occurrences of the preset's items, each with its first bin's frequency, applied in order to the store |
| Presets.ApplyExample | src/context/DocumentsContext.tsx:193-211 | two bins that both hold "Bank Statement" issue it once, as monthly |
| Schedule.NextDueDate | src/pages/FinancialOverview.tsx:12-33 | an explicit date is returned as is; otherwise none for no or one-time frequency; otherwise strictly later with the same time of day: one day later for daily; the same day one or three months on for monthly and quarterly, and one year on for yearly, when that day exists |
| Schedule.MonthlyOverflowExample | src/pages/FinancialOverview.tsx:20-22 | 31 January plus a month is 3 March in 2025 and 2 March in 2024 |
| Schedule.DocumentsWithDue | src/pages/FinancialOverview.tsx:44-51 | exactly the records that have a due date, in list order, each paired with that date |
| Schedule.SoonThreshold | src/pages/FinancialOverview.tsx:40-42 | the threshold is exactly fourteen days after now |
| Schedule.Overdue | src/pages/FinancialOverview.tsx:53 | exactly the dated records due before now |
| Schedule.DueSoon | src/pages/FinancialOverview.tsx:54 | exactly the dated records due from now up to the threshold inclusive |
| Schedule.BucketsDisjoint | src/pages/FinancialOverview.tsx:53-54 | no record is both overdue and due soon, so the buckets together hold at most all dated records |
| Schedule.Upcoming | src/pages/FinancialOverview.tsx:82-90 | at most eight records, in ascending due order, taken from the dated ones, and no record left out is due earlier than one shown |
| Schedule.ToggleClient | src/pages/FinancialOverview.tsx:145-151 | the client's membership flips and no other client's changes |
| Schedule.ToggleTwice | src/pages/FinancialOverview.tsx:145-151 | toggling twice restores the selection |
| Schedule.FilteredDocuments | src/pages/FinancialOverview.tsx:93-96 | an empty selection shows everything; otherwise exactly the records whose client is selected, never one without a client |
| Schedule.ClearShowsAll | src/pages/FinancialOverview.tsx:93-153 | clearing the filter shows every record |
| Schedule.FilteredKeepsOrder | src/pages/FinancialOverview.tsx:93-96 | the filtered list keeps the list's order |
| Schedule.ClientDocs | src/pages/FinancialOverview.tsx:65 | exactly the client's records |
| Schedule.Row | src/pages/FinancialOverview.tsx:64-79 | a client's record count is the number of its records; its overdue and due-soon counts are the numbers of its records in the overview's overdue and due-soon buckets, and together never exceed the record count |
| Schedule.ClientRows | src/pages/FinancialOverview.tsx:63-80 | one row per client in client order, with the client's own pending and unread counts and its share of the overdue and due-soon buckets |
| Schedule.ClientOverdue | src/pages/FinancialOverview.tsx:53-70 | bucketing a client's own records as overdue gives exactly that client's records of the overall overdue bucket, in the same order |
| Schedule.ClientDueSoon | src/pages/FinancialOverview.tsx:53-71 | bucketing a client's own records as due soon gives exactly that client's records of the overall due-soon bucket, in the same order |
| Schedule.OneRecordOverdue | src/pages/FinancialOverview.tsx:53-70 | for one record, restricting to a client before or after taking the overdue bucket agrees |
| Schedule.OneRecordDueSoon | src/pages/FinancialOverview.tsx:53-71 | for one record, restricting to a client before or after taking the due-soon bucket agrees |
| Schedule.DocumentsWithDueAppend | src/pages/FinancialOverview.tsx:44-51 | pairing records with due dates distributes over concatenation |
| Schedule.OfClientDated | src/pages/FinancialOverview.tsx:65 | exactly the dated records of that client |
| Schedule.CalendarEvents | src/pages/FinancialOverview.tsx:98-110 | one event per dated record, in order, with its id and name, on the day of its due date; a due year 0..99 lands on the existing day with the same day number in 1900..1999, so a day the month lacks rolls over |
| Schedule.EventDayOf | src/pages/FinancialOverview.tsx:105 | rebuilding a due date from its fields keeps its day; a year 0..99 is read as 1900..1999 and the result is an existing day with the same day number |
| Schedule.EventsByDayContents | src/pages/FinancialOverview.tsx:113-122 | each day holds exactly the events on that day in order; the days are distinct and the lists add up to all events |
| Schedule.DayContent | src/pages/FinancialOverview.tsx:124-143 | a day shows its first min(3, n) titles and "+(n−3) more" exactly when n > 3 |
| Calendar.NormalizeDay | src/pages/FinancialOverview.tsx:15-32 | an out-of-range day of the month denotes the same calendar day counted from the month's first day, as JavaScript dates roll it over |
| Calendar.ConstructorYear | src/pages/FinancialOverview.tsx:105 | the `Date` constructor reads years 0..99 as 1900..1999 and any other year as given |
| Calendar.LocalMidnight | src/pages/FinancialOverview.tsx:105 | `new Date(y, m, d)` is midnight on the day numbered as day d of month m of the constructor's year, and exactly that date when the day exists and the year is not two-digit |
| Calendar.RebuildLeapDayOfYearZero | src/pages/FinancialOverview.tsx:105 | the leap day of year 0 is rebuilt as 1 March 1900 |
| Calendar.AddDays | src/pages/FinancialOverview.tsx:17-19 | adding days moves the instant by whole days and keeps the time of day |
| Calendar.AddMonths | src/pages/FinancialOverview.tsx:20-25 | the same day k months on when it exists, otherwise the overflow into the following month; always later for k ≥ 1 |
| Calendar.AddYear | src/pages/FinancialOverview.tsx:26-28 | the same day a year on when it exists (29 February rolls to 1 March); always later |
| Calendar.InstantOrder | src/pages/FinancialOverview.tsx:53-54 | comparing instants is comparing year, month, day and time in that order |
| DocumentGrouping.FirstTail | src/utils/documentGrouping.ts:14-22 | the leftmost position where the trailing period pattern matches the rest of the name |
| DocumentGrouping.StripTail | src/utils/documentGrouping.ts:14-22 | removes the matched tail, leaving a prefix, and changes the name exactly when the pattern matches somewhere |
| DocumentGrouping.ReplaceAllDeletes | src/utils/documentGrouping.ts:26-29 | a global replacement only deletes characters |
| DocumentGrouping.ReplaceAllUnchanged | src/utils/documentGrouping.ts:26-29 | a global replacement changes the name exactly when the token occurs somewhere |
| DocumentGrouping.BaseName | src/utils/documentGrouping.ts:8-41 | when the period-stripped name has any non-space text, the base name is that text with whitespace tidied: the same non-space characters in order, no leading, trailing or repeated whitespace; otherwise it is the name itself; empty only for an empty name |
| DocumentGrouping.SameStripSameBase | src/utils/documentGrouping.ts:33-40 | two records whose names strip to the same non-blank text get the same base name |
| DocumentGrouping.AbbrNotAcross | src/utils/documentGrouping.ts:14 | the `<year> <Mon>` pattern cannot match starting inside a word that ends just before another match of it |
| DocumentGrouping.AbbrCutAtStem | src/utils/documentGrouping.ts:14 | for a word ending in a non-space followed by a `<year> <Mon>` tail, the monthly strip removes exactly that tail |
| DocumentGrouping.StripKeepsStart | src/utils/documentGrouping.ts:14-22 | a tail strip never removes a non-space first character, so the result is not blank |
| DocumentGrouping.MonthlyStripsToStem | src/utils/documentGrouping.ts:12-16 | a monthly name made of a word and a `<year> <Mon>` tail strips to that word, less any `<Month> <year>` tail |
| DocumentGrouping.MonthlySuffixIrrelevant | src/utils/documentGrouping.ts:3-16 | two monthly names that differ only in their `<year> <Mon>.ext` suffix have the same base name |
| DocumentGrouping.JanuaryAndFebruaryGroup | src/utils/documentGrouping.ts:3-7 | the January and February 2024 bank statements both group as "Bank Statements" |
| DocumentGrouping.RecurringStripsOnlyTheEnd | src/utils/documentGrouping.ts:12-22 | monthly, quarterly and yearly names lose only a tail |
| DocumentGrouping.OtherFrequenciesOnlyDelete | src/utils/documentGrouping.ts:23-30 | without one of those frequencies, stripping only deletes characters |
| DocumentGrouping.MonthlyExample | src/utils/documentGrouping.ts:4-16 | "Bank Statements 2024 Jan.pdf" with a monthly frequency groups as "Bank Statements" |
| DocumentGrouping.PrefixMatchExample | src/utils/documentGrouping.ts:26-29 | "A Decoy" without a frequency groups as "Aoy" |
| DocumentGrouping.GroupByBaseName | src/utils/documentGrouping.ts:48-58 | a key exists exactly for each base name that occurs, and holds exactly the records with that base name, in list order |
| DocumentGrouping.GroupByBaseNameOrdered | src/utils/documentGrouping.ts:63-76 | the keys are distinct, the groups hold the records with that base name in list order, and their sizes add up to the list |
| DocumentGrouping.GroupingsAgree | src/utils/documentGrouping.ts:48-76 | the two groupings give the same key-to-list contents |
| DocumentLibrary.Search | src/components/DocumentLibrary.tsx:16-19 | exactly the records whose lower-cased name or folder contains the lower-cased term |
| DocumentLibrary.SearchKeepsOrder | src/components/DocumentLibrary.tsx:16-19 | the result keeps the list's order |
| DocumentLibrary.EmptyTermShowsAll | src/components/DocumentLibrary.tsx:16-19 | an empty term shows everything |
| DocumentLibrary.SearchIgnoresCase | src/components/DocumentLibrary.tsx:17-18 | terms equal up to ASCII case give the same result |
| DocumentLibrary.LongerTermNarrows | src/components/DocumentLibrary.tsx:17-18 | extending the term never shows more |
| Bins.InferFrequencyNoDay | src/components/DocumentsNeeded.tsx:68-75 | monthly iff the lower-cased label contains "month"; else quarterly iff "quarter"; else yearly iff "year"; else one-time; never daily |
| Bins.ClassifiersAgreeWithoutDay | src/components/PreparedMaterials.tsx:41-48 | the editors' classifier agrees with the store's on every label without "day" |
| Bins.InsertIntoBin | src/components/DocumentsNeeded.tsx:110-116 | a name already in the bin, ignoring case, leaves it unchanged; otherwise it is appended under a fresh id; the bin then holds the name |
| Bins.InsertName | src/pages/Settings.tsx:50-56 | only the addressed bin can change |
| Bins.InsertIdempotent | src/components/DocumentsNeeded.tsx:110-116 | inserting the same name again, in any case, changes nothing |
| Bins.RemoveFromItems | src/components/DocumentsNeeded.tsx:135-137 | exactly the items with another id remain, each as often as before |
| Bins.RemoveItem | src/pages/Settings.tsx:59-61 | only the addressed bin loses items, and only those with the id |
| Bins.RemoveUndoesInsert | src/components/PreparedMaterials.tsx:75-111 | removing a freshly inserted item restores the bins |
| Bins.DropFrequency | src/components/DocumentsNeeded.tsx:118-119 | the frequency named by the label of the first bin with the id, one-time when there is none, never daily |
| Bins.DropFrequencyAfterInsert | src/components/DocumentsNeeded.tsx:110-119 | an insert never changes the frequency any bin files its drops under |
| Bins.SetLabel | src/components/DocumentsNeeded.tsx:139-141 | only the addressed bin's label changes |
| Bins.TotalAfterInsert | src/components/DocumentsNeeded.tsx:143 | an insert that adds a name raises the total by one, and by none otherwise |
| Bins.TotalAfterLabel | src/components/DocumentsNeeded.tsx:143 | relabelling keeps the total |
| Bins.ToPresetBins | src/pages/Settings.tsx:67-69 | saved bins keep ids, labels and item names in order, without item ids |
| Bins.LoadPresetBins | src/components/DocumentsNeeded.tsx:189-197 | loaded bins keep ids, labels and names, with item ids made from bin, position and time |
| Bins.LoadThenSave | src/pages/Settings.tsx:67-171 | loading a preset's bins and saving them gives the same bins back |
| Bins.LoadedCountMatches | src/pages/Settings.tsx:165 | the loaded editor holds as many items as the preset lists |
| DocumentsNeeded.HandleDrop | src/components/DocumentsNeeded.tsx:105-133 | an empty name does nothing; otherwise the name is filed and the store receives exactly the request for this name, client and advisor with the pre-drop label's frequency, in every case |
| DocumentsNeeded.DuplicateDropStillRequests | src/components/DocumentsNeeded.tsx:110-127 | a duplicate drop leaves the bins alone but still reaches the store |
| DocumentsNeeded.DropOnMissingBin | src/components/DocumentsNeeded.tsx:110-119 | a drop onto a missing bin changes no bin and asks for a one-time document |
| DocumentsNeeded.RepeatedDrop | src/components/DocumentsNeeded.tsx:105-133 | dropping a name twice files it once, asking twice with the same frequency |
| DocumentsNeeded.InitialBinFrequencies | src/components/DocumentsNeeded.tsx:68-86 | the four opening bins file drops as monthly, quarterly, yearly and one-time |
| DocumentsNeeded.PresetClick | src/components/DocumentsNeeded.tsx:189-197 | a preset click issues the preset's first occurrences and loads bins that save back to the preset and count as many items |
| SettingsEditor.HandleDrop | src/pages/Settings.tsx:46-57 | an empty name does nothing; otherwise only the addressed bin may gain the name, unless it holds it already |
| SettingsEditor.HandleSavePreset | src/pages/Settings.tsx:67-71 | saves a new preset whose bins are the editor's without item ids and whose count is the editor's total |
| SettingsEditor.SavedCountMatches | src/pages/Settings.tsx:67-165 | a saved preset lists as many documents as its editor held |
| SettingsEditor.EditPreset | src/pages/Settings.tsx:168-171 | Edit reloads the preset's name and bins, which save back unchanged |
| SettingsEditor.EditThenSaveCopies | src/pages/Settings.tsx:67-171 | Edit then Save adds a second preset with the same name and bins |
| PreparedMaterials.MaterialRecord | src/components/PreparedMaterials.tsx:87-101 | a material is a report by the advisor with the bin's frequency, with no url and no request |
| PreparedMaterials.HandleDrop | src/components/PreparedMaterials.tsx:70-107 | an empty name does nothing; otherwise the name is filed and one report record is prepended even for a duplicate |
| PreparedMaterials.MaterialShowsOnlyAsReport | src/components/PreparedMaterials.tsx:87-101 | a material joins the reports list only, and never becomes the target of a request |
| PreparedMaterials.RepeatedDropAddsTwoReports | src/components/PreparedMaterials.tsx:70-107 | two drops of a name file it once and add two reports |
| RequestPopup.Mount | src/components/RequestDocumentPopup.tsx:28-31 | the dialog starts with the initial name or empty, no description and monthly |
| RequestPopup.Open | src/components/RequestDocumentPopup.tsx:33-37 | opening sets only the name, to the initial name or empty |
| RequestPopup.Select | src/components/RequestDocumentPopup.tsx:104-113 | the select changes only the frequency, among monthly, quarterly and yearly |
| RequestPopup.Normalise | src/components/RequestDocumentPopup.tsx:42-55 | a blank name sends nothing; otherwise the trimmed name, the trimmed description or none when blank, and the props' advisor and client |
| RequestPopup.BeginSubmit | src/components/RequestDocumentPopup.tsx:39-55 | a blank name returns at once; otherwise the dialog enters the submitting state with the normalised request |
| RequestPopup.FinishSubmit | src/components/RequestDocumentPopup.tsx:57-66 | success resets the fields to empty and monthly and closes; either way submission ends |
| RequestPopup.Close | src/components/RequestDocumentPopup.tsx:69-76 | closing is ignored while submitting, and otherwise resets the fields |
| RequestPopup.BlankNeverSubmitted | src/components/RequestDocumentPopup.tsx:42-141 | a whitespace-only name never leaves the dialog and disables the button |
| RequestPopup.ButtonMatchesSubmit | src/components/RequestDocumentPopup.tsx:42-141 | the button is enabled exactly when a submission would send |
| RequestPopup.NormaliseIdempotent | src/components/RequestDocumentPopup.tsx:49-51 | a sent request, typed back into the dialog, is sent unchanged |
| RequestPopup.SuccessResets | src/components/RequestDocumentPopup.tsx:39-76 | a successful round leaves a fresh dialog with no name, and closing is ignored meanwhile |
| AdvisorDashboard.NextClient | src/components/AdvisorDashboard.tsx:140-142 | one step forward, wrapping to the first client |
| AdvisorDashboard.PrevClient | src/components/AdvisorDashboard.tsx:144-146 | one step back, wrapping to the last client |
| AdvisorDashboard.CyclingInverts | src/components/AdvisorDashboard.tsx:140-146 | the two steps undo each other |
| AdvisorDashboard.AdvanceFromFirst | src/components/AdvisorDashboard.tsx:140-142 | stepping forward visits every client in order and returns after n steps |
| AdvisorDashboard.InitialIndex | src/components/AdvisorDashboard.tsx:118-122 | the first client with the id, else 0, including when no id is given |
| AdvisorDashboard.RequestedYear | src/components/AdvisorDashboard.tsx:170-172 | the first word-bounded 19xx/20xx year in the name plus one, else the current year |
| AdvisorDashboard.HandleRequestUpdate | src/components/AdvisorDashboard.tsx:175-186 | only the document with the id changes; it gains the update flag and the requested version |
| AdvisorDashboard.RequestUpdateIdempotent | src/components/AdvisorDashboard.tsx:175-186 | requesting the same update twice is the same as once |
| AdvisorDashboard.VersionIsNextYear | src/components/AdvisorDashboard.tsx:170-183 | the version is the year in the name plus one, in decimal |
| AdvisorDashboard.RequestedYearExamples | src/components/AdvisorDashboard.tsx:170-172 | "Tax Return 2023.pdf" asks for 2024; a name with no year asks for the current year |
| AdvisorDashboard.LocalNextDueDate | src/components/AdvisorDashboard.tsx:238-258 | none exactly for no or one-time frequency, otherwise strictly later at the same time of day |
| AdvisorDashboard.LocalAgreesWithOverview | src/components/AdvisorDashboard.tsx:238-258 | the dashboard's rule is the overview's rule with no explicit date |
| AdvisorDashboard.LocalIgnoresExplicit | src/components/AdvisorDashboard.tsx:238-258 | an explicit due date on a one-time record is ignored by the dashboard |
| AdvisorDashboard.OutstandingRequests | src/components/AdvisorDashboard.tsx:455 | exactly the records that are requested and have no url |
| AdvisorDashboard.UpdateRequests | src/components/AdvisorDashboard.tsx:619-622 | exactly the records with an update request |
| AdvisorDashboard.Reports | src/components/AdvisorDashboard.tsx:579 | exactly the records in the "Reports" folder |
| AdvisorDashboard.NewRequestHeadsOutstanding | src/components/AdvisorDashboard.tsx:455 | a request that matched nothing heads the outstanding list, and the other lists do not change |
| AdvisorDashboard.ReconciledRequestIsDue | src/components/AdvisorDashboard.tsx:619-622 | a reconciled request puts its record on the update-request list, not the outstanding one |
| AdvisorDashboard.Prefill | src/components/AdvisorDashboard.tsx:444 | the name cut at the start of its last extension, a dot followed by at least one character that is neither a dot nor a slash; unchanged when it has none |
| AdvisorDashboard.PrefillExample | src/components/AdvisorDashboard.tsx:444 | "report.tar.gz" prefills as "report.tar" |
| AdvisorDashboard.HandleDocumentRequest | src/components/AdvisorDashboard.tsx:212-219 | the request carries the dialog's name, description, requester, client and frequency; with no similar uploaded record the store gains one outstanding record of that name in front, otherwise the first match is flagged for update and nothing else changes |
| AdvisorDashboard.DialogRequestsHaveDue | src/components/AdvisorDashboard.tsx:212-219 | a record created from the dialog is outstanding and always has a due date |
| Text.Trim | src/components/RequestDocumentPopup.tsx:49-51 | removes exactly the leading and trailing ASCII whitespace; empty exactly for blank input |
| Text.TrimIdempotent | src/components/RequestDocumentPopup.tsx:49-51 | trimming twice is trimming once |
| Text.NormalizeSpaces | src/utils/documentGrouping.ts:33 | the result has no leading, trailing or repeated whitespace, keeps every other character in order, and is empty exactly for blank input |
| Text.CollapseKeepsText | src/utils/documentGrouping.ts:33 | collapsing whitespace runs keeps every other character in order |
| Text.TrimKeepsText | src/utils/documentGrouping.ts:33 | trimming keeps every character that is not whitespace, in order |
| Text.SplitJoin | src/context/DocumentsContext.tsx:69-70 | joining the pieces of a split gives the name back |
| Text.StripExtension | src/context/DocumentsContext.tsx:66-67 | cuts the name at its last extension, and leaves it whole when it has none |
| Text.YearToken | src/context/DocumentsContext.tsx:80-81 | the first word-bounded four-digit 19xx/20xx token, and none exactly when there is no such token |
| Text.ParsePrint | src/components/AdvisorDashboard.tsx:172-183 | printing a number and parsing it back gives the number |

## Left out

- Persistence: loading and saving the presets in local storage, with its JSON
  parsing and swallowed errors, is I/O.
- React machinery is not modelled: context, hooks, memoisation, rendering,
  toasts, navigation, collapsible state and drag events. The bin datatype has
  no `isDragOver` highlight field.
- Clocks are parameters. Where a handler reads the clock twice, the model reads
  it once. The overview takes a second reading for `soonThreshold`; the model
  uses `now` for both.
- Schedule.ClientRows: the source memoises the rows on the record list alone,
  so each `Schedule.Row`'s `now` and due-soon threshold are those of the last
  render in which the records changed, while the overdue and due-soon buckets
  read the current render's clock. The model gives rows and buckets one `now`,
  so a row's counts are its share of the buckets only when both read the same
  clock; rows computed under an older clock are not modelled.
- Schedule.SoonThreshold: adds fourteen days to `now` as an instant. It does not
  model the second clock reading, or a time-zone change across those days.
- Calendar: there are no time zones or daylight-saving shifts, and no
  `toLocale*` formatting. A local civil date stands for a JavaScript `Date`.
- Text: whitespace and case are ASCII only. `\s` is characters 9–13 and 32.
  A string is a sequence of code points, not of UTF-16 code units.
- DocumentStore.SignificantWords: keeps words of more than two code points,
  while `word.length` counts UTF-16 code units. A two-character word with a
  character outside the Basic Multilingual Plane is dropped here but kept by
  the source.
- Presets.ApplyUpdate: a field left as `None` keeps the preset's value. In the
  source, a key present in the update with value `undefined` overwrites the
  field with `undefined`; that third state is not modelled.
- Schedule.CalendarEvents: JavaScript dates have a bounded range of ±8.64·10¹⁵
  ms around the epoch, beyond which they are invalid. The model's dates are
  unbounded, so it does not produce the invalid dates.
- DocumentStore.ThresholdIsSmall: replaces the floating-point `0.6·M`
  comparison by the exact integer test `5·m ≥ 3·M`. That is the same test on
  reals, and no rounding is modelled.
- Ids are not claimed to be unique. Several requests issued by one preset can
  share a millisecond, and a preset's issued requests each take a clock from
  the `clockAt` parameter.
- `requestDocument` reads the record list through a stale closure. The model
  applies the requests in sequence. This is the same thing here: matching only
  looks at records with a url, and a new request never has one.
- RequestPopup.FinishSubmit: the asynchronous `onSubmit` and its `try`/`finally`
  are reduced to a success flag.
- AdvisorDashboard.NextClient: requires at least one client (`i < n`). With no
  clients the source's remainder by zero gives `NaN`, which the model does not
  reproduce.
- DocumentGrouping.GroupByBaseName: a plain-object key that collides with an
  inherited property name, such as "constructor", is not modelled. The map
  starts empty.
- Schedule.Upcoming: states the chosen records and their order by due date
  only. Among equal due dates it does not fix the order, which depends on the
  sort's stability.
- The upcoming list sorts the memoised dated list in place. On later renders
  the overdue and due-soon lists would come out in due order. The model keeps
  list order for those lists.
- Pages that only render fixed mock arrays are not modelled: Dashboard,
  AdminDashboard, RecentActivity, SecureMessaging, DashboardHeader,
  DocumentUpload, Document, Client and main. The search filters in Dashboard
  and AdminDashboard are the predicate of DocumentLibrary.Search. The
  dashboard's message threads are UI state.
- Data and declarations are not modelled: `mockData.ts` is fixture data and
  `types/dashboard.ts` is declarations only.
- The upload path is not modelled: none of the source's code attaches an
  upload to a request.

=== FILE: bins.dfy ===
/**
 * The drag-and-drop bins of the request, preset and prepared-material
 * editors: labelled lists of named items, with a case-insensitive
 * de-duplicating insert, removal by item id, label edits, and the conversion
 * to and from the bins a preset stores. The editors' own label classifier
 * has no rule for "day".
 */
module Bins {
  import opened Wrappers
  import opened Collections
  import opened Text
  import opened Documents
  import opened DocumentStore
  import opened Presets

  datatype BinItem = BinItem(id: string, name: string)

  datatype Bin = Bin(id: string, labelText: string, items: seq<BinItem>)

  /** The editors' `inferFrequencyFromLabel`: month, quarter, year in that order, else one-time. */
  function InferFrequencyNoDay(labelText: string): (f: Frequency)
    ensures f != Daily
    ensures f == Monthly <==> Contains(Lower(labelText), "month")
    ensures f == Quarterly <==> !Contains(Lower(labelText), "month") && Contains(Lower(labelText), "quarter")
    ensures f == Yearly <==>
      !Contains(Lower(labelText), "month") && !Contains(Lower(labelText), "quarter") && Contains(Lower(labelText), "year")
  {
    var l := Lower(labelText);
    if Contains(l, "month") then Monthly
    else if Contains(l, "quarter") then Quarterly
    else if Contains(l, "year") then Yearly
    else if Contains(l, "one") then OneTime
    else OneTime
  }

  /** The two classifiers agree on every label without "day"; on the others the store says daily. */
  lemma ClassifiersAgreeWithoutDay(labelText: string)
    ensures !Contains(Lower(labelText), "day") ==> InferFrequencyNoDay(labelText) == InferFrequencyFromLabel(labelText)
    ensures Contains(Lower(labelText), "day") ==> InferFrequencyFromLabel(labelText) == Daily
  {
  }

  /** A missing bin reads as the empty label, which is one-time. */
  lemma EmptyLabelIsOneTime()
    ensures InferFrequencyNoDay("") == OneTime
  {
    assert !Contains("", "month") && !Contains("", "quarter") && !Contains("", "year");
  }

  /** `items.some(i => i.name.toLowerCase() === name.toLowerCase())`. */
  predicate HasName(items: seq<BinItem>, name: string) {
    exists i :: 0 <= i < |items| && Lower(items[i].name) == Lower(name)
  }

  /** The id a freshly dropped item gets: `<binId>-<ms>`. */
  function NewItemId(binId: string, nowMs: int): string {
    binId + "-" + IntToString(nowMs)
  }

  function InsertIntoBin(b: Bin, name: string, nowMs: int): (r: Bin)
    ensures r.id == b.id && r.labelText == b.labelText
    ensures HasName(b.items, name) ==> r == b
    ensures !HasName(b.items, name) ==> r.items == b.items + [BinItem(NewItemId(b.id, nowMs), name)]
    ensures HasName(r.items, name)
  {
    if HasName(b.items, name) then b
    else
      var items := b.items + [BinItem(NewItemId(b.id, nowMs), name)];
      assert Lower(items[|b.items|].name) == Lower(name);
      b.(items := items)
  }

  /** A drop: the name joins the addressed bin unless it already holds it (in any case); other bins are untouched. */
  function InsertName(bins: seq<Bin>, binId: string, name: string, nowMs: int): (r: seq<Bin>)
    ensures |r| == |bins|
    ensures forall k :: 0 <= k < |bins| && bins[k].id != binId ==> r[k] == bins[k]
    ensures forall k :: 0 <= k < |bins| && bins[k].id == binId ==> r[k] == InsertIntoBin(bins[k], name, nowMs)
  {
    seq(|bins|, k requires 0 <= k < |bins| =>
      if bins[k].id == binId then InsertIntoBin(bins[k], name, nowMs) else bins[k])
  }

  /** Dropping the same name again, in any case and at any time, changes nothing. */
  lemma InsertIdempotent(bins: seq<Bin>, binId: string, name: string, again: string, t1: int, t2: int)
    requires Lower(again) == Lower(name)
    ensures InsertName(InsertName(bins, binId, name, t1), binId, again, t2) == InsertName(bins, binId, name, t1)
  {
    var once := InsertName(bins, binId, name, t1);
    forall k | 0 <= k < |bins| && bins[k].id == binId
      ensures HasName(once[k].items, again)
    {
      var i :| 0 <= i < |once[k].items| && Lower(once[k].items[i].name) == Lower(name);
    }
  }

  /** `items.filter(i => i.id !== itemId)` on the addressed bins. */
  function RemoveFromItems(items: seq<BinItem>, itemId: string): (r: seq<BinItem>)
    ensures forall x :: x in r <==> x in items && x.id != itemId
    ensures forall x :: multiset(r)[x] == if x.id != itemId then multiset(items)[x] else 0
    ensures |r| <= |items|
  {
    FilterCount(items, (x: BinItem) => x.id != itemId);
    Filter(items, (x: BinItem) => x.id != itemId)
  }

  predicate HasItemId(items: seq<BinItem>, itemId: string) {
    exists i :: 0 <= i < |items| && items[i].id == itemId
  }

  lemma RemoveAbsent(items: seq<BinItem>, itemId: string)
    requires !HasItemId(items, itemId)
    ensures RemoveFromItems(items, itemId) == items
  {
    FilterAll(items, (x: BinItem) => x.id != itemId);
  }

  lemma RemoveLast(items: seq<BinItem>, last: BinItem)
    requires !HasItemId(items, last.id)
    ensures RemoveFromItems(items + [last], last.id) == items
  {
    var keep := (x: BinItem) => x.id != last.id;
    FilterAppend(items, [last], keep);
    FilterAll(items, keep);
    assert [last][1..] == [];
    assert Filter([last], keep) == [];
    assert items + [] == items;
  }

  /** `handleRemove`: drop the items with that id from the addressed bins only. */
  function RemoveItem(bins: seq<Bin>, binId: string, itemId: string): (r: seq<Bin>)
    ensures |r| == |bins|
    ensures forall k :: 0 <= k < |bins| && bins[k].id != binId ==> r[k] == bins[k]
    ensures forall k :: 0 <= k < |bins| && bins[k].id == binId ==>
      r[k].id == bins[k].id && r[k].labelText == bins[k].labelText
      && (forall x :: x in r[k].items <==> x in bins[k].items && x.id != itemId)
  {
    seq(|bins|, k requires 0 <= k < |bins| =>
      if bins[k].id == binId then bins[k].(items := RemoveFromItems(bins[k].items, itemId)) else bins[k])
  }

  /** Removing the item a drop just added undoes the drop. */
  lemma RemoveUndoesInsert(bins: seq<Bin>, binId: string, name: string, nowMs: int)
    requires forall k :: 0 <= k < |bins| && bins[k].id == binId ==> !HasItemId(bins[k].items, NewItemId(binId, nowMs))
    ensures RemoveItem(InsertName(bins, binId, name, nowMs), binId, NewItemId(binId, nowMs)) == bins
  {
    var ins := InsertName(bins, binId, name, nowMs);
    var r := RemoveItem(ins, binId, NewItemId(binId, nowMs));
    forall k | 0 <= k < |bins|
      ensures r[k] == bins[k]
    {
      if bins[k].id == binId {
        if HasName(bins[k].items, name) {
          RemoveAbsent(bins[k].items, NewItemId(binId, nowMs));
        } else {
          RemoveLast(bins[k].items, BinItem(NewItemId(binId, nowMs), name));
        }
      }
    }
  }

  /** `bins.find(b => b.id === binId)`, as the index of the first bin at or after `from` with that id. */
  function FindBin(bins: seq<Bin>, binId: string, from: nat): (r: Option<nat>)
    ensures r.Some? ==> from <= r.value < |bins| && bins[r.value].id == binId
    ensures r.Some? ==> forall j :: from <= j < r.value ==> bins[j].id != binId
    ensures r.None? <==> forall j :: from <= j < |bins| ==> bins[j].id != binId
    decreases |bins| - from
  {
    if from >= |bins| then None
    else if bins[from].id == binId then Some(from)
    else FindBin(bins, binId, from + 1)
  }

  /** The label a drop reads its frequency from: the first bin with that id, or the empty label. */
  function DropLabel(bins: seq<Bin>, binId: string): string {
    match FindBin(bins, binId, 0)
    case Some(k) => bins[k].labelText
    case None => ""
  }

  /** The frequency a drop into `binId` is filed under. */
  function DropFrequency(bins: seq<Bin>, binId: string): (f: Frequency)
    ensures f != Daily
    ensures (forall k :: 0 <= k < |bins| ==> bins[k].id != binId) ==> f == OneTime
    ensures forall k :: (0 <= k < |bins| && bins[k].id == binId && (forall j :: 0 <= j < k ==> bins[j].id != binId)
                         ==> f == InferFrequencyNoDay(bins[k].labelText))
  {
    EmptyLabelIsOneTime();
    InferFrequencyNoDay(DropLabel(bins, binId))
  }

  /** Bins with the same ids in the same places are found at the same index. */
  lemma {:induction false} FindBinSameIds(a: seq<Bin>, b: seq<Bin>, binId: string, from: nat)
    requires |a| == |b|
    requires forall k :: 0 <= k < |a| ==> a[k].id == b[k].id
    ensures FindBin(a, binId, from) == FindBin(b, binId, from)
    decreases |a| - from
  {
    if from < |a| && a[from].id != binId {
      FindBinSameIds(a, b, binId, from + 1);
    }
  }

  /** The drop reads the label from the bins before the insert; the insert does not change it. */
  lemma DropFrequencyAfterInsert(bins: seq<Bin>, binId: string, name: string, nowMs: int, otherId: string)
    ensures DropFrequency(InsertName(bins, binId, name, nowMs), otherId) == DropFrequency(bins, otherId)
  {
    var after := InsertName(bins, binId, name, nowMs);
    FindBinSameIds(bins, after, otherId, 0);
    match FindBin(bins, otherId, 0)
    case Some(k) =>
      assert after[k].labelText == bins[k].labelText;
    case None =>
  }

  /** `handleLabelChange`: relabel the addressed bins only. */
  function SetLabel(bins: seq<Bin>, binId: string, value: string): (r: seq<Bin>)
    ensures |r| == |bins|
    ensures forall k :: 0 <= k < |bins| ==>
      r[k].id == bins[k].id && r[k].items == bins[k].items
      && r[k].labelText == (if bins[k].id == binId then value else bins[k].labelText)
  {
    seq(|bins|, k requires 0 <= k < |bins| => if bins[k].id == binId then bins[k].(labelText := value) else bins[k])
  }

  /** `totalDocuments`: the item counts of all bins added up. */
  function TotalItems(bins: seq<Bin>): nat
    decreases |bins|
  {
    if bins == [] then 0 else TotalItems(bins[..|bins| - 1]) + |bins[|bins| - 1].items|
  }

  /** Changing the items of one bin changes the total by that bin's difference. */
  lemma {:induction false} TotalOneChange(a: seq<Bin>, b: seq<Bin>, k: nat)
    requires |a| == |b| && k < |a|
    requires forall i :: 0 <= i < |a| && i != k ==> |a[i].items| == |b[i].items|
    ensures TotalItems(b) == TotalItems(a) - |a[k].items| + |b[k].items|
    decreases |a|
  {
    var n := |a| - 1;
    if k < n {
      TotalOneChange(a[..n], b[..n], k);
    } else {
      TotalSame(a[..n], b[..n]);
    }
  }

  lemma {:induction false} TotalSame(a: seq<Bin>, b: seq<Bin>)
    requires |a| == |b|
    requires forall i :: 0 <= i < |a| ==> |a[i].items| == |b[i].items|
    ensures TotalItems(b) == TotalItems(a)
    decreases |a|
  {
    if a != [] {
      TotalSame(a[..|a| - 1], b[..|b| - 1]);
    }
  }

  predicate DistinctBinIds(bins: seq<Bin>) {
    forall i, j :: 0 <= i < j < |bins| ==> bins[i].id != bins[j].id
  }

  /** With distinct bin ids a drop adds exactly one item, or none when the bin already holds the name or is missing. */
  lemma TotalAfterInsert(bins: seq<Bin>, binId: string, name: string, nowMs: int)
    requires DistinctBinIds(bins)
    ensures TotalItems(InsertName(bins, binId, name, nowMs))
         == TotalItems(bins) + (if exists k :: 0 <= k < |bins| && bins[k].id == binId && !HasName(bins[k].items, name) then 1 else 0)
  {
    var r := InsertName(bins, binId, name, nowMs);
    if exists k :: 0 <= k < |bins| && bins[k].id == binId {
      var k :| 0 <= k < |bins| && bins[k].id == binId;
      TotalOneChange(bins, r, k);
    } else {
      assert r == bins;
    }
  }

  /** Label edits never change the total. */
  lemma TotalAfterLabel(bins: seq<Bin>, binId: string, value: string)
    ensures TotalItems(SetLabel(bins, binId, value)) == TotalItems(bins)
  {
    TotalSame(bins, SetLabel(bins, binId, value));
  }

  /** `handleSavePreset`'s conversion: same ids, labels and item names in order; item ids are dropped. */
  function ToPresetBins(bins: seq<Bin>): (r: seq<PresetBin>)
    ensures |r| == |bins|
    ensures forall k :: 0 <= k < |bins| ==>
      r[k].id == bins[k].id && r[k].labelText == bins[k].labelText && |r[k].items| == |bins[k].items|
      && forall i :: 0 <= i < |bins[k].items| ==> r[k].items[i] == bins[k].items[i].name
  {
    seq(|bins|, k requires 0 <= k < |bins| =>
      PresetBin(bins[k].id, bins[k].labelText,
                seq(|bins[k].items|, i requires 0 <= i < |bins[k].items| => bins[k].items[i].name)))
  }

  /** The id an item loaded from a preset gets: `<binId>-<index>-<ms>`. */
  function LoadedItemId(binId: string, index: nat, nowMs: int): string {
    binId + "-" + NatToString(index) + "-" + IntToString(nowMs)
  }

  /** Loading a preset's bins into an editor (preset click, Edit): fresh item ids, same everything else. */
  function LoadPresetBins(pbins: seq<PresetBin>, nowMs: int): (r: seq<Bin>)
    ensures |r| == |pbins|
    ensures forall k :: 0 <= k < |pbins| ==>
      r[k].id == pbins[k].id && r[k].labelText == pbins[k].labelText && |r[k].items| == |pbins[k].items|
      && forall i :: 0 <= i < |pbins[k].items| ==> r[k].items[i] == BinItem(LoadedItemId(pbins[k].id, i, nowMs), pbins[k].items[i])
  {
    seq(|pbins|, k requires 0 <= k < |pbins| =>
      Bin(pbins[k].id, pbins[k].labelText,
          seq(|pbins[k].items|, i requires 0 <= i < |pbins[k].items| =>
            BinItem(LoadedItemId(pbins[k].id, i, nowMs), pbins[k].items[i]))))
  }

  /** Loading a preset's bins and converting them back gives the stored bins. */
  lemma LoadThenSave(pbins: seq<PresetBin>, nowMs: int)
    ensures ToPresetBins(LoadPresetBins(pbins, nowMs)) == pbins
  {
    var r := ToPresetBins(LoadPresetBins(pbins, nowMs));
    forall k | 0 <= k < |pbins|
      ensures r[k] == pbins[k]
    {
      assert r[k].items == pbins[k].items;
    }
  }

  /** The document count the settings page lists for a preset. */
  function PresetDocumentCount(pbins: seq<PresetBin>): nat
    decreases |pbins|
  {
    if pbins == [] then 0 else PresetDocumentCount(pbins[..|pbins| - 1]) + |pbins[|pbins| - 1].items|
  }

  /** The listed count is the number of items an editor shows after loading the preset. */
  lemma {:induction false} LoadedCountMatches(pbins: seq<PresetBin>, nowMs: int)
    ensures TotalItems(LoadPresetBins(pbins, nowMs)) == PresetDocumentCount(pbins)
    decreases |pbins|
  {
    if pbins != [] {
      var n := |pbins| - 1;
      var loaded := LoadPresetBins(pbins, nowMs);
      LoadedCountMatches(pbins[..n], nowMs);
      assert loaded[..n] == LoadPresetBins(pbins[..n], nowMs);
    }
  }
}

=== FILE: calendar.dfy ===
/**
 * Local civil date-times with the arithmetic of JavaScript's `Date`
 * setters. A `Date` is read through its local fields (`getFullYear`,
 * `getMonth` 0..11, `getDate`, and the time of day in milliseconds).
 * `setDate`, `setMonth` and `setFullYear` accept out-of-range values and
 * carry the excess into neighbouring months and years with proleptic
 * Gregorian month lengths. Dates are ordered by `Instant`, a count of
 * milliseconds from a fixed epoch; the model assumes one fixed UTC offset
 * (no daylight-saving shifts).
 */
module Calendar {

  const MsPerDay: int := 86400000

  datatype DateTime = DateTime(year: int, month: int, day: int, ms: int)

  predicate IsLeapYear(y: int) {
    y % 4 == 0 && (y % 100 != 0 || y % 400 == 0)
  }

  function DaysInMonth(y: int, m: int): (n: int)
    requires 0 <= m < 12
    ensures 28 <= n <= 31
    ensures n == 29 <==> m == 1 && IsLeapYear(y)
  {
    if m == 1 then (if IsLeapYear(y) then 29 else 28)
    else if m == 3 || m == 5 || m == 8 || m == 10 then 30
    else 31
  }

  /** The fields of a date a JavaScript `Date` can hold. */
  predicate Valid(t: DateTime) {
    0 <= t.month < 12 && 1 <= t.day <= DaysInMonth(t.year, t.month) && 0 <= t.ms < MsPerDay
  }

  type Date = t: DateTime | Valid(t) witness DateTime(1970, 0, 1, 0)

  /** Days in the months of year `y` before month `m` (`m == 12` gives the length of the year). */
  function DaysBeforeMonth(y: int, m: int): int
    requires 0 <= m <= 12
  {
    [0, 31, 59, 90, 120, 151, 181, 212, 243, 273, 304, 334, 365][m] + (if m >= 2 && IsLeapYear(y) then 1 else 0)
  }

  lemma DaysBeforeNextMonth(y: int, m: int)
    requires 0 <= m < 12
    ensures DaysBeforeMonth(y, m + 1) == DaysBeforeMonth(y, m) + DaysInMonth(y, m)
  {
  }

  /** Leap years in [0, y) (negative when y < 0). */
  function LeapYearsBefore(y: int): int {
    (y + 3) / 4 - (y + 99) / 100 + (y + 399) / 400
  }

  function DaysBeforeYear(y: int): int {
    365 * y + LeapYearsBefore(y)
  }

  /** The terms of `LeapYearsBefore` step up by one exactly at multiples of their divisor. */
  lemma FloorStep4(y: int)
    ensures (y + 4) / 4 - (y + 3) / 4 == (if y % 4 == 0 then 1 else 0)
  {
  }

  lemma FloorStep100(y: int)
    ensures (y + 100) / 100 - (y + 99) / 100 == (if y % 100 == 0 then 1 else 0)
  {
  }

  lemma FloorStep400(y: int)
    ensures (y + 400) / 400 - (y + 399) / 400 == (if y % 400 == 0 then 1 else 0)
  {
  }

  /** Consecutive year starts are one year length apart. */
  lemma YearLength(y: int)
    ensures DaysBeforeYear(y + 1) == DaysBeforeYear(y) + DaysBeforeMonth(y, 12)
  {
    FloorStep4(y);
    FloorStep100(y);
    FloorStep400(y);
    var step := LeapYearsBefore(y + 1) - LeapYearsBefore(y);
    assert step == (if y % 4 == 0 then 1 else 0) - (if y % 100 == 0 then 1 else 0) + (if y % 400 == 0 then 1 else 0);
    if y % 400 == 0 {
      CenturyOfFour(y);
    }
    if y % 100 == 0 {
      FourOfCentury(y);
    }
    assert step == (if IsLeapYear(y) then 1 else 0);
  }

  lemma CenturyOfFour(y: int)
    requires y % 400 == 0
    ensures y % 100 == 0
  {
    var q := y / 400;
    assert y == 100 * (4 * q);
  }

  lemma FourOfCentury(y: int)
    requires y % 100 == 0
    ensures y % 4 == 0
  {
    var q := y / 100;
    assert y == 4 * (25 * q);
  }

  /** Days from a fixed epoch to day `d` (any integer, counted from the 1st) of month `m` of year `y`. */
  function DayNumber(y: int, m: int, d: int): int
    requires 0 <= m < 12
  {
    DaysBeforeYear(y) + DaysBeforeMonth(y, m) + d - 1
  }

  /** Milliseconds from the epoch: the value `getTime()` orders dates by. */
  function Instant(t: Date): int {
    DayNumber(t.year, t.month, t.day) * MsPerDay + t.ms
  }

  /** The calendar day a time falls on (what `toDateString()` keys by). */
  datatype CivilDay = CivilDay(year: int, month: int, day: int)

  function DayOf(t: Date): CivilDay {
    CivilDay(t.year, t.month, t.day)
  }

  /** The year `new Date(y, m, d)` uses: 0..99 are read as 1900..1999. */
  function ConstructorYear(y: int): (r: int)
    ensures 0 <= y <= 99 ==> r == 1900 + y
    ensures !(0 <= y <= 99) ==> r == y
  {
    if 0 <= y <= 99 then 1900 + y else y
  }

  /**
   * `new Date(y, m, d)`: local midnight of day `d` of month `m`, with the
   * two-digit year rule and the day carried into neighbouring months.
   */
  function LocalMidnight(y: int, m: int, d: int): (r: Date)
    requires 0 <= m < 12
    ensures r.ms == 0
    ensures DayNumber(r.year, r.month, r.day) == DayNumber(ConstructorYear(y), m, d)
    ensures !(0 <= y <= 99) && 1 <= d <= DaysInMonth(y, m) ==> r == DateTime(y, m, d, 0)
  {
    NormalizeDay(ConstructorYear(y), m, d, 0)
  }

  /** The leap day of year 0 becomes the first of March 1900, which has no leap day. */
  lemma RebuildLeapDayOfYearZero()
    ensures DayOf(LocalMidnight(0, 1, 29)) == CivilDay(1900, 2, 1)
  {
  }

  /**
   * The date-time `ms` into day `d` of month `m` of year `y`, where `d` may be
   * below 1 or above the month's length: the excess is carried into earlier
   * or later months, as `MakeDay` does in the `Date` setters.
   */
  function NormalizeDay(y: int, m: int, d: int, ms: int): (r: Date)
    requires 0 <= m < 12 && 0 <= ms < MsPerDay
    ensures DayNumber(r.year, r.month, r.day) == DayNumber(y, m, d)
    ensures r.ms == ms
    ensures 1 <= d <= DaysInMonth(y, m) ==> r == DateTime(y, m, d, ms)
    decreases if d < 1 then 1 else 0, if d < 1 then -d else d
  {
    if d < 1 then
      if m == 0 then
        YearLength(y - 1);
        NormalizeDay(y - 1, 11, d + 31, ms)
      else
        DaysBeforeNextMonth(y, m - 1);
        NormalizeDay(y, m - 1, d + DaysInMonth(y, m - 1), ms)
    else if d <= DaysInMonth(y, m) then DateTime(y, m, d, ms)
    else if m == 11 then
      YearLength(y);
      NormalizeDay(y + 1, 0, d - 31, ms)
    else
      DaysBeforeNextMonth(y, m);
      NormalizeDay(y, m + 1, d - DaysInMonth(y, m), ms)
  }

  /** `t.setDate(d)`. */
  function SetDate(t: Date, d: int): Date {
    NormalizeDay(t.year, t.month, d, t.ms)
  }

  /** `t.setFullYear(y)`. */
  function SetFullYear(t: Date, y: int): Date {
    NormalizeDay(y, t.month, t.day, t.ms)
  }

  /** `setDate(getDate() + n)`: exactly `n` days later, at the same time of day. */
  function AddDays(t: Date, n: int): (r: Date)
    ensures Instant(r) == Instant(t) + n * MsPerDay
    ensures r.ms == t.ms
  {
    SetDate(t, t.day + n)
  }

  /**
   * The month `k` months after `t`'s month, as `setMonth(getMonth() + k)`
   * targets it: a month index past 11 moves the year on by whole years.
   */
  function TargetYear(t: Date, k: nat): int {
    t.year + (t.month + k) / 12
  }

  function TargetMonth(t: Date, k: nat): (m: int)
    ensures 0 <= m < 12
  {
    (t.month + k) % 12
  }

  /** A day past the end of a month, but at most the 31st, lands in the next month (December never overflows). */
  lemma NormalizeSpill(y: int, m: int, d: int, ms: int)
    requires 0 <= m < 12 && 0 <= ms < MsPerDay && d <= 31
    ensures d > DaysInMonth(y, m) ==>
      NormalizeDay(y, m, d, ms) == DateTime(y + (m + 1) / 12, (m + 1) % 12, d - DaysInMonth(y, m), ms)
  {
    if d > DaysInMonth(y, m) {
      var len := DaysInMonth(y, m);
      assert m < 11;
      assert NormalizeDay(y, m, d, ms) == NormalizeDay(y, m + 1, d - len, ms);
    }
  }

  /** The target month of a forward month step starts after the current date. */
  lemma TargetLater(t: Date, k: nat)
    ensures k >= 1 ==> DayNumber(TargetYear(t, k), TargetMonth(t, k), t.day) > DayNumber(t.year, t.month, t.day)
  {
    if k >= 1 {
      if TargetYear(t, k) == t.year {
        LaterMonthLater(t, TargetMonth(t, k));
      } else {
        LaterYearLater(t, TargetYear(t, k), TargetMonth(t, k));
      }
    }
  }

  lemma LaterMonthLater(t: Date, m: int)
    requires t.month < m < 12
    ensures DayNumber(t.year, m, t.day) > DayNumber(t.year, t.month, t.day)
  {
    DaysBeforeNextMonth(t.year, t.month);
    assert DaysBeforeMonth(t.year, t.month + 1) <= DaysBeforeMonth(t.year, m);
  }

  lemma LaterYearLater(t: Date, y: int, m: int)
    requires t.year < y && 0 <= m < 12
    ensures DayNumber(y, m, t.day) > DayNumber(t.year, t.month, t.day)
  {
    DayNumberWithinYear(t);
    YearStartsGrow(t.year + 1, y);
  }

  /**
   * `setMonth(getMonth() + k)`: the same day and time `k` months later when
   * that month has the day; otherwise the excess days spill into the month
   * after it.
   */
  function AddMonths(t: Date, k: nat): (r: Date)
    ensures r.ms == t.ms
    ensures t.day <= DaysInMonth(TargetYear(t, k), TargetMonth(t, k)) ==>
      r == DateTime(TargetYear(t, k), TargetMonth(t, k), t.day, t.ms)
    ensures t.day > DaysInMonth(TargetYear(t, k), TargetMonth(t, k)) ==>
      && r.day == t.day - DaysInMonth(TargetYear(t, k), TargetMonth(t, k))
      && r.month == (TargetMonth(t, k) + 1) % 12
      && r.year == TargetYear(t, k) + (TargetMonth(t, k) + 1) / 12
    ensures k >= 1 ==> Instant(r) > Instant(t)
  {
    AddMonthsShape(t, k);
    AddMonthsLater(t, k);
    NormalizeDay(TargetYear(t, k), TargetMonth(t, k), t.day, t.ms)
  }

  lemma AddMonthsShape(t: Date, k: nat)
    ensures var r := NormalizeDay(TargetYear(t, k), TargetMonth(t, k), t.day, t.ms);
      t.day > DaysInMonth(TargetYear(t, k), TargetMonth(t, k)) ==>
        r == DateTime(TargetYear(t, k) + (TargetMonth(t, k) + 1) / 12, (TargetMonth(t, k) + 1) % 12,
                      t.day - DaysInMonth(TargetYear(t, k), TargetMonth(t, k)), t.ms)
  {
    NormalizeSpill(TargetYear(t, k), TargetMonth(t, k), t.day, t.ms);
  }

  lemma AddMonthsLater(t: Date, k: nat)
    ensures k >= 1 ==> Instant(NormalizeDay(TargetYear(t, k), TargetMonth(t, k), t.day, t.ms)) > Instant(t)
  {
    if k >= 1 {
      var r := NormalizeDay(TargetYear(t, k), TargetMonth(t, k), t.day, t.ms);
      TargetLater(t, k);
      assert DayNumber(r.year, r.month, r.day) > DayNumber(t.year, t.month, t.day);
    }
  }

  /**
   * `setFullYear(getFullYear() + 1)`: the same month, day and time a year
   * later, except that 29 February becomes 1 March in a common year.
   */
  function AddYear(t: Date): (r: Date)
    ensures r.ms == t.ms
    ensures t.day <= DaysInMonth(t.year + 1, t.month) ==> r == DateTime(t.year + 1, t.month, t.day, t.ms)
    ensures t.day > DaysInMonth(t.year + 1, t.month) ==>
      t.month == 1 && t.day == 29 && r == DateTime(t.year + 1, 2, 1, t.ms)
    ensures Instant(r) > Instant(t)
  {
    AddYearShape(t);
    AddYearLater(t);
    SetFullYear(t, t.year + 1)
  }

  lemma AddYearShape(t: Date)
    ensures var r := SetFullYear(t, t.year + 1);
      && (t.day <= DaysInMonth(t.year + 1, t.month) ==> r == DateTime(t.year + 1, t.month, t.day, t.ms))
      && (t.day > DaysInMonth(t.year + 1, t.month) ==>
            t.month == 1 && t.day == 29 && r == DateTime(t.year + 1, 2, 1, t.ms))
  {
    NormalizeSpill(t.year + 1, t.month, t.day, t.ms);
  }

  lemma AddYearLater(t: Date)
    ensures Instant(SetFullYear(t, t.year + 1)) > Instant(t)
  {
    var r := SetFullYear(t, t.year + 1);
    assert DayNumber(r.year, r.month, r.day) == DayNumber(t.year + 1, t.month, t.day);
    YearLength(t.year);
    assert DaysBeforeMonth(t.year + 1, t.month) + 1 >= DaysBeforeMonth(t.year, t.month);
    assert DayNumber(r.year, r.month, r.day) > DayNumber(t.year, t.month, t.day);
  }

  /** Calendar order of two dates: year, then month, then day, then time of day. */
  predicate Before(a: Date, b: Date) {
    || a.year < b.year
    || (a.year == b.year && a.month < b.month)
    || (a.year == b.year && a.month == b.month && a.day < b.day)
    || (a.year == b.year && a.month == b.month && a.day == b.day && a.ms < b.ms)
  }

  lemma {:induction false} YearStartsGrow(y1: int, y2: int)
    requires y1 <= y2
    ensures DaysBeforeYear(y2) >= DaysBeforeYear(y1) + 365 * (y2 - y1)
    decreases y2 - y1
  {
    if y1 < y2 {
      YearStartsGrow(y1, y2 - 1);
      YearLength(y2 - 1);
    }
  }

  lemma DayNumberWithinYear(t: Date)
    ensures DaysBeforeYear(t.year) <= DayNumber(t.year, t.month, t.day) < DaysBeforeYear(t.year + 1)
  {
    YearLength(t.year);
    DaysBeforeNextMonth(t.year, t.month);
    MonthsBeforeBound(t.year, t.month + 1);
  }

  lemma MonthsBeforeBound(y: int, m: int)
    requires 0 <= m <= 12
    ensures DaysBeforeMonth(y, m) <= DaysBeforeMonth(y, 12)
  {
  }

  lemma DayNumberWithinMonth(a: Date, b: Date)
    requires a.year == b.year && a.month < b.month
    ensures DayNumber(a.year, a.month, a.day) < DayNumber(b.year, b.month, b.day)
  {
    DaysBeforeNextMonth(a.year, a.month);
    assert DaysBeforeMonth(a.year, a.month + 1) <= DaysBeforeMonth(a.year, b.month);
  }

  /** Comparing instants is comparing dates on the calendar: the order `due < now` in the source means. */
  lemma InstantOrder(a: Date, b: Date)
    ensures Instant(a) < Instant(b) <==> Before(a, b)
  {
    DayNumberWithinYear(a);
    DayNumberWithinYear(b);
    if a.year < b.year {
      YearStartsGrow(a.year + 1, b.year);
    } else if b.year < a.year {
      YearStartsGrow(b.year + 1, a.year);
    } else if a.month < b.month {
      DayNumberWithinMonth(a, b);
    } else if b.month < a.month {
      DayNumberWithinMonth(b, a);
    }
  }
}

=== FILE: collections.dfy ===
/**
 * Generic sequence helpers shared by the store and the views: order-preserving
 * filtering, subsequences, and grouping a list under a key function (the
 * `reduce`-into-a-Record and `forEach`-into-a-Map idioms of the source).
 */
module Collections {
  import opened Wrappers

  /** `a` can be obtained from `b` by deleting elements; order is kept. */
  ghost predicate IsSubsequence<T>(a: seq<T>, b: seq<T>)
    decreases |b|
  {
    if b == [] then a == []
    else IsSubsequence(a, b[1..]) || (a != [] && a[0] == b[0] && IsSubsequence(a[1..], b[1..]))
  }

  lemma {:induction false} SubsequenceRefl<T>(xs: seq<T>)
    ensures IsSubsequence(xs, xs)
    decreases |xs|
  {
    if xs != [] {
      SubsequenceRefl(xs[1..]);
    }
  }

  /** The elements of `xs` satisfying `p`, in their original order (`Array.prototype.filter`). */
  function Filter<T(==,!new)>(xs: seq<T>, p: T -> bool): (r: seq<T>)
    ensures |r| <= |xs|
    ensures forall x :: x in r <==> x in xs && p(x)
    ensures forall i :: 0 <= i < |r| ==> p(r[i])
    decreases |xs|
  {
    if xs == [] then []
    else (if p(xs[0]) then [xs[0]] else []) + Filter(xs[1..], p)
  }

  lemma {:induction false} FilterIsSubsequence<T(!new)>(xs: seq<T>, p: T -> bool)
    ensures IsSubsequence(Filter(xs, p), xs)
    decreases |xs|
  {
    if xs != [] {
      var rest := Filter(xs[1..], p);
      FilterIsSubsequence(xs[1..], p);
      if p(xs[0]) {
        assert Filter(xs, p) == [xs[0]] + rest;
        assert ([xs[0]] + rest)[1..] == rest;
      } else {
        assert Filter(xs, p) == rest;
      }
    }
  }

  /** Filtering keeps every copy of an element `p` accepts and none of the others. */
  lemma {:induction false} FilterCount<T(!new)>(xs: seq<T>, p: T -> bool)
    ensures forall x :: multiset(Filter(xs, p))[x] == if p(x) then multiset(xs)[x] else 0
    decreases |xs|
  {
    if xs != [] {
      FilterCount(xs[1..], p);
      assert xs == [xs[0]] + xs[1..];
      assert multiset(xs) == multiset{xs[0]} + multiset(xs[1..]);
    }
  }

  /** Filtering a concatenation filters each part. */
  lemma {:induction false} FilterAppend<T(!new)>(xs: seq<T>, ys: seq<T>, p: T -> bool)
    ensures Filter(xs + ys, p) == Filter(xs, p) + Filter(ys, p)
    decreases |xs|
  {
    if xs != [] {
      FilterAppend(xs[1..], ys, p);
      assert (xs + ys)[1..] == xs[1..] + ys;
    } else {
      assert xs + ys == ys;
    }
  }

  /** Filtering keeps everything exactly when every element qualifies. */
  lemma {:induction false} FilterAll<T(!new)>(xs: seq<T>, p: T -> bool)
    requires forall i :: 0 <= i < |xs| ==> p(xs[i])
    ensures Filter(xs, p) == xs
    decreases |xs|
  {
    if xs != [] {
      FilterAll(xs[1..], p);
    }
  }

  /** Filters under predicates that agree on every element of `xs` are equal. */
  lemma {:induction false} FilterCongruent<T(!new)>(xs: seq<T>, p: T -> bool, q: T -> bool)
    requires forall i :: 0 <= i < |xs| ==> p(xs[i]) == q(xs[i])
    ensures Filter(xs, p) == Filter(xs, q)
    decreases |xs|
  {
    if xs != [] {
      FilterCongruent(xs[1..], p, q);
    }
  }

  /** The index of the first element at or after `from` satisfying `p` (`findIndex`). */
  function FindFirst<T>(xs: seq<T>, p: T -> bool, from: nat): (r: Option<nat>)
    ensures r.Some? ==> from <= r.value < |xs| && p(xs[r.value])
    ensures r.Some? ==> forall j :: from <= j < r.value ==> !p(xs[j])
    ensures r.None? <==> forall j :: from <= j < |xs| ==> !p(xs[j])
    decreases |xs| - from
  {
    if from >= |xs| then None
    else if p(xs[from]) then Some(from)
    else FindFirst(xs, p, from + 1)
  }

  /** Putting an element `p` rejects in front moves the first match one place on. */
  lemma FindFirstShifted<T>(xs: seq<T>, ys: seq<T>, p: T -> bool)
    requires |ys| == |xs| + 1 && ys[1..] == xs && !p(ys[0])
    ensures FindFirst(ys, p, 0).Some? <==> FindFirst(xs, p, 0).Some?
    ensures FindFirst(xs, p, 0).Some? ==> FindFirst(ys, p, 0) == Some(FindFirst(xs, p, 0).value + 1)
  {
    var b := FindFirst(xs, p, 0);
    if b.Some? {
      assert p(ys[b.value + 1]);
      forall j | 0 <= j < b.value + 1
        ensures !p(ys[j])
      {
        if j > 0 {
          assert ys[j] == xs[j - 1];
        }
      }
    } else {
      forall j | 0 <= j < |ys|
        ensures !p(ys[j])
      {
        if j > 0 {
          assert ys[j] == xs[j - 1];
        }
      }
    }
  }

  /** Two sequences on which `p` agrees position by position have the same first match. */
  lemma FindFirstSame<T>(xs: seq<T>, ys: seq<T>, p: T -> bool, q: T -> bool)
    requires |xs| == |ys| && forall j :: 0 <= j < |xs| ==> (p(xs[j]) <==> q(ys[j]))
    ensures FindFirst(xs, p, 0) == FindFirst(ys, q, 0)
  {
    var a := FindFirst(xs, p, 0);
    var b := FindFirst(ys, q, 0);
    if a.Some? && b.Some? {
      assert !(a.value < b.value) && !(b.value < a.value);
    }
  }

  /** Two filters whose predicates never hold together select at most |xs| elements between them. */
  lemma {:induction false} FilterDisjointCount<T(!new)>(xs: seq<T>, p: T -> bool, q: T -> bool)
    requires forall i :: 0 <= i < |xs| ==> !(p(xs[i]) && q(xs[i]))
    ensures |Filter(xs, p)| + |Filter(xs, q)| <= |xs|
    decreases |xs|
  {
    if xs != [] {
      FilterDisjointCount(xs[1..], p, q);
    }
  }

  /** The elements of `xs` whose key is `k`, in order. */
  function Matching<K(==), V>(xs: seq<V>, key: V -> K, k: K): (r: seq<V>)
    ensures |r| <= |xs|
    ensures forall v :: v in r ==> v in xs && key(v) == k
    decreases |xs|
  {
    if xs == [] then []
    else Matching(xs[..|xs| - 1], key, k) + (if key(xs[|xs| - 1]) == k then [xs[|xs| - 1]] else [])
  }

  lemma {:induction false} MatchingEmpty<K, V>(xs: seq<V>, key: V -> K, k: K)
    requires forall i :: 0 <= i < |xs| ==> key(xs[i]) != k
    ensures Matching(xs, key, k) == []
    decreases |xs|
  {
    if xs != [] {
      MatchingEmpty(xs[..|xs| - 1], key, k);
    }
  }

  /** Every element with key `k` is in the group for `k`. */
  lemma {:induction false} MatchingComplete<K, V>(xs: seq<V>, key: V -> K, i: nat)
    requires i < |xs|
    ensures xs[i] in Matching(xs, key, key(xs[i]))
    decreases |xs|
  {
    if i < |xs| - 1 {
      MatchingComplete(xs[..|xs| - 1], key, i);
    }
  }

  /** The keys that occur in `xs`. */
  ghost predicate Occurs<K, V>(xs: seq<V>, key: V -> K, k: K) {
    exists i :: 0 <= i < |xs| && key(xs[i]) == k
  }

  /** Group `xs` into a map from key to the elements with that key, in input order. */
  function GroupBy<K(==), V>(xs: seq<V>, key: V -> K): (g: map<K, seq<V>>)
    decreases |xs|
  {
    if xs == [] then map[]
    else
      var g := GroupBy(xs[..|xs| - 1], key);
      var x := xs[|xs| - 1];
      g[key(x) := (if key(x) in g then g[key(x)] else []) + [x]]
  }

  /** The grouping places each element under its own key and nowhere else, in input order. */
  lemma {:induction false} GroupByContents<K, V>(xs: seq<V>, key: V -> K)
    ensures forall k :: k in GroupBy(xs, key) <==> Occurs(xs, key, k)
    ensures forall k :: k in GroupBy(xs, key) ==> GroupBy(xs, key)[k] == Matching(xs, key, k)
    decreases |xs|
  {
    if xs != [] {
      var init := xs[..|xs| - 1];
      var x := xs[|xs| - 1];
      GroupByContents(init, key);
      var g := GroupBy(init, key);
      forall k | k in GroupBy(xs, key)
        ensures GroupBy(xs, key)[k] == Matching(xs, key, k)
      {
        if k == key(x) && k !in g {
          assert !Occurs(init, key, k);
          MatchingEmpty(init, key, k);
        }
      }
      forall k
        ensures k in GroupBy(xs, key) <==> Occurs(xs, key, k)
      {
        if Occurs(xs, key, k) && k != key(x) {
          var i :| 0 <= i < |xs| && key(xs[i]) == k;
          assert key(init[i]) == k;
        }
        if k in g {
          var i :| 0 <= i < |init| && key(init[i]) == k;
          assert key(xs[i]) == k;
        }
      }
    }
  }

  /** Total number of elements across the groups of an ordered grouping. */
  function TotalSize<K, V>(es: seq<(K, seq<V>)>): nat {
    if es == [] then 0 else TotalSize(es[..|es| - 1]) + |es[|es| - 1].1|
  }

  predicate DistinctKeys<K(==), V>(es: seq<(K, seq<V>)>) {
    forall i, j :: 0 <= i < j < |es| ==> es[i].0 != es[j].0
  }

  ghost predicate HasKey<K, V>(es: seq<(K, seq<V>)>, k: K) {
    exists j :: 0 <= j < |es| && es[j].0 == k
  }

  /** Append `v` to the entry for `k`, or add a new entry `(k, [v])` at the end. */
  function Place<K(==), V>(es: seq<(K, seq<V>)>, k: K, v: V): (r: seq<(K, seq<V>)>)
    ensures |r| == |es| || |r| == |es| + 1
    decreases |es|
  {
    if es == [] then [(k, [v])]
    else if es[0].0 == k then [(k, es[0].1 + [v])] + es[1..]
    else [es[0]] + Place(es[1..], k, v)
  }

  lemma PlaceEntries<K, V>(es: seq<(K, seq<V>)>, k: K, v: V)
    requires DistinctKeys(es)
    ensures DistinctKeys(Place(es, k, v))
    ensures forall j :: 0 <= j < |es| ==> Place(es, k, v)[j].0 == es[j].0
    ensures forall j :: 0 <= j < |es| && es[j].0 != k ==> Place(es, k, v)[j] == es[j]
    ensures forall j :: 0 <= j < |es| && es[j].0 == k ==> Place(es, k, v)[j].1 == es[j].1 + [v]
    ensures HasKey(es, k) <==> |Place(es, k, v)| == |es|
    ensures forall k' :: HasKey(Place(es, k, v), k') <==> HasKey(es, k') || k' == k
    ensures |Place(es, k, v)| == |es| + 1 ==> Place(es, k, v)[|es|] == (k, [v])
    ensures TotalSize(Place(es, k, v)) == TotalSize(es) + 1
  {
    PlaceShape(es, k, v);
    PlaceKeys(es, Place(es, k, v), k, v);
    PlaceTotal(es, k, v);
  }

  /** `Place` keeps every entry in its position, extends the one for `k`, or appends `(k, [v])`. */
  lemma PlaceShape<K, V>(es: seq<(K, seq<V>)>, k: K, v: V)
    requires DistinctKeys(es)
    ensures forall j :: 0 <= j < |es| ==> Place(es, k, v)[j].0 == es[j].0
    ensures forall j :: 0 <= j < |es| && es[j].0 != k ==> Place(es, k, v)[j] == es[j]
    ensures forall j :: 0 <= j < |es| && es[j].0 == k ==> Place(es, k, v)[j].1 == es[j].1 + [v]
    ensures HasKey(es, k) <==> |Place(es, k, v)| == |es|
    ensures |Place(es, k, v)| == |es| + 1 ==> Place(es, k, v)[|es|] == (k, [v])
  {
    PlacePositions(es, k, v);
    PlaceGrowth(es, k, v);
  }

  lemma {:induction false} PlacePositions<K, V>(es: seq<(K, seq<V>)>, k: K, v: V)
    requires DistinctKeys(es)
    ensures forall j :: 0 <= j < |es| ==> Place(es, k, v)[j].0 == es[j].0
    ensures forall j :: 0 <= j < |es| && es[j].0 != k ==> Place(es, k, v)[j] == es[j]
    ensures forall j :: 0 <= j < |es| && es[j].0 == k ==> Place(es, k, v)[j].1 == es[j].1 + [v]
    decreases |es|
  {
    if es != [] && es[0].0 != k {
      PlacePositions(es[1..], k, v);
      assert Place(es, k, v) == [es[0]] + Place(es[1..], k, v);
    }
  }

  lemma {:induction false} PlaceGrowth<K, V>(es: seq<(K, seq<V>)>, k: K, v: V)
    ensures HasKey(es, k) <==> |Place(es, k, v)| == |es|
    ensures |Place(es, k, v)| == |es| + 1 ==> Place(es, k, v)[|es|] == (k, [v])
    decreases |es|
  {
    if es != [] && es[0].0 != k {
      PlaceGrowth(es[1..], k, v);
      assert Place(es, k, v) == [es[0]] + Place(es[1..], k, v);
      if HasKey(es, k) {
        var j :| 0 <= j < |es| && es[j].0 == k;
        assert es[1..][j - 1].0 == k;
      }
      if HasKey(es[1..], k) {
        var j :| 0 <= j < |es[1..]| && es[1..][j].0 == k;
        assert es[j + 1].0 == k;
      }
    }
  }

  /** The keys after `Place` are the keys before plus `k`, still without repeats. */
  lemma PlaceKeys<K, V>(es: seq<(K, seq<V>)>, r: seq<(K, seq<V>)>, k: K, v: V)
    requires DistinctKeys(es)
    requires (|r| == |es| || |r| == |es| + 1) && forall j :: 0 <= j < |es| ==> r[j].0 == es[j].0
    requires HasKey(es, k) <==> |r| == |es|
    requires |r| == |es| + 1 ==> r[|es|] == (k, [v])
    ensures DistinctKeys(r)
    ensures forall k' :: HasKey(r, k') <==> HasKey(es, k') || k' == k
  {
    forall k' | HasKey(r, k')
      ensures HasKey(es, k') || k' == k
    {
      var j :| 0 <= j < |r| && r[j].0 == k';
      if j < |es| {
        assert es[j].0 == k';
      }
    }
    forall k' | HasKey(es, k') || k' == k
      ensures HasKey(r, k')
    {
      if HasKey(es, k') {
        var j :| 0 <= j < |es| && es[j].0 == k';
        assert r[j].0 == k';
      } else {
        assert r[|es|].0 == k;
      }
    }
    forall i, j | 0 <= i < j < |r|
      ensures r[i].0 != r[j].0
    {
      if j == |es| {
        assert r[i].0 == es[i].0;
      }
    }
  }

  lemma {:induction false} TotalSizeCons<K, V>(e: (K, seq<V>), es: seq<(K, seq<V>)>)
    ensures TotalSize([e] + es) == |e.1| + TotalSize(es)
    decreases |es|
  {
    if es != [] {
      var n := |es|;
      assert ([e] + es)[..n] == [e] + es[..n - 1];
      TotalSizeCons(e, es[..n - 1]);
    } else {
      assert ([e] + es)[..0] == [];
    }
  }

  lemma {:induction false} PlaceTotal<K, V>(es: seq<(K, seq<V>)>, k: K, v: V)
    ensures TotalSize(Place(es, k, v)) == TotalSize(es) + 1
    decreases |es|
  {
    if es == [] {
      assert [(k, [v])][..0] == [];
    } else if es[0].0 == k {
      assert es == [es[0]] + es[1..];
      TotalSizeCons(es[0], es[1..]);
      TotalSizeCons((k, es[0].1 + [v]), es[1..]);
    } else {
      assert es == [es[0]] + es[1..];
      PlaceTotal(es[1..], k, v);
      TotalSizeCons(es[0], es[1..]);
      TotalSizeCons(es[0], Place(es[1..], k, v));
    }
  }

  /** Group `xs` into entries ordered by first appearance of each key (a `Map` filled by `forEach`). */
  function GroupOrdered<K(==), V>(xs: seq<V>, key: V -> K): seq<(K, seq<V>)>
    decreases |xs|
  {
    if xs == [] then []
    else Place(GroupOrdered(xs[..|xs| - 1], key), key(xs[|xs| - 1]), xs[|xs| - 1])
  }

  /** The ordered grouping has distinct keys and loses no element. */
  lemma {:induction false} GroupOrderedShape<K, V>(xs: seq<V>, key: V -> K)
    ensures DistinctKeys(GroupOrdered(xs, key))
    ensures TotalSize(GroupOrdered(xs, key)) == |xs|
    decreases |xs|
  {
    if xs != [] {
      var init := xs[..|xs| - 1];
      GroupOrderedShape(init, key);
      PlaceEntries(GroupOrdered(init, key), key(xs[|xs| - 1]), xs[|xs| - 1]);
    }
  }

  /** The ordered grouping has an entry for a key exactly when the key occurs. */
  lemma {:induction false} GroupOrderedKeys<K, V>(xs: seq<V>, key: V -> K)
    ensures forall k :: Occurs(xs, key, k) <==> HasKey(GroupOrdered(xs, key), k)
    decreases |xs|
  {
    if xs != [] {
      var init := xs[..|xs| - 1];
      var x := xs[|xs| - 1];
      GroupOrderedKeys(init, key);
      GroupOrderedShape(init, key);
      PlaceEntries(GroupOrdered(init, key), key(x), x);
      forall k
        ensures Occurs(xs, key, k) <==> Occurs(init, key, k) || k == key(x)
      {
        if Occurs(xs, key, k) && k != key(x) {
          var i :| 0 <= i < |xs| && key(xs[i]) == k;
          assert key(init[i]) == k;
        }
        if Occurs(init, key, k) {
          var i :| 0 <= i < |init| && key(init[i]) == k;
          assert key(xs[i]) == k;
        }
      }
    }
  }

  /** Each entry of the ordered grouping holds exactly its key's elements, in input order. */
  lemma {:induction false} GroupOrderedGroups<K, V>(xs: seq<V>, key: V -> K)
    ensures forall j :: 0 <= j < |GroupOrdered(xs, key)| ==>
      GroupOrdered(xs, key)[j].1 == Matching(xs, key, GroupOrdered(xs, key)[j].0)
    decreases |xs|
  {
    if xs != [] {
      var init := xs[..|xs| - 1];
      var x := xs[|xs| - 1];
      var es := GroupOrdered(init, key);
      GroupOrderedGroups(init, key);
      GroupOrderedShape(init, key);
      GroupOrderedKeys(init, key);
      PlaceEntries(es, key(x), x);
      var r := GroupOrdered(xs, key);
      forall j | 0 <= j < |r|
        ensures r[j].1 == Matching(xs, key, r[j].0)
      {
        if j == |es| {
          assert !HasKey(es, key(x));
          MatchingEmpty(init, key, key(x));
        }
      }
    }
  }

  /** The map view of an ordered grouping. */
  function ToMap<K(==), V>(es: seq<(K, seq<V>)>): map<K, seq<V>>
    decreases |es|
  {
    if es == [] then map[] else ToMap(es[..|es| - 1])[es[|es| - 1].0 := es[|es| - 1].1]
  }

  lemma {:induction false} ToMapLookup<K, V>(es: seq<(K, seq<V>)>)
    requires DistinctKeys(es)
    ensures forall k :: k in ToMap(es) <==> HasKey(es, k)
    ensures forall j :: 0 <= j < |es| ==> es[j].0 in ToMap(es) && ToMap(es)[es[j].0] == es[j].1
    decreases |es|
  {
    if es != [] {
      ToMapLookup(es[..|es| - 1]);
    }
  }

  lemma MapExt<K, V>(m: map<K, V>, g: map<K, V>)
    requires forall k :: k in m <==> k in g
    requires forall k :: k in m ==> m[k] == g[k]
    ensures m == g
  {
  }

  /** The insertion-ordered grouping and the keyed grouping agree on every key. */
  lemma GroupOrderedAgrees<K, V>(xs: seq<V>, key: V -> K)
    ensures ToMap(GroupOrdered(xs, key)) == GroupBy(xs, key)
  {
    var es := GroupOrdered(xs, key);
    var m := ToMap(es);
    var g := GroupBy(xs, key);
    GroupOrderedShape(xs, key);
    ToMapLookup(es);
    GroupOrderedKeys(xs, key);
    GroupByContents(xs, key);
    GroupOrderedGroups(xs, key);
    forall k
      ensures k in m <==> k in g
    {
      assert k in m <==> HasKey(es, k);
      assert HasKey(es, k) <==> Occurs(xs, key, k);
    }
    forall k | k in m
      ensures k in g && m[k] == g[k]
    {
      assert HasKey(es, k);
      var j :| 0 <= j < |es| && es[j].0 == k;
      assert m[k] == es[j].1;
    }
    MapExt(m, g);
  }

  /** Keep the elements `f` maps to a value, each paired with that value (`map` then `filter(Boolean)`). */
  function FilterMap<T, U>(xs: seq<T>, f: T -> Option<U>): (r: seq<(T, U)>)
    ensures |r| <= |xs|
    ensures forall i :: 0 <= i < |r| ==> f(r[i].0) == Some(r[i].1)
    decreases |xs|
  {
    if xs == [] then []
    else
      var rest := FilterMap(xs[1..], f);
      match f(xs[0])
      case Some(u) => [(xs[0], u)] + rest
      case None => rest
  }

  function Firsts<T, U>(ps: seq<(T, U)>): (r: seq<T>)
    ensures |r| == |ps|
    ensures forall i :: 0 <= i < |ps| ==> r[i] == ps[i].0
  {
    seq(|ps|, i requires 0 <= i < |ps| => ps[i].0)
  }

  /** Mapping-and-filtering a concatenation concatenates the results. */
  lemma {:induction false} FilterMapAppend<T, U>(xs: seq<T>, ys: seq<T>, f: T -> Option<U>)
    ensures FilterMap(xs + ys, f) == FilterMap(xs, f) + FilterMap(ys, f)
    decreases |xs|
  {
    if xs != [] {
      FilterMapAppend(xs[1..], ys, f);
      assert (xs + ys)[0] == xs[0];
      assert (xs + ys)[1..] == xs[1..] + ys;
    } else {
      assert xs + ys == ys;
    }
  }

  /** The elements `FilterMap` keeps are exactly those `f` maps to a value, in order. */
  lemma {:induction false} FilterMapKeeps<T(!new), U>(xs: seq<T>, f: T -> Option<U>, p: T -> bool)
    requires forall x :: p(x) <==> f(x).Some?
    ensures Firsts(FilterMap(xs, f)) == Filter(xs, p)
    decreases |xs|
  {
    if xs != [] {
      FilterMapKeeps(xs[1..], f, p);
      var rest := FilterMap(xs[1..], f);
      if f(xs[0]).Some? {
        assert FilterMap(xs, f) == [(xs[0], f(xs[0]).value)] + rest;
        assert Firsts(FilterMap(xs, f)) == [xs[0]] + Firsts(rest);
      }
    }
  }

  predicate SortedBy<T>(xs: seq<T>, key: T -> int) {
    forall i, j :: 0 <= i < j < |xs| ==> key(xs[i]) <= key(xs[j])
  }

  /** Insert after every element whose key is no larger, so equal keys stay in arrival order. */
  function InsertBy<T(==)>(x: T, xs: seq<T>, key: T -> int): (r: seq<T>)
    requires SortedBy(xs, key)
    ensures SortedBy(r, key)
    ensures multiset(r) == multiset(xs) + multiset{x}
    ensures |r| == |xs| + 1
    decreases |xs|
  {
    if xs == [] then [x]
    else if key(xs[|xs| - 1]) <= key(x) then xs + [x]
    else
      var n := |xs| - 1;
      var init := InsertBy(x, xs[..n], key);
      KeysBelow(init, xs[..n], x, key, key(xs[n]));
      assert xs == xs[..n] + [xs[n]];
      init + [xs[n]]
  }

  /** A rearrangement of `ys` plus `x` has no key above a bound that `x` and all of `ys` respect. */
  lemma KeysBelow<T>(r: seq<T>, ys: seq<T>, x: T, key: T -> int, b: int)
    requires multiset(r) == multiset(ys) + multiset{x}
    requires forall j :: 0 <= j < |ys| ==> key(ys[j]) <= b
    requires key(x) <= b
    ensures forall i :: 0 <= i < |r| ==> key(r[i]) <= b
  {
    forall i | 0 <= i < |r|
      ensures key(r[i]) <= b
    {
      assert r[i] in multiset(r);
      if r[i] != x {
        assert r[i] in multiset(ys);
        var j :| 0 <= j < |ys| && ys[j] == r[i];
      }
    }
  }

  /** A stable sort by an integer key: an insertion sort over the list from left to right. */
  function SortBy<T(==)>(xs: seq<T>, key: T -> int): (r: seq<T>)
    ensures SortedBy(r, key)
    ensures multiset(r) == multiset(xs)
    ensures |r| == |xs|
    decreases |xs|
  {
    if xs == [] then []
    else
      var n := |xs| - 1;
      assert xs == xs[..n] + [xs[n]];
      InsertBy(xs[n], SortBy(xs[..n], key), key)
  }

  /** The `n` elements with the least keys, in key order (all of them when there are fewer). */
  function Least<T(==)>(xs: seq<T>, n: nat, key: T -> int): (r: seq<T>)
    ensures |r| == if |xs| < n then |xs| else n
    ensures SortedBy(r, key)
    ensures multiset(r) <= multiset(xs)
    ensures forall y :: y in multiset(xs) - multiset(r) ==>
      forall i :: 0 <= i < |r| ==> key(r[i]) <= key(y)
  {
    var sorted := SortBy(xs, key);
    var m := if |sorted| < n then |sorted| else n;
    PrefixLeast(sorted, m, key);
    sorted[..m]
  }

  /** In a sorted list, a prefix holds keys no larger than anything the prefix leaves out. */
  lemma PrefixLeast<T>(sorted: seq<T>, n: nat, key: T -> int)
    requires SortedBy(sorted, key) && n <= |sorted|
    ensures multiset(sorted[..n]) <= multiset(sorted)
    ensures forall y :: y in multiset(sorted) - multiset(sorted[..n]) ==>
      forall i :: 0 <= i < n ==> key(sorted[..n][i]) <= key(y)
  {
    assert sorted == sorted[..n] + sorted[n..];
    assert multiset(sorted) == multiset(sorted[..n]) + multiset(sorted[n..]);
    forall y | y in multiset(sorted) - multiset(sorted[..n])
      ensures forall i :: 0 <= i < n ==> key(sorted[..n][i]) <= key(y)
    {
      assert y in multiset(sorted[n..]);
      var j :| 0 <= j < |sorted| - n && sorted[n..][j] == y;
      assert sorted[n + j] == y;
    }
  }
}

=== FILE: dashboard.dfy ===
/**
 * The advisor dashboard: cycling through the clients, the review list's
 * "Request Update" action with its year bump, the "Add Request" prefill, the
 * dashboard's own next-due-date rule, and the three lists it cuts out of
 * the store (outstanding requests, update requests, prepared reports).
 */
module AdvisorDashboard {
  import opened Wrappers
  import opened Text
  import opened Calendar
  import opened Collections
  import opened Documents
  import opened DocumentStore
  import opened Schedule
  import opened RequestPopup

  /** `nextClient` over `n` clients: one step forward, wrapping to the first. */
  function NextClient(i: nat, n: nat): (r: nat)
    requires i < n
    ensures r < n
    ensures r == (if i + 1 == n then 0 else i + 1)
  {
    (i + 1) % n
  }

  /** `prevClient`: one step back, wrapping to the last. */
  function PrevClient(i: nat, n: nat): (r: nat)
    requires i < n
    ensures r < n
    ensures r == (if i == 0 then n - 1 else i - 1)
  {
    (i - 1 + n) % n
  }

  /** The two steps undo each other. */
  lemma CyclingInverts(i: nat, n: nat)
    requires i < n
    ensures PrevClient(NextClient(i, n), n) == i
    ensures NextClient(PrevClient(i, n), n) == i
  {
  }

  /** `k` steps forward from `i`. */
  function Advance(i: nat, n: nat, k: nat): (r: nat)
    requires i < n
    ensures r < n
    decreases k
  {
    if k == 0 then i else NextClient(Advance(i, n, k - 1), n)
  }

  /** Stepping forward from the first client visits every client in order, and `n` steps come back to the first. */
  lemma {:induction false} AdvanceFromFirst(n: nat, k: nat)
    requires 0 < n && k <= n
    ensures k < n ==> Advance(0, n, k) == k
    ensures k == n ==> Advance(0, n, k) == 0
    decreases k
  {
    if k > 0 {
      AdvanceFromFirst(n, k - 1);
    }
  }

  /**
   * `initialIndex`: the position of the first client with the given id; the
   * first client when no id is given, when it is empty, or when no client has it.
   */
  function InitialIndex(clientIds: seq<string>, initialClientId: Option<string>): (r: nat)
    ensures r == 0 || r < |clientIds|
    ensures !Truthy(initialClientId) ==> r == 0
    ensures Truthy(initialClientId) && (exists k :: 0 <= k < |clientIds| && clientIds[k] == initialClientId.value) ==>
      clientIds[r] == initialClientId.value && forall j :: 0 <= j < r ==> clientIds[j] != initialClientId.value
    ensures Truthy(initialClientId) && (forall k :: 0 <= k < |clientIds| ==> clientIds[k] != initialClientId.value) ==> r == 0
  {
    if !Truthy(initialClientId) then 0
    else
      match FindFirst(clientIds, (c: string) => c == initialClientId.value, 0)
      case Some(k) => k
      case None => 0
  }

  /** The status a reviewed client document can have. */
  datatype ReviewStatus = Pending | Reviewed | NeedsUpdate

  /** A document of the client under review, as the dashboard's review list holds it. */
  datatype ClientDocument = ClientDocument(
    id: string,
    name: string,
    kind: string,
    uploadedAt: Date,
    size: string,
    status: ReviewStatus,
    hasUpdateRequest: bool,
    updateRequestedBy: Option<string>,
    updateRequestedAt: Option<Date>,
    updateRequestDescription: Option<string>,
    requestedVersion: Option<string>)

  /** The advisor the dashboard acts as. */
  const Advisor: string := "John Smith"

  /**
   * The version an update asks for: the year after the first word-bounded
   * 19xx/20xx year in the name, or the current year when there is none.
   */
  function RequestedYear(name: string, currentYear: int): (y: int)
    ensures YearToken(name).None? <==> (forall i :: !YearAt(name, i))
    ensures YearToken(name).None? ==> y == currentYear
    ensures YearToken(name).Some? ==>
      && 1901 <= y <= 2100
      && exists i :: YearAt(name, i) && (forall j :: 0 <= j < i ==> !YearAt(name, j)) && NatToString(y - 1) == name[i..i + 4]
  {
    match YearToken(name)
    case None => currentYear
    case Some(t) =>
      YearTokenValue(name);
      ParseDigits(t) + 1
  }

  /** The token `YearToken` returns is the first match, denotes a year of 1900..2099, and renders back to itself. */
  lemma YearTokenValue(name: string)
    requires YearToken(name).Some?
    ensures var t := YearToken(name).value;
      && 1900 <= ParseDigits(t) <= 2099 && NatToString(ParseDigits(t)) == t
      && exists i :: YearAt(name, i) && (forall j :: 0 <= j < i ==> !YearAt(name, j)) && t == name[i..i + 4]
  {
    var t := YearToken(name).value;
    var i := FindYear(name, 0).value;
    assert t == name[i..i + 4];
    assert t[0] == name[i] && t[1] == name[i + 1];
    PrintParse(t);
    FourDigits(t);
  }

  /** A four-digit string read as a number, digit by digit. */
  lemma FourDigits(t: string)
    requires |t| == 4 && AllDigits(t)
    ensures ParseDigits(t) == 1000 * (t[0] as int - 48) + 100 * (t[1] as int - 48) + 10 * (t[2] as int - 48) + (t[3] as int - 48)
  {
    var d := (i: int) requires 0 <= i < 4 => t[i] as int - 48;
    assert t[..3][..2][..1][..0] == [];
    assert t[..3][..2][..1] == t[..1];
    assert t[..3][..2] == t[..2];
    assert ParseDigits(t[..1]) == d(0);
    assert ParseDigits(t[..2]) == d(0) * 10 + d(1);
    assert ParseDigits(t[..3]) == (d(0) * 10 + d(1)) * 10 + d(2);
  }

  /** The note attached to an update request. */
  function UpdateDescription(name: string, year: int): string {
    "Please upload the updated version of " + name + " for " + IntToString(year) + "."
  }

  /**
   * `handleRequestUpdate` for the clicked document: every entry with its id
   * is marked as having an update request, from the dashboard's advisor, for
   * the year after the one in its name. Other entries are untouched.
   */
  function HandleRequestUpdate(docs: seq<ClientDocument>, doc: ClientDocument, clock: Clock): (r: seq<ClientDocument>)
    ensures |r| == |docs|
    ensures forall k :: 0 <= k < |docs| && docs[k].id != doc.id ==> r[k] == docs[k]
    ensures forall k :: 0 <= k < |docs| && docs[k].id == doc.id ==>
      var year := RequestedYear(doc.name, clock.local.year);
      && r[k].hasUpdateRequest
      && r[k].updateRequestedBy == Some(Advisor) && r[k].updateRequestedAt == Some(clock.local)
      && r[k].requestedVersion == Some(IntToString(year))
      && r[k].updateRequestDescription == Some(UpdateDescription(doc.name, year))
      && r[k].(hasUpdateRequest := docs[k].hasUpdateRequest, updateRequestedBy := docs[k].updateRequestedBy,
               updateRequestedAt := docs[k].updateRequestedAt, updateRequestDescription := docs[k].updateRequestDescription,
               requestedVersion := docs[k].requestedVersion) == docs[k]
  {
    var year := RequestedYear(doc.name, clock.local.year);
    seq(|docs|, k requires 0 <= k < |docs| =>
      if docs[k].id == doc.id
      then docs[k].(hasUpdateRequest := true, updateRequestedBy := Some(Advisor), updateRequestedAt := Some(clock.local),
                    updateRequestDescription := Some(UpdateDescription(doc.name, year)),
                    requestedVersion := Some(IntToString(year)))
      else docs[k])
  }

  /** Pressing "Request Update" twice at the same moment is the same as pressing it once. */
  lemma RequestUpdateIdempotent(docs: seq<ClientDocument>, doc: ClientDocument, clock: Clock)
    ensures HandleRequestUpdate(HandleRequestUpdate(docs, doc, clock), doc, clock) == HandleRequestUpdate(docs, doc, clock)
  {
  }

  /** A document whose id is not in the list changes nothing. */
  lemma RequestUpdateUnknownId(docs: seq<ClientDocument>, doc: ClientDocument, clock: Clock)
    requires forall k :: 0 <= k < |docs| ==> docs[k].id != doc.id
    ensures HandleRequestUpdate(docs, doc, clock) == docs
  {
  }

  /** The version string read as a number is one more than the year found in the name. */
  lemma VersionIsNextYear(name: string, currentYear: int)
    requires YearToken(name).Some?
    ensures var v := IntToString(RequestedYear(name, currentYear));
      AllDigits(v) && ParseDigits(v) == ParseDigits(YearToken(name).value) + 1
  {
    ParsePrint(RequestedYear(name, currentYear) as nat);
  }

  /** "Tax Return 2023.pdf" asks for the 2024 version; a name without a year asks for the current year. */
  lemma RequestedYearExamples()
    ensures RequestedYear("Tax Return 2023.pdf", 2025) == 2024
    ensures RequestedYear("Bank Statement June.pdf", 2025) == 2025
  {
    TaxReturnYear("Tax Return 2023.pdf");
    NoYearInName("Bank Statement June.pdf");
  }

  lemma TaxReturnYear(s: string)
    requires s == "Tax Return 2023.pdf"
    ensures RequestedYear(s, 2025) == 2024
  {
    TaxReturnFindYear(s);
    assert s[11..15] == "2023";
    FourDigits("2023");
  }

  lemma TaxReturnFindYear(s: string)
    requires s == "Tax Return 2023.pdf"
    ensures FindYear(s, 0) == Some(11)
  {
    assert YearAt(s, 11);
    forall j | 0 <= j < 11
      ensures !YearAt(s, j)
    {
      NoYearBeforeDigits(s, j);
    }
  }

  lemma NoYearInName(u: string)
    requires u == "Bank Statement June.pdf"
    ensures RequestedYear(u, 2025) == 2025
  {
    forall i
      ensures !YearAt(u, i)
    {
      NoYearWithoutDigits(u, i);
    }
  }

  lemma NoYearBeforeDigits(s: string, j: int)
    requires s == "Tax Return 2023.pdf" && 0 <= j < 11
    ensures !YearAt(s, j)
  {
    assert !IsDigit(s[j]);
  }

  lemma NoYearWithoutDigits(u: string, i: int)
    requires u == "Bank Statement June.pdf"
    ensures !YearAt(u, i)
  {
    if 0 <= i && i + 4 <= |u| {
      assert !IsDigit(u[i + 2]);
    }
  }

  /** The dashboard's own `getNextDueDate`: one recurrence step, with no explicit-date override. */
  function LocalNextDueDate(uploadedAt: Date, frequency: Option<Frequency>): (r: Option<Date>)
    ensures r.None? <==> frequency.None? || frequency == Some(OneTime)
    ensures r.Some? ==> Instant(r.value) > Instant(uploadedAt) && r.value.ms == uploadedAt.ms
  {
    match frequency
    case None => None
    case Some(OneTime) => None
    case Some(Daily) => Some(AddDays(uploadedAt, 1))
    case Some(Monthly) => Some(AddMonths(uploadedAt, 1))
    case Some(Quarterly) => Some(AddMonths(uploadedAt, 3))
    case Some(Yearly) => Some(AddYear(uploadedAt))
  }

  /** It is the overview's rule for a record without an explicit due date. */
  lemma LocalAgreesWithOverview(uploadedAt: Date, frequency: Option<Frequency>)
    ensures LocalNextDueDate(uploadedAt, frequency) == NextDueDate(uploadedAt, frequency, None)
  {
  }

  /** An explicit due date never shows on the dashboard, which ignores it. */
  lemma LocalIgnoresExplicit(d: Document)
    requires d.dueDate.Some? && (d.requestFrequency.None? || d.requestFrequency == Some(OneTime))
    ensures LocalNextDueDate(d.uploadedAt, d.requestFrequency).None? && Due(d) == d.dueDate
  {
  }

  /** The requested-documents panel: records asked for and not yet uploaded, in list order. */
  function OutstandingRequests(docs: seq<Document>): (r: seq<Document>)
    ensures forall d :: d in r <==> d in docs && d.isRequested && !Truthy(d.url)
  {
    Filter(docs, Outstanding)
  }

  /** The "Documents Due" panel: records with an update request. */
  function UpdateRequests(docs: seq<Document>): (r: seq<Document>)
    ensures forall d :: d in r <==> d in docs && d.hasUpdateRequest
  {
    Filter(docs, (d: Document) => d.hasUpdateRequest)
  }

  /** The prepared-materials grid: records in the "Reports" folder. */
  function Reports(docs: seq<Document>): (r: seq<Document>)
    ensures forall d :: d in r <==> d in docs && d.folder == "Reports"
  {
    Filter(docs, (d: Document) => d.folder == "Reports")
  }

  /** A request that matched nothing heads the outstanding list and leaves the other two panels alone. */
  lemma NewRequestHeadsOutstanding(
    docs: seq<Document>, documentName: string, description: Option<string>,
    requestedBy: string, clientId: string, frequency: Frequency, clock: Clock)
    requires FindMatch(docs, documentName, 0).None?
    ensures var after := RequestDocument(docs, documentName, description, requestedBy, clientId, frequency, clock).documents;
      && OutstandingRequests(after) == [after[0]] + OutstandingRequests(docs)
      && UpdateRequests(after) == UpdateRequests(docs)
      && Reports(after) == Reports(docs)
  {
    var after := RequestDocument(docs, documentName, description, requestedBy, clientId, frequency, clock).documents;
    assert after == [after[0]] + docs;
  }

  /** A request reconciled onto an uploaded record puts that record on the "Documents Due" panel. */
  lemma ReconciledRequestIsDue(
    docs: seq<Document>, documentName: string, description: Option<string>,
    requestedBy: string, clientId: string, frequency: Frequency, clock: Clock)
    ensures var after := RequestDocument(docs, documentName, description, requestedBy, clientId, frequency, clock).documents;
      FindMatch(docs, documentName, 0).Some? ==>
        && after[FindMatch(docs, documentName, 0).value] in UpdateRequests(after)
        && !Outstanding(after[FindMatch(docs, documentName, 0).value])
  {
  }

  /** "Add Request" prefills the dialog with the name up to its last extension. */
  function Prefill(name: string): (r: string)
    ensures |r| <= |name| && r == name[..|r|]
    ensures r != name ==>
      && |name| - |r| >= 2 && name[|r|] == '.'
      && forall k :: |r| < k < |name| ==> name[k] != '.' && name[k] != '/'
    ensures forall i :: ExtensionAt(name, i) ==> r == name[..i]
    ensures (forall k :: 0 <= k < |name| ==> name[k] != '.') ==> r == name
  {
    StripExtension(name)
  }

  /** Only the last extension goes: "report.tar.gz" prefills as "report.tar". */
  lemma PrefillExample()
    ensures Prefill("Tax Return 2023.pdf") == "Tax Return 2023"
    ensures Prefill("report.tar.gz") == "report.tar"
  {
    assert ExtensionAt("Tax Return 2023.pdf", 15);
    assert ExtensionAt("report.tar.gz", 10);
  }

  /** `handleDocumentRequest`: hand the dialog's request to the store. */
  function HandleDocumentRequest(docs: seq<Document>, p: Payload, clock: Clock): (r: RequestOutcome)
    ensures r.request.documentName == p.documentName && r.request.frequency == p.frequency
    ensures r.request.description == p.description && r.request.requestedBy == p.requestedBy
    ensures r.request.clientId == p.clientId && r.request.status == "pending"
    ensures |docs| <= |r.documents| <= |docs| + 1
    ensures FindMatch(docs, p.documentName, 0).None? ==>
      && |r.documents| == |docs| + 1 && r.documents[1..] == docs
      && Outstanding(r.documents[0]) && r.documents[0].name == p.documentName
      && r.documents[0].clientId == Some(p.clientId) && r.documents[0].requestFrequency == Some(p.frequency)
    ensures FindMatch(docs, p.documentName, 0).Some? ==>
      var i := FindMatch(docs, p.documentName, 0).value;
      && |r.documents| == |docs| && r.request.id == docs[i].id
      && r.documents[i].hasUpdateRequest && r.documents[i].updateRequestedBy == Some(p.requestedBy)
      && (forall j :: 0 <= j < |docs| && docs[j].id != docs[i].id ==> r.documents[j] == docs[j])
  {
    RequestAddsAtMostOne(docs, p.documentName, p.description, p.requestedBy, p.clientId, p.frequency, clock);
    RequestDocument(docs, p.documentName, p.description, p.requestedBy, p.clientId, p.frequency, clock)
  }

  /** A record created from the dialog is recurring, so the overview always gives it a due date. */
  lemma DialogRequestsHaveDue(docs: seq<Document>, f: Form, advisorName: string, clientId: string, clock: Clock)
    requires Normalise(f, advisorName, clientId).Some?
    requires FindMatch(docs, Trim(f.documentName), 0).None?
    ensures var p := Normalise(f, advisorName, clientId).value;
      var after := HandleDocumentRequest(docs, p, clock).documents;
      Outstanding(after[0]) && HasDue(after[0])
  {
  }
}

=== FILE: documents.dfy ===
/**
 * The records the document store holds. `Document` is reconstructed from the
 * fields the store reads and writes: the base fields of an upload plus the
 * optional request, recurrence and update-request fields. A missing optional
 * field is `None`; an optional boolean that is missing reads as `false`.
 */
module Documents {
  import opened Wrappers
  import opened Calendar

  datatype Frequency = Daily | Monthly | Quarterly | Yearly | OneTime

  /** One reading of the clock: `getTime()` in milliseconds and the local date-time it shows. */
  datatype Clock = Clock(epochMs: int, local: Date)

  datatype Document = Document(
    id: string,
    name: string,
    kind: string,
    size: string,
    uploadedBy: string,
    uploadedAt: Date,
    folder: string,
    clientId: Option<string>,
    url: Option<string>,
    isRequested: bool,
    requestedBy: Option<string>,
    requestedAt: Option<Date>,
    description: Option<string>,
    requestFrequency: Option<Frequency>,
    dueDate: Option<Date>,
    hasUpdateRequest: bool,
    updateRequestedBy: Option<string>,
    updateRequestedAt: Option<Date>,
    updateRequestDescription: Option<string>,
    requestedVersion: Option<string>)

  /** JavaScript truthiness of an optional string: present and not empty. */
  predicate Truthy(s: Option<string>) {
    s.Some? && |s.value| > 0
  }

  /** A record with content behind it (a `url`). */
  predicate Fulfilled(d: Document) {
    Truthy(d.url)
  }

  /** A requested record still waiting for its upload: `isRequested && !url`. */
  predicate Outstanding(d: Document) {
    d.isRequested && !Fulfilled(d)
  }

  /** The view of a request handed back to the caller. */
  datatype DocumentRequest = DocumentRequest(
    id: string,
    documentName: string,
    description: Option<string>,
    requestedBy: string,
    requestedAt: Date,
    clientId: string,
    status: string,
    frequency: Frequency)

  predicate HasId(docs: seq<Document>, id: string) {
    exists i :: 0 <= i < |docs| && docs[i].id == id
  }
}

=== FILE: grouping.dfy ===
/**
 * Base-name extraction and grouping: drop the period tokens a recurring
 * document's name carries ("2024 Jan", "Q1 2024", "2024"), tidy the
 * whitespace, and group records under what is left. The regular expressions
 * of the source are written out as matchers over the characters, with ASCII
 * classes for whitespace, digits and word characters.
 */
module DocumentGrouping {
  import opened Wrappers
  import opened Text
  import opened Collections
  import opened Documents

  const MonthAbbreviations: seq<string> :=
    ["Jan", "Feb", "Mar", "Apr", "May", "Jun", "Jul", "Aug", "Sep", "Oct", "Nov", "Dec"]

  const MonthNames: seq<string> :=
    ["January", "February", "March", "April", "May", "June",
     "July", "August", "September", "October", "November", "December"]

  predicate StartsWith(t: string, w: string) {
    |w| <= |t| && t[..|w|] == w
  }

  /** `\.?\w*$`: an optional dot, then word characters up to the end. */
  predicate DotWordTail(t: string) {
    AllWordChars(t) || (|t| > 0 && t[0] == '.' && AllWordChars(t[1..]))
  }

  /** Four digits at position `p`. */
  predicate FourDigitsAt(t: string, p: nat) {
    p + 4 <= |t| && AllDigits(t[p..p + 4])
  }

  /** `\s+(Jan|...|Dec)\.?\w*$`: the part of the `<year> <Mon>` pattern after the year. */
  predicate SpacedAbbreviation(u: string) {
    var b := LeadingSpaceCount(u);
    b >= 1 && exists k :: 0 <= k < 12 && StartsWith(u[b..], MonthAbbreviations[k])
                             && DotWordTail(u[b + |MonthAbbreviations[k]|..])
  }

  /**
   * The end-anchored patterns the recurring frequencies strip. Each begins
   * with `\s+` followed by a non-space token, so the whitespace run that
   * matches is always the whole leading run.
   */
  datatype Tail =
    | AbbrMonthTail    // `\s+\d{4}\s+(Jan|...|Dec)\.?\w*$`
    | FullMonthTail    // `\s+(January|...|December)\s+\d{4}\.?\w*$`
    | QuarterTail      // `\s+Q[1-4]\s+\d{4}\.?\w*$`
    | YearTail         // `\s+\d{4}\.?\w*$`

  /** `t` (a suffix of the name) matches the pattern from its first character to its end. */
  predicate TailMatches(tl: Tail, t: string) {
    var a := LeadingSpaceCount(t);
    a >= 1 &&
    match tl
    case AbbrMonthTail =>
      FourDigitsAt(t, a) && SpacedAbbreviation(t[a + 4..])
    case FullMonthTail =>
      exists k :: 0 <= k < 12 && StartsWith(t[a..], MonthNames[k]) &&
        var u := t[a + |MonthNames[k]|..];
        var b := LeadingSpaceCount(u);
        b >= 1 && FourDigitsAt(u, b) && DotWordTail(u[b + 4..])
    case QuarterTail =>
      a + 2 <= |t| && t[a] == 'Q' && '1' <= t[a + 1] <= '4' &&
      var u := t[a + 2..];
      var b := LeadingSpaceCount(u);
      b >= 1 && FourDigitsAt(u, b) && DotWordTail(u[b + 4..])
    case YearTail =>
      FourDigitsAt(t, a) && DotWordTail(t[a + 4..])
  }

  /** Every tail starts with whitespace. */
  lemma TailStartsWithSpace(tl: Tail, t: string)
    requires TailMatches(tl, t)
    ensures |t| > 0 && IsSpace(t[0])
  {
  }

  /** The leftmost position where the pattern matches to the end. */
  function FirstTail(tl: Tail, s: string): (r: Option<nat>)
    ensures r.Some? ==> r.value <= |s| && TailMatches(tl, s[r.value..])
    ensures r.Some? ==> forall j :: 0 <= j < r.value ==> !TailMatches(tl, s[j..])
    ensures r.None? ==> forall j :: 0 <= j <= |s| ==> !TailMatches(tl, s[j..])
  {
    FirstSuffix(s, t => TailMatches(tl, t), 0)
  }

  /** `s.replace(pattern, '')` for an end-anchored pattern: cut at the leftmost match. */
  function StripTail(tl: Tail, s: string): (r: string)
    ensures |r| <= |s| && r == s[..|r|]
    ensures FirstTail(tl, s).Some? ==> r == s[..FirstTail(tl, s).value]
    ensures (forall j :: 0 <= j <= |s| ==> !TailMatches(tl, s[j..])) <==> r == s
  {
    match FirstTail(tl, s)
    case Some(i) =>
      assert |s[..i]| < |s| by {
        TailStartsWithSpace(tl, s[i..]);
      }
      s[..i]
    case None => s
  }

  /** A strip result is a clean cut: what was removed matches the pattern, and nothing earlier did. */
  lemma StripTailCut(tl: Tail, s: string)
    ensures var r := StripTail(tl, s);
      r != s ==> TailMatches(tl, s[|r|..]) && forall j :: 0 <= j < |r| ==> !TailMatches(tl, s[j..])
  {
  }

  /** The patterns the no-frequency branch removes everywhere (`/g`). */
  datatype Token =
    | YearToken20      // `\s+20\d{2}`
    | MonthToken       // `\s+(Jan|...|Dec)`
    | QuarterToken     // `\s+Q[1-4]`

  /** The length of the match at the start of `t`, if the pattern matches there. */
  function TokenAt(tk: Token, t: string): (r: Option<nat>)
    ensures r.Some? ==> 0 < r.value <= |t| && IsSpace(t[0])
  {
    var a := LeadingSpaceCount(t);
    if a == 0 then None
    else
      match tk
      case YearToken20 =>
        if a + 4 <= |t| && t[a] == '2' && t[a + 1] == '0' && IsDigit(t[a + 2]) && IsDigit(t[a + 3])
        then Some(a + 4) else None
      case MonthToken =>
        if exists k :: 0 <= k < 12 && StartsWith(t[a..], MonthAbbreviations[k]) then Some(a + 3) else None
      case QuarterToken =>
        if a + 2 <= |t| && t[a] == 'Q' && '1' <= t[a + 1] <= '4' then Some(a + 2) else None
  }

  /** `t.replace(pattern, '')` with the global flag: scan left to right, deleting each match. */
  function ReplaceAll(tk: Token, t: string): (r: string)
    ensures |r| <= |t|
    decreases |t|
  {
    if t == [] then []
    else
      match TokenAt(tk, t)
      case Some(k) => ReplaceAll(tk, t[k..])
      case None => [t[0]] + ReplaceAll(tk, t[1..])
  }

  /** Replacing only deletes characters: the result is a subsequence of the input. */
  lemma {:induction false} ReplaceAllDeletes(tk: Token, t: string)
    ensures IsSubsequence(ReplaceAll(tk, t), t)
    decreases |t|
  {
    if t != [] {
      match TokenAt(tk, t)
      case Some(k) =>
        ReplaceAllDeletes(tk, t[k..]);
        SubsequenceDrop(ReplaceAll(tk, t), t, k);
      case None =>
        ReplaceAllDeletes(tk, t[1..]);
        var r := ReplaceAll(tk, t);
        assert r[0] == t[0] && r[1..] == ReplaceAll(tk, t[1..]);
    }
  }

  /** A subsequence of a suffix is a subsequence of the whole. */
  lemma {:induction false} SubsequenceDrop(a: string, t: string, k: nat)
    requires k <= |t| && IsSubsequence(a, t[k..])
    ensures IsSubsequence(a, t)
    decreases k
  {
    if k > 0 {
      assert t[1..][k - 1..] == t[k..];
      SubsequenceDrop(a, t[1..], k - 1);
    }
  }

  /** A global replace changes the text exactly when the pattern matches somewhere in it. */
  lemma {:induction false} ReplaceAllUnchanged(tk: Token, t: string)
    ensures ReplaceAll(tk, t) == t <==> forall i :: 0 <= i < |t| ==> TokenAt(tk, t[i..]).None?
    decreases |t|
  {
    if t != [] {
      assert t[0..] == t;
      ReplaceAllUnchanged(tk, t[1..]);
      assert forall i :: 1 <= i < |t| ==> t[i..] == t[1..][i - 1..];
      match TokenAt(tk, t)
      case Some(k) =>
        assert |ReplaceAll(tk, t)| <= |t| - k;
      case None =>
        assert t[0..] == t;
        var r := ReplaceAll(tk, t);
        assert r == [t[0]] + ReplaceAll(tk, t[1..]);
        if ReplaceAll(tk, t[1..]) == t[1..] {
          assert r == t;
        } else {
          assert r[1..] != t[1..];
        }
        assert (forall i :: 0 <= i < |t| ==> TokenAt(tk, t[i..]).None?)
           <==> (forall i :: 0 <= i < |t| - 1 ==> TokenAt(tk, t[1..][i..]).None?) by {
          if forall i :: 0 <= i < |t| - 1 ==> TokenAt(tk, t[1..][i..]).None? {
            forall i | 0 <= i < |t|
              ensures TokenAt(tk, t[i..]).None?
            {
              if i > 0 {
                assert t[i..] == t[1..][i - 1..];
              }
            }
          }
        }
    }
  }

  /** The name with the period tokens of its frequency removed, before the whitespace is tidied. */
  function StripPeriods(name: string, frequency: Option<Frequency>): (r: string)
    ensures |r| <= |name|
  {
    match frequency
    case Some(Monthly) => StripTail(FullMonthTail, StripTail(AbbrMonthTail, name))
    case Some(Quarterly) => StripTail(QuarterTail, name)
    case Some(Yearly) => StripTail(YearTail, name)
    case _ => ReplaceAll(QuarterToken, ReplaceAll(MonthToken, ReplaceAll(YearToken20, name)))
  }

  /** `getBaseDocumentName`: the tidied stripped name, or the name itself when that is unchanged or empty. */
  function BaseName(d: Document): (r: string)
    ensures r == [] <==> d.name == []
    ensures r != d.name ==> Clean(r) && r != []
    ensures r == d.name && !Clean(d.name) ==> NormalizeSpaces(StripPeriods(d.name, d.requestFrequency)) == []
    ensures !Blank(StripPeriods(d.name, d.requestFrequency)) ==>
      Clean(r) && NonSpaceChars(r) == NonSpaceChars(StripPeriods(d.name, d.requestFrequency))
    ensures Blank(StripPeriods(d.name, d.requestFrequency)) ==> r == d.name
  {
    var n := NormalizeSpaces(StripPeriods(d.name, d.requestFrequency));
    if n == d.name || n == [] then d.name else n
  }

  /** A recurring frequency only ever cuts the end off the name before tidying. */
  lemma RecurringStripsOnlyTheEnd(name: string, frequency: Frequency)
    requires frequency == Monthly || frequency == Quarterly || frequency == Yearly
    ensures var s := StripPeriods(name, Some(frequency)); s == name[..|s|]
  {
    if frequency == Monthly {
      var first := StripTail(AbbrMonthTail, name);
      PrefixOfPrefix(StripTail(FullMonthTail, first), first, name);
    }
  }

  lemma PrefixOfPrefix(a: string, b: string, c: string)
    requires |a| <= |b| <= |c| && a == b[..|a|] && b == c[..|b|]
    ensures a == c[..|a|]
  {
  }

  /** Without a recurring frequency the name only loses characters, never gains or reorders any. */
  lemma OtherFrequenciesOnlyDelete(name: string, frequency: Option<Frequency>)
    requires frequency.None? || frequency == Some(Daily) || frequency == Some(OneTime)
    ensures IsSubsequence(StripPeriods(name, frequency), name)
  {
    var a := ReplaceAll(YearToken20, name);
    var b := ReplaceAll(MonthToken, a);
    var c := ReplaceAll(QuarterToken, b);
    ReplaceAllDeletes(YearToken20, name);
    ReplaceAllDeletes(MonthToken, a);
    ReplaceAllDeletes(QuarterToken, b);
    SubsequenceTrans(c, b, a);
    SubsequenceTrans(c, a, name);
  }

  lemma {:induction false} SubsequenceTrans<T>(a: seq<T>, b: seq<T>, c: seq<T>)
    requires IsSubsequence(a, b) && IsSubsequence(b, c)
    ensures IsSubsequence(a, c)
    decreases |c|
  {
    if c != [] {
      if IsSubsequence(b, c[1..]) {
        SubsequenceTrans(a, b, c[1..]);
      } else {
        assert b != [] && b[0] == c[0] && IsSubsequence(b[1..], c[1..]);
        if IsSubsequence(a, b[1..]) {
          SubsequenceTrans(a, b[1..], c[1..]);
        } else {
          assert a != [] && a[0] == b[0] && IsSubsequence(a[1..], b[1..]);
          SubsequenceTrans(a[1..], b[1..], c[1..]);
        }
      }
    }
  }

  /** `groupDocumentsByBaseName`: every record under its base name, in list order. */
  function GroupByBaseName(docs: seq<Document>): (g: map<string, seq<Document>>)
    ensures forall k :: k in g <==> Occurs(docs, BaseName, k)
    ensures forall k :: k in g ==> g[k] == Matching(docs, BaseName, k)
  {
    GroupByContents(docs, BaseName);
    GroupBy(docs, BaseName)
  }

  /** `groupDocumentsByBaseNameMap`: the same groups, in order of first appearance. */
  function GroupByBaseNameOrdered(docs: seq<Document>): (es: seq<(string, seq<Document>)>)
    ensures DistinctKeys(es) && TotalSize(es) == |docs|
    ensures forall j :: 0 <= j < |es| ==> es[j].1 == Matching(docs, BaseName, es[j].0)
  {
    GroupOrderedShape(docs, BaseName);
    GroupOrderedGroups(docs, BaseName);
    GroupOrdered(docs, BaseName)
  }

  /** The ordered grouping and the keyed grouping hold the same groups. */
  lemma GroupingsAgree(docs: seq<Document>)
    ensures ToMap(GroupByBaseNameOrdered(docs)) == GroupByBaseName(docs)
  {
    GroupOrderedAgrees(docs, BaseName);
  }

  /** No tail starts at a non-space character. */
  lemma NoTailAtNonSpace(tl: Tail, t: string)
    requires t == [] || !IsSpace(t[0])
    ensures !TailMatches(tl, t)
  {
    assert LeadingSpaceCount(t) == 0;
  }

  /** One space and then a letter: not the start of a ` <4 digits> <Mon>` tail. */
  lemma NoAbbrTailBeforeLetter(t: string)
    requires |t| >= 2 && IsSpace(t[0]) && !IsSpace(t[1]) && !IsDigit(t[1])
    ensures !TailMatches(AbbrMonthTail, t)
  {
    assert LeadingSpaceCount(t[1..]) == 0;
    assert LeadingSpaceCount(t) == 1;
  }

  /** One space and then "St": no month name starts there. */
  lemma NoFullMonthTailBeforeSt(t: string)
    requires |t| >= 3 && IsSpace(t[0]) && t[1] == 'S' && t[2] == 't'
    ensures !TailMatches(FullMonthTail, t)
  {
    assert LeadingSpaceCount(t[1..]) == 0;
    assert LeadingSpaceCount(t) == 1;
  }

  lemma ExampleAbbrMatch(t: string)
    requires t == " 2024 Jan.pdf"
    ensures TailMatches(AbbrMonthTail, t)
  {
    assert LeadingSpaceCount(t) == 1;
    assert FourDigitsAt(t, 1) by {
      assert t[1..5] == "2024";
    }
    var u := t[5..];
    assert u == " Jan.pdf";
    assert LeadingSpaceCount(u) == 1;
    ExampleJanTail(u);
  }

  lemma ExampleJanTail(u: string)
    requires u == " Jan.pdf"
    ensures StartsWith(u[1..], MonthAbbreviations[0]) && DotWordTail(u[1 + |MonthAbbreviations[0]|..])
  {
    assert u[1..][..3] == "Jan";
    assert u[4..] == ".pdf";
    assert u[4..][1..] == "pdf";
  }

  lemma ExampleAbbrNotEarlier(p: string, t: string, j: nat)
    requires p == "Bank Statements" && t == " 2024 Jan.pdf" && j < 15
    ensures !TailMatches(AbbrMonthTail, (p + t)[j..])
  {
    var s := p + t;
    assert s[j..][0] == p[j];
    if j == 4 {
      assert s[j..][1] == p[5] == 'S';
      NoAbbrTailBeforeLetter(s[j..]);
    } else {
      assert !IsSpace(p[j]) by {
        assert j == 0 || j == 1 || j == 2 || j == 3 || j == 5 || j == 6 || j == 7 || j == 8
            || j == 9 || j == 10 || j == 11 || j == 12 || j == 13 || j == 14;
      }
      NoTailAtNonSpace(AbbrMonthTail, s[j..]);
    }
  }

  lemma ExampleAbbrCut(p: string, t: string)
    requires p == "Bank Statements" && t == " 2024 Jan.pdf"
    ensures StripTail(AbbrMonthTail, p + t) == p
  {
    var s := p + t;
    assert s[15..] == t;
    ExampleAbbrMatch(t);
    forall j | 0 <= j < 15
      ensures !TailMatches(AbbrMonthTail, s[j..])
    {
      ExampleAbbrNotEarlier(p, t, j);
    }
    assert s[..15] == p;
  }

  lemma ExampleFullMonthNowhere(s: string, j: nat)
    requires s == "Bank Statements" && j <= |s|
    ensures !TailMatches(FullMonthTail, s[j..])
  {
    if j == 4 {
      assert s[4..][1] == 'S' && s[4..][2] == 't';
      NoFullMonthTailBeforeSt(s[4..]);
    } else if j < |s| {
      assert s[j..][0] == s[j];
      assert !IsSpace(s[j]) by {
        assert j == 0 || j == 1 || j == 2 || j == 3 || j == 5 || j == 6 || j == 7 || j == 8
            || j == 9 || j == 10 || j == 11 || j == 12 || j == 13 || j == 14;
      }
      NoTailAtNonSpace(FullMonthTail, s[j..]);
    } else {
      NoTailAtNonSpace(FullMonthTail, s[j..]);
    }
  }

  lemma ExampleNoFullMonth(s: string)
    requires s == "Bank Statements"
    ensures StripTail(FullMonthTail, s) == s
  {
    forall j | 0 <= j <= |s|
      ensures !TailMatches(FullMonthTail, s[j..])
    {
      ExampleFullMonthNowhere(s, j);
    }
  }

  lemma ExampleClean(s: string)
    requires s == "Bank Statements"
    ensures Clean(s)
  {
    forall i | 0 <= i < |s| && IsSpace(s[i])
      ensures s[i] == ' ' && (i + 1 < |s| ==> !IsSpace(s[i + 1]))
    {
      assert i == 0 || i == 1 || i == 2 || i == 3 || i == 4 || i == 5 || i == 6 || i == 7 || i == 8
          || i == 9 || i == 10 || i == 11 || i == 12 || i == 13 || i == 14;
    }
  }

  /** Records whose names strip to the same non-blank text share a base name. */
  lemma SameStripSameBase(d1: Document, d2: Document)
    requires StripPeriods(d1.name, d1.requestFrequency) == StripPeriods(d2.name, d2.requestFrequency)
    requires !Blank(StripPeriods(d1.name, d1.requestFrequency))
    ensures BaseName(d1) == BaseName(d2) == NormalizeSpaces(StripPeriods(d1.name, d1.requestFrequency))
  {
  }

  /** A month abbreviation is three letters. */
  lemma AbbreviationLetters(k: int)
    requires 0 <= k < 12
    ensures |MonthAbbreviations[k]| == 3
    ensures forall i :: 0 <= i < 3 ==> !IsSpace(MonthAbbreviations[k][i]) && !IsDigit(MonthAbbreviations[k][i])
  {
  }

  /** A whitespace character anywhere rules out `\.?\w*$`. */
  lemma SpaceBreaksDotWord(rest: string, q: nat)
    requires q < |rest| && IsSpace(rest[q])
    ensures !DotWordTail(rest)
  {
    if q > 0 {
      assert rest[1..][q - 1] == rest[q];
    }
  }

  /** The pieces after the year: spaces, a month, the rest. */
  lemma SpacedPieces(u: string) returns (b: nat, k: nat)
    requires SpacedAbbreviation(u)
    ensures b == LeadingSpaceCount(u) && b >= 1
    ensures k < 12 && StartsWith(u[b..], MonthAbbreviations[k])
    ensures DotWordTail(u[b + |MonthAbbreviations[k]|..])
  {
    b := LeadingSpaceCount(u);
    k :| 0 <= k < 12 && StartsWith(u[b..], MonthAbbreviations[k]) && DotWordTail(u[b + |MonthAbbreviations[k]|..]);
  }

  /** The four year digits hold no whitespace. */
  lemma DigitsNotSpace(x: string, a: nat, n: nat)
    requires FourDigitsAt(x, a) && a <= n < a + 4
    ensures !IsSpace(x[n])
  {
    assert x[a..a + 4][n - a] == x[n];
  }

  /** After its leading spaces a `<year> <Mon>` tail shows a digit, never a month. */
  lemma AbbrTailNoMonthFirst(t: string, k: nat)
    requires TailMatches(AbbrMonthTail, t) && k < 12
    ensures !StartsWith(t[LeadingSpaceCount(t)..], MonthAbbreviations[k])
  {
    var a := LeadingSpaceCount(t);
    assert t[a..a + 4][0] == t[a];
    AbbreviationLetters(k);
    StartsWithFirst(t[a..], MonthAbbreviations[k]);
  }

  lemma StartsWithFirst(x: string, w: string)
    requires |w| > 0
    ensures StartsWith(x, w) ==> |x| > 0 && x[0] == w[0]
  {
    if StartsWith(x, w) {
      assert x[..|w|][0] == x[0];
    }
  }

  /** A month followed later by a whitespace character leaves no `\.?\w*$` after it. */
  lemma MonthSwallowsSpace(u: string, b: nat, k: nat, m: nat)
    requires k < 12 && b <= |u| && StartsWith(u[b..], MonthAbbreviations[k])
    requires b <= m < |u| && IsSpace(u[m])
    ensures !DotWordTail(u[b + |MonthAbbreviations[k]|..])
  {
    AbbreviationLetters(k);
    assert m >= b + 3;
    var rest := u[b + 3..];
    assert rest[m - b - 3] == u[m];
    SpaceBreaksDotWord(rest, m - b - 3);
  }

  /**
   * A month tail cannot start inside a word that ends right before another
   * month tail: the earlier match would have to swallow the later tail's
   * whitespace.
   */
  lemma AbbrNotAcross(x: string, n: nat)
    requires 1 <= n < |x| && !IsSpace(x[n - 1]) && IsSpace(x[n])
    requires TailMatches(AbbrMonthTail, x[n..])
    ensures !TailMatches(AbbrMonthTail, x)
  {
    if TailMatches(AbbrMonthTail, x) {
      var a := LeadingSpaceCount(x);
      assert FourDigitsAt(x, a) && SpacedAbbreviation(x[a + 4..]);
      var b, k := SpacedPieces(x[a + 4..]);
      assert a <= n - 1;
      if a + 4 > n {
        DigitsNotSpace(x, a, n);
      } else if a + 4 == n {
        assert x[a + 4..] == x[n..];
        AbbrTailNoMonthFirst(x[n..], k);
      } else {
        var u := x[a + 4..];
        assert u[n - a - 5] == x[n - 1];
        assert u[n - a - 4] == x[n];
        MonthSwallowsSpace(u, b, k, n - a - 4);
      }
    }
  }

  /** The `<year> <Mon>` strip of a word followed by a month tail cuts exactly that tail. */
  lemma AbbrCutAtStem(stem: string, t: string)
    requires |stem| > 0 && !IsSpace(stem[|stem| - 1])
    requires TailMatches(AbbrMonthTail, t)
    ensures StripTail(AbbrMonthTail, stem + t) == stem
  {
    var s := stem + t;
    assert s[|stem|..] == t;
    TailStartsWithSpace(AbbrMonthTail, t);
    forall j | 0 <= j < |stem|
      ensures !TailMatches(AbbrMonthTail, s[j..])
    {
      var x := s[j..];
      var n := |stem| - j;
      assert x[n..] == t;
      assert x[n - 1] == stem[|stem| - 1];
      assert x[n] == t[0];
      AbbrNotAcross(x, n);
    }
    assert s[..|stem|] == stem;
  }

  /** A text that starts with a non-space keeps a non-space start through any tail strip. */
  lemma StripKeepsStart(tl: Tail, s: string)
    requires |s| > 0 && !IsSpace(s[0])
    ensures !Blank(StripTail(tl, s))
  {
    var r := StripTail(tl, s);
    StripTailCut(tl, s);
    if r != s {
      TailStartsWithSpace(tl, s[|r|..]);
      assert s[|r|..][0] == s[|r|];
    }
    assert r[0] == s[0];
  }

  /** A monthly name made of a word and a `<year> <Mon>` tail strips that tail, then any `<Month> <year>` tail. */
  lemma MonthlyStripsToStem(d: Document, stem: string, t: string)
    requires d.requestFrequency == Some(Monthly) && d.name == stem + t
    requires |stem| > 0 && !IsSpace(stem[|stem| - 1])
    requires TailMatches(AbbrMonthTail, t)
    ensures StripPeriods(d.name, d.requestFrequency) == StripTail(FullMonthTail, stem)
  {
    AbbrCutAtStem(stem, t);
  }

  /**
   * Monthly names that differ only in their `<year> <Mon>.ext` suffix share a
   * base name: the month they were issued for does not split a group.
   */
  lemma MonthlySuffixIrrelevant(d1: Document, d2: Document, stem: string, t1: string, t2: string)
    requires d1.requestFrequency == Some(Monthly) && d2.requestFrequency == Some(Monthly)
    requires d1.name == stem + t1 && d2.name == stem + t2
    requires |stem| > 0 && !IsSpace(stem[0]) && !IsSpace(stem[|stem| - 1])
    requires TailMatches(AbbrMonthTail, t1) && TailMatches(AbbrMonthTail, t2)
    ensures BaseName(d1) == BaseName(d2) == NormalizeSpaces(StripTail(FullMonthTail, stem))
  {
    MonthlyStripsToStem(d1, stem, t1);
    MonthlyStripsToStem(d2, stem, t2);
    StripKeepsStart(FullMonthTail, stem);
    SameStripSameBase(d1, d2);
  }

  lemma ExampleFebMatch(t: string)
    requires t == " 2024 Feb.pdf"
    ensures TailMatches(AbbrMonthTail, t)
  {
    assert LeadingSpaceCount(t) == 1;
    assert FourDigitsAt(t, 1) by {
      assert t[1..5] == "2024";
    }
    var u := t[5..];
    assert u == " Feb.pdf";
    ExampleFebTail(u);
  }

  lemma ExampleFebTail(u: string)
    requires u == " Feb.pdf"
    ensures SpacedAbbreviation(u)
  {
    assert LeadingSpaceCount(u) == 1;
    assert u[1..][..3] == "Feb";
    assert u[4..] == ".pdf";
    assert u[4..][1..] == "pdf";
    assert StartsWith(u[1..], MonthAbbreviations[1]) && DotWordTail(u[1 + |MonthAbbreviations[1]|..]);
  }

  lemma ExampleFebCut(p: string, t: string)
    requires p == "Bank Statements" && t == " 2024 Feb.pdf"
    ensures StripTail(AbbrMonthTail, p + t) == p
  {
    ExampleFebMatch(t);
    assert !IsSpace(p[|p| - 1]);
    AbbrCutAtStem(p, t);
  }

  lemma ExampleStripFebruary(s: string)
    requires s == "Bank Statements 2024 Feb.pdf"
    ensures StripPeriods(s, Some(Monthly)) == "Bank Statements"
  {
    assert s == "Bank Statements" + " 2024 Feb.pdf";
    ExampleFebCut("Bank Statements", " 2024 Feb.pdf");
    ExampleNoFullMonth("Bank Statements");
  }

  /** The January and February bank statements group together, under "Bank Statements". */
  lemma JanuaryAndFebruaryGroup(d1: Document, d2: Document)
    requires d1.name == "Bank Statements 2024 Jan.pdf" && d1.requestFrequency == Some(Monthly)
    requires d2.name == "Bank Statements 2024 Feb.pdf" && d2.requestFrequency == Some(Monthly)
    ensures BaseName(d1) == BaseName(d2) == "Bank Statements"
  {
    MonthlyExample(d1);
    FebruaryExample(d2);
  }

  lemma FebruaryExample(d: Document)
    requires d.name == "Bank Statements 2024 Feb.pdf" && d.requestFrequency == Some(Monthly)
    ensures BaseName(d) == "Bank Statements"
  {
    ExampleStripFebruary(d.name);
    ExampleBankClean();
  }

  /** "Bank Statements 2024 Jan.pdf", monthly, groups under "Bank Statements". */
  lemma MonthlyExample(d: Document)
    requires d.name == "Bank Statements 2024 Jan.pdf" && d.requestFrequency == Some(Monthly)
    ensures BaseName(d) == "Bank Statements"
  {
    ExampleStripBank(d.name);
    ExampleBankClean();
  }

  lemma ExampleStripBank(s: string)
    requires s == "Bank Statements 2024 Jan.pdf"
    ensures StripPeriods(s, Some(Monthly)) == "Bank Statements"
  {
    assert s == "Bank Statements" + " 2024 Jan.pdf";
    ExampleAbbrCut("Bank Statements", " 2024 Jan.pdf");
    ExampleNoFullMonth("Bank Statements");
  }

  lemma ExampleBankClean()
    ensures NormalizeSpaces("Bank Statements") == "Bank Statements"
  {
    ExampleClean("Bank Statements");
    NormalizeFixpoint("Bank Statements");
  }

  lemma NoTokenWithoutSpace(tk: Token, t: string)
    requires forall i :: 0 <= i < |t| ==> !IsSpace(t[i])
    ensures ReplaceAll(tk, t) == t
  {
    forall i | 0 <= i < |t|
      ensures TokenAt(tk, t[i..]).None?
    {
      assert t[i..][0] == t[i];
    }
    ReplaceAllUnchanged(tk, t);
  }

  lemma ExampleNoYear(s: string)
    requires s == "A Decoy"
    ensures ReplaceAll(YearToken20, s) == s
  {
    forall i | 0 <= i < |s|
      ensures TokenAt(YearToken20, s[i..]).None?
    {
      ExampleNoYearAt(s, i);
    }
    ReplaceAllUnchanged(YearToken20, s);
  }

  lemma ExampleNoYearAt(s: string, i: nat)
    requires s == "A Decoy" && i < |s|
    ensures TokenAt(YearToken20, s[i..]).None?
  {
    assert s[i..][0] == s[i];
    if i == 1 {
      assert LeadingSpaceCount(s[1..][1..]) == 0;
      assert s[1..][1] == 'D';
    }
  }

  lemma ExampleDecMatch(t: string)
    requires t == " Decoy"
    ensures ReplaceAll(MonthToken, t) == "oy"
  {
    assert LeadingSpaceCount(t[1..]) == 0;
    assert StartsWith(t[1..], MonthAbbreviations[11]);
    assert TokenAt(MonthToken, t) == Some(4);
    assert t[4..] == "oy";
    NoTokenWithoutSpace(MonthToken, "oy");
  }

  /**
   * Without a frequency, month abbreviations are removed wherever a word
   * starts with one: "A Decoy" loses " Dec" and groups under "Aoy".
   */
  lemma PrefixMatchExample(d: Document)
    requires d.name == "A Decoy" && d.requestFrequency.None?
    ensures BaseName(d) == "Aoy"
  {
    ExampleStripDecoy(d.name);
    ExampleAoyClean();
  }

  lemma ExampleStripDecoy(s: string)
    requires s == "A Decoy"
    ensures StripPeriods(s, None) == "Aoy"
  {
    ExampleNoYear(s);
    ExampleMonthStep(s);
    NoTokenWithoutSpace(QuarterToken, "Aoy");
  }

  lemma ExampleMonthStep(s: string)
    requires s == "A Decoy"
    ensures ReplaceAll(MonthToken, s) == "Aoy"
  {
    ExampleDecMatch(s[1..]);
    assert LeadingSpaceCount(s) == 0;
    assert TokenAt(MonthToken, s).None?;
  }

  lemma ExampleAoyClean()
    ensures NormalizeSpaces("Aoy") == "Aoy"
  {
    assert Clean("Aoy");
    NormalizeFixpoint("Aoy");
  }
}

=== FILE: library.dfy ===
/**
 * The document library's search box: a record is shown when its name or its
 * folder contains the search term, ignoring ASCII case.
 */
module DocumentLibrary {
  import opened Text
  import opened Collections
  import opened Documents

  /** The search predicate: the lower-cased name or folder contains the lower-cased term. */
  predicate Matches(d: Document, term: string) {
    Contains(Lower(d.name), Lower(term)) || Contains(Lower(d.folder), Lower(term))
  }

  /** `filteredDocuments`: the records the term matches, in list order. */
  function Search(docs: seq<Document>, term: string): (r: seq<Document>)
    ensures |r| <= |docs|
    ensures forall d :: d in r <==> d in docs && Matches(d, term)
  {
    Filter(docs, (d: Document) => Matches(d, term))
  }

  /** The result keeps the list's order: it is the list with some records deleted. */
  lemma SearchKeepsOrder(docs: seq<Document>, term: string)
    ensures IsSubsequence(Search(docs, term), docs)
  {
    FilterIsSubsequence(docs, (d: Document) => Matches(d, term));
  }

  /** An empty search term shows every record. */
  lemma EmptyTermShowsAll(docs: seq<Document>)
    ensures Search(docs, "") == docs
  {
    forall i | 0 <= i < |docs|
      ensures Matches(docs[i], "")
    {
      ContainsEmpty(Lower(docs[i].name));
    }
    FilterAll(docs, (d: Document) => Matches(d, ""));
  }

  /** Two terms that differ only in ASCII case give the same result. */
  lemma SearchIgnoresCase(docs: seq<Document>, t1: string, t2: string)
    requires Lower(t1) == Lower(t2)
    ensures Search(docs, t1) == Search(docs, t2)
  {
    FilterCongruent(docs, (d: Document) => Matches(d, t1), (d: Document) => Matches(d, t2));
  }

  /** In particular, searching for the upper-cased term gives the same result. */
  lemma SearchUpperCase(docs: seq<Document>, term: string)
    ensures Search(docs, Upper(term)) == Search(docs, term)
  {
    LowerFolds(term);
    SearchIgnoresCase(docs, Upper(term), term);
  }

  /** A longer term never shows more: whatever `term + more` matches, `term` matches too. */
  lemma LongerTermNarrows(docs: seq<Document>, term: string, more: string)
    ensures forall d :: d in Search(docs, term + more) ==> d in Search(docs, term)
  {
    forall d | d in Search(docs, term + more)
      ensures Matches(d, term)
    {
      LowerAppend(term, more);
      if Contains(Lower(d.name), Lower(term + more)) {
        ContainsPrefix(Lower(d.name), Lower(term), Lower(more));
      } else {
        ContainsPrefix(Lower(d.folder), Lower(term), Lower(more));
      }
    }
  }
}

=== FILE: needed.dfy ===
/**
 * The advisor's "Documents Needed" editor: every drop into a bin both files
 * the name in that bin and asks the store for the document, with the
 * frequency the bin's label names; clicking a preset issues the preset's
 * requests and loads its bins into the editor.
 */
module DocumentsNeeded {
  import opened Wrappers
  import opened Text
  import opened Documents
  import opened DocumentStore
  import opened Presets
  import opened Bins

  /** The four bins the editor opens with. */
  const InitialBins: seq<Bin> := [
    Bin("bin-1", "Monthly Documents", []),
    Bin("bin-2", "Quarterly Documents", []),
    Bin("bin-3", "Yearly Documents", []),
    Bin("bin-4", "One-Time Documents", [])]

  /** What a drop leaves behind: the editor's bins, the store's list, and the request it issued, if any. */
  datatype DropOutcome = DropOutcome(bins: seq<Bin>, documents: seq<Document>, request: Option<DocumentRequest>)

  /**
   * `handleDrop`: an empty name does nothing. Otherwise the name is filed in
   * the bin (unless the bin already holds it) and a request is issued in
   * every case, with the frequency read from the bin's label before the drop.
   */
  function HandleDrop(
    bins: seq<Bin>, docs: seq<Document>, binId: string, name: string,
    clientId: string, advisorName: string, clock: Clock): (r: DropOutcome)
    ensures name == [] <==> r.request.None?
    ensures name == [] ==> r.bins == bins && r.documents == docs
    ensures name != [] ==> r.bins == InsertName(bins, binId, name, clock.epochMs)
    ensures r.request.Some? ==>
      && r.request.value.documentName == name
      && r.request.value.frequency == DropFrequency(bins, binId)
      && r.request.value.frequency != Daily
      && r.request.value.clientId == clientId
      && r.request.value.requestedBy == advisorName
      && r.request.value.description == None
    ensures |docs| <= |r.documents| <= |docs| + 1
    ensures name != [] ==>
      var sent := RequestDocument(docs, name, None, advisorName, clientId, DropFrequency(bins, binId), clock);
      r.documents == sent.documents && r.request == Some(sent.request)
  {
    if name == [] then DropOutcome(bins, docs, None)
    else
      var frequency := DropFrequency(bins, binId);
      var outcome := RequestDocument(docs, name, None, advisorName, clientId, frequency, clock);
      RequestAddsAtMostOne(docs, name, None, advisorName, clientId, frequency, clock);
      DropOutcome(InsertName(bins, binId, name, clock.epochMs), outcome.documents, Some(outcome.request))
  }

  /** Dropping a name the bin already holds leaves the bins alone but still issues the request. */
  lemma DuplicateDropStillRequests(
    bins: seq<Bin>, docs: seq<Document>, binId: string, name: string,
    clientId: string, advisorName: string, clock: Clock)
    requires name != []
    requires forall k :: 0 <= k < |bins| && bins[k].id == binId ==> HasName(bins[k].items, name)
    ensures var r := HandleDrop(bins, docs, binId, name, clientId, advisorName, clock);
      r.bins == bins && r.request.Some?
      && r.documents == RequestDocument(docs, name, None, advisorName, clientId, DropFrequency(bins, binId), clock).documents
  {
  }

  /** A drop onto a bin that does not exist changes no bin and asks for a one-time document. */
  lemma DropOnMissingBin(
    bins: seq<Bin>, docs: seq<Document>, binId: string, name: string,
    clientId: string, advisorName: string, clock: Clock)
    requires name != []
    requires forall k :: 0 <= k < |bins| ==> bins[k].id != binId
    ensures var r := HandleDrop(bins, docs, binId, name, clientId, advisorName, clock);
      r.bins == bins && r.request.Some? && r.request.value.frequency == OneTime
  {
  }

  /** Two drops of the same name into the same bin file it once; the second still reaches the store. */
  lemma RepeatedDrop(
    bins: seq<Bin>, docs: seq<Document>, binId: string, name: string,
    clientId: string, advisorName: string, c1: Clock, c2: Clock)
    requires name != []
    ensures var first := HandleDrop(bins, docs, binId, name, clientId, advisorName, c1);
      var second := HandleDrop(first.bins, first.documents, binId, name, clientId, advisorName, c2);
      second.bins == first.bins && second.request.Some?
      && second.request.value.frequency == first.request.value.frequency
  {
    InsertIdempotent(bins, binId, name, name, c1.epochMs, c2.epochMs);
    DropFrequencyAfterInsert(bins, binId, name, c1.epochMs, binId);
  }

  /** The opening bins are found under their own ids. */
  lemma InitialBinLabels()
    ensures DropLabel(InitialBins, "bin-1") == "Monthly Documents"
    ensures DropLabel(InitialBins, "bin-2") == "Quarterly Documents"
    ensures DropLabel(InitialBins, "bin-3") == "Yearly Documents"
    ensures DropLabel(InitialBins, "bin-4") == "One-Time Documents"
  {
    assert FindBin(InitialBins, "bin-1", 0) == Some(0);
    assert FindBin(InitialBins, "bin-2", 0) == Some(1);
    assert FindBin(InitialBins, "bin-3", 0) == Some(2);
    assert FindBin(InitialBins, "bin-4", 0) == Some(3);
  }

  lemma MonthlyLabel()
    ensures InferFrequencyNoDay("Monthly Documents") == Monthly
  {
    LowerMonthly();
    assert OccursAt("monthly documents", "month", 0);
  }

  lemma QuarterlyLabel()
    ensures InferFrequencyNoDay("Quarterly Documents") == Quarterly
  {
    LowerQuarterly();
    NotContainsByChar("quarterly documents", "month", 4);
    assert OccursAt("quarterly documents", "quarter", 0);
  }

  lemma YearlyLabel()
    ensures InferFrequencyNoDay("Yearly Documents") == Yearly
  {
    LowerYearly();
    YearlyNotEarlier();
    assert OccursAt("yearly documents", "year", 0);
  }

  lemma OneTimeLabel()
    ensures InferFrequencyNoDay("One-Time Documents") == OneTime
  {
    LowerOneTime();
    OneTimeNoPeriod();
  }

  lemma LowerMonthly()
    ensures Lower("Monthly Documents") == "monthly documents"
  {
  }

  lemma LowerQuarterly()
    ensures Lower("Quarterly Documents") == "quarterly documents"
  {
  }

  lemma LowerYearly()
    ensures Lower("Yearly Documents") == "yearly documents"
  {
  }

  lemma LowerOneTime()
    ensures Lower("One-Time Documents") == "one-time documents"
  {
  }

  lemma YearlyNotEarlier()
    ensures !Contains("yearly documents", "month") && !Contains("yearly documents", "quarter")
  {
    NotContainsByChar("yearly documents", "month", 4);
    NotContainsByChar("yearly documents", "quarter", 0);
  }

  lemma OneTimeNoPeriod()
    ensures !Contains("one-time documents", "month") && !Contains("one-time documents", "quarter")
    ensures !Contains("one-time documents", "year")
  {
    NotContainsByChar("one-time documents", "month", 4);
    NotContainsByChar("one-time documents", "quarter", 0);
    NotContainsByChar("one-time documents", "year", 0);
  }

  /** The opening bins file their drops under monthly, quarterly, yearly and one-time. */
  lemma InitialBinFrequencies()
    ensures DropFrequency(InitialBins, "bin-1") == Monthly
    ensures DropFrequency(InitialBins, "bin-2") == Quarterly
    ensures DropFrequency(InitialBins, "bin-3") == Yearly
    ensures DropFrequency(InitialBins, "bin-4") == OneTime
  {
    InitialBinLabels();
    MonthlyLabel();
    QuarterlyLabel();
    YearlyLabel();
    OneTimeLabel();
  }

  /**
   * A preset click: issue the preset's requests through the store and load
   * its bins into the editor with fresh item ids. The preset comes from the
   * store's own list.
   */
  method PresetClick(
    presets: seq<Preset>, docs: seq<Document>, preset: Preset,
    clientId: string, advisorName: string, clockAt: nat -> Clock, nowMs: int)
    returns (bins: seq<Bin>, r: seq<Document>, issued: seq<Call>)
    requires preset in presets
    ensures issued == FirstOccurrences(Flatten(FindPreset(presets, preset.id).value.bins))
    ensures (forall q :: q in presets && q.id == preset.id ==> q == preset) ==>
      issued == FirstOccurrences(Flatten(preset.bins))
    ensures r == IssueAll(docs, issued, clientId, advisorName, clockAt)
    ensures ToPresetBins(bins) == preset.bins
    ensures TotalItems(bins) == PresetDocumentCount(preset.bins)
  {
    ghost var i :| 0 <= i < |presets| && presets[i] == preset;
    assert HasPreset(presets, preset.id);
    r, issued := ApplyPresetToClient(presets, docs, preset.id, clientId, advisorName, clockAt);
    bins := LoadPresetBins(preset.bins, nowMs);
    LoadThenSave(preset.bins, nowMs);
    LoadedCountMatches(preset.bins, nowMs);
  }
}

=== FILE: popup.dfy ===
/**
 * The request dialog: a name, an optional description and a frequency picked
 * among monthly, quarterly and yearly. Submitting hands a normalised request
 * to the dashboard; closing resets the form unless a submission is running.
 */
module RequestPopup {
  import opened Wrappers
  import opened Text
  import opened Documents

  /** The three frequencies the dialog's select offers. */
  datatype Choice = ChooseMonthly | ChooseQuarterly | ChooseYearly

  function ChoiceFrequency(c: Choice): (f: Frequency)
    ensures f == Monthly || f == Quarterly || f == Yearly
  {
    match c
    case ChooseMonthly => Monthly
    case ChooseQuarterly => Quarterly
    case ChooseYearly => Yearly
  }

  /** The dialog's state. */
  datatype Form = Form(documentName: string, description: string, frequency: Choice, isSubmitting: bool)

  /** What the dialog hands to the dashboard. */
  datatype Payload = Payload(
    documentName: string, description: Option<string>, requestedBy: string, clientId: string, frequency: Frequency)

  /** The dialog as first mounted: the initial name, or empty when it is missing or empty. */
  function Mount(initialName: Option<string>): (f: Form)
    ensures f.description == [] && f.frequency == ChooseMonthly && !f.isSubmitting
    ensures initialName.Some? ==> f.documentName == initialName.value
    ensures initialName.None? ==> f.documentName == []
  {
    Form(initialName.GetOr(""), "", ChooseMonthly, false)
  }

  /** Opening the dialog puts the initial name, or the empty name, into the name field; nothing else changes. */
  function Open(f: Form, initialName: Option<string>): (r: Form)
    ensures r.(documentName := f.documentName) == f
    ensures r.documentName == (if initialName.Some? then initialName.value else [])
  {
    f.(documentName := initialName.GetOr(""))
  }

  /** Picking a frequency in the select. */
  function Select(f: Form, c: Choice): (r: Form)
    ensures r.(frequency := f.frequency) == f
    ensures ChoiceFrequency(r.frequency) == ChoiceFrequency(c)
  {
    f.(frequency := c)
  }

  /** The submit button is enabled. */
  predicate CanSubmit(f: Form) {
    !f.isSubmitting && !Blank(f.documentName)
  }

  /** The request a submission would send: trimmed name, and trimmed description or none when it is blank. */
  function Normalise(f: Form, advisorName: string, clientId: string): (r: Option<Payload>)
    ensures r.None? <==> Blank(f.documentName)
    ensures r.Some? ==>
      && r.value.documentName == Trim(f.documentName)
      && r.value.documentName != []
      && !IsSpace(r.value.documentName[0]) && !IsSpace(r.value.documentName[|r.value.documentName| - 1])
      && (r.value.description.None? <==> Blank(f.description))
      && (r.value.description.Some? ==> r.value.description.value == Trim(f.description) && r.value.description.value != [])
      && r.value.requestedBy == advisorName && r.value.clientId == clientId
      && r.value.frequency == ChoiceFrequency(f.frequency)
  {
    var name := Trim(f.documentName);
    if name == [] then None
    else
      var description := Trim(f.description);
      Some(Payload(name, if description == [] then None else Some(description), advisorName, clientId, ChoiceFrequency(f.frequency)))
  }

  /**
   * The first half of `handleSubmit`: a blank name returns at once;
   * otherwise the dialog enters the submitting state and sends the request.
   */
  function BeginSubmit(f: Form, advisorName: string, clientId: string): (r: (Form, Option<Payload>))
    ensures r.1 == Normalise(f, advisorName, clientId)
    ensures r.1.None? ==> r.0 == f
    ensures r.1.Some? ==> r.0 == f.(isSubmitting := true)
  {
    var payload := Normalise(f, advisorName, clientId);
    if payload.None? then (f, None) else (f.(isSubmitting := true), payload)
  }

  /**
   * The second half: on success the fields go back to empty and monthly and
   * the dialog closes; on failure the fields stay. Either way the dialog
   * leaves the submitting state. The boolean says whether it closed.
   */
  function FinishSubmit(f: Form, succeeded: bool): (r: (Form, bool))
    ensures !r.0.isSubmitting
    ensures r.1 == succeeded
    ensures succeeded ==> r.0 == Form("", "", ChooseMonthly, false)
    ensures !succeeded ==> r.0 == f.(isSubmitting := false)
  {
    if succeeded then (Form("", "", ChooseMonthly, false), true) else (f.(isSubmitting := false), false)
  }

  /** `handleClose`: ignored while submitting; otherwise reset the fields and close. */
  function Close(f: Form): (r: (Form, bool))
    ensures f.isSubmitting <==> !r.1
    ensures f.isSubmitting ==> r.0 == f
    ensures !f.isSubmitting ==> r.0 == Form("", "", ChooseMonthly, false)
  {
    if f.isSubmitting then (f, false) else (Form("", "", ChooseMonthly, false), true)
  }

  /** A name that is blank, or only whitespace, never leaves the dialog. */
  lemma BlankNeverSubmitted(f: Form, advisorName: string, clientId: string)
    requires Blank(f.documentName)
    ensures BeginSubmit(f, advisorName, clientId) == (f, None)
    ensures !CanSubmit(f)
  {
  }

  /** The enabled button and a sending submission go together when nothing is running yet. */
  lemma ButtonMatchesSubmit(f: Form, advisorName: string, clientId: string)
    requires !f.isSubmitting
    ensures CanSubmit(f) <==> BeginSubmit(f, advisorName, clientId).1.Some?
  {
  }

  /** The request sent is already normalised: editing it back into the dialog sends the same request. */
  lemma NormaliseIdempotent(f: Form, advisorName: string, clientId: string)
    requires Normalise(f, advisorName, clientId).Some?
    ensures var p := Normalise(f, advisorName, clientId).value;
      Normalise(Form(p.documentName, if p.description.Some? then p.description.value else "", f.frequency, false),
                advisorName, clientId) == Some(p)
  {
    var p := Normalise(f, advisorName, clientId).value;
    TrimIdempotent(f.documentName);
    assert !Blank(p.documentName) by {
      assert !IsSpace(p.documentName[0]);
    }
    if p.description.Some? {
      TrimIdempotent(f.description);
      assert !Blank(p.description.value) by {
        assert !IsSpace(p.description.value[0]);
      }
    } else {
      assert Blank("") && Trim("") == [];
    }
  }

  /** Whatever happened before, a successful round leaves the dialog as a fresh one with no name. */
  lemma SuccessResets(f: Form, advisorName: string, clientId: string)
    requires CanSubmit(f)
    ensures var started := BeginSubmit(f, advisorName, clientId).0;
      started.isSubmitting && Close(started).0 == started
      && FinishSubmit(started, true).0 == Mount(None)
  {
  }
}

=== FILE: prepared.dfy ===
/**
 * The advisor's "Prepared materials" editor: a drop files the name in a bin
 * and, duplicate or not, puts a report record at the head of the store's
 * list, filed under the frequency the bin's label names.
 */
module PreparedMaterials {
  import opened Wrappers
  import opened Text
  import opened Calendar
  import opened Documents
  import opened DocumentStore
  import opened Bins
  import opened AdvisorDashboard

  /** The four bins the editor opens with. */
  const InitialBins: seq<Bin> := [
    Bin("bin-1", "Monthly Materials", []),
    Bin("bin-2", "Quarterly Materials", []),
    Bin("bin-3", "Yearly Materials", []),
    Bin("bin-4", "One-Time", [])]

  /** The report record a drop creates: no url, not requested, no client, in the "Reports" folder. */
  function MaterialRecord(name: string, advisorName: string, frequency: Frequency, clock: Clock): (d: Document)
    ensures !Outstanding(d) && !Fulfilled(d) && !d.hasUpdateRequest
    ensures d.name == name && d.folder == "Reports" && d.uploadedBy == advisorName
    ensures d.requestFrequency == Some(frequency) && d.clientId.None? && d.dueDate.None?
  {
    Document(
      id := "prep-" + IntToString(clock.epochMs),
      name := name, kind := "", size := "", uploadedBy := advisorName,
      uploadedAt := clock.local, folder := "Reports",
      clientId := None, url := None, isRequested := false,
      requestedBy := None, requestedAt := None, description := None,
      requestFrequency := Some(frequency), dueDate := None,
      hasUpdateRequest := false, updateRequestedBy := None, updateRequestedAt := None,
      updateRequestDescription := None, requestedVersion := None)
  }

  /** What a drop leaves behind: the editor's bins and the store's list. */
  datatype DropOutcome = DropOutcome(bins: seq<Bin>, documents: seq<Document>)

  /**
   * `handleDrop`: an empty name does nothing. Otherwise the name is filed in
   * the bin unless it already holds it, and a report record is prepended in
   * every case, with the frequency read from the bin's label before the drop.
   */
  function HandleDrop(
    bins: seq<Bin>, docs: seq<Document>, binId: string, name: string,
    advisorName: string, clock: Clock): (r: DropOutcome)
    ensures name == [] ==> r == DropOutcome(bins, docs)
    ensures name != [] ==> r.bins == InsertName(bins, binId, name, clock.epochMs)
    ensures name != [] ==>
      && |r.documents| == |docs| + 1 && r.documents[1..] == docs
      && r.documents[0].name == name && r.documents[0].folder == "Reports"
      && r.documents[0].requestFrequency == Some(DropFrequency(bins, binId))
      && r.documents[0].uploadedBy == advisorName && r.documents[0].uploadedAt == clock.local
      && !r.documents[0].isRequested && r.documents[0].url.None?
  {
    if name == [] then DropOutcome(bins, docs)
    else
      DropOutcome(InsertName(bins, binId, name, clock.epochMs),
                  [MaterialRecord(name, advisorName, DropFrequency(bins, binId), clock)] + docs)
  }

  /**
   * A prepared material shows in the reports grid and nowhere else: it is
   * not an outstanding request, not an update request, and never the record
   * a later request is reconciled onto.
   */
  lemma MaterialShowsOnlyAsReport(
    bins: seq<Bin>, docs: seq<Document>, binId: string, name: string,
    advisorName: string, clock: Clock, laterName: string)
    requires name != []
    ensures var after := HandleDrop(bins, docs, binId, name, advisorName, clock).documents;
      && Reports(after) == [after[0]] + Reports(docs)
      && OutstandingRequests(after) == OutstandingRequests(docs)
      && UpdateRequests(after) == UpdateRequests(docs)
      && (FindMatch(after, laterName, 0).Some? <==> FindMatch(docs, laterName, 0).Some?)
      && (FindMatch(docs, laterName, 0).Some? ==>
            FindMatch(after, laterName, 0) == Some(FindMatch(docs, laterName, 0).value + 1))
  {
    var after := HandleDrop(bins, docs, binId, name, advisorName, clock).documents;
    assert after == [after[0]] + docs;
    CandidatesShifted(docs, after, laterName);
  }

  /** Dropping the same name twice files it once but adds two report records. */
  lemma RepeatedDropAddsTwoReports(
    bins: seq<Bin>, docs: seq<Document>, binId: string, name: string,
    advisorName: string, c1: Clock, c2: Clock)
    requires name != []
    ensures var first := HandleDrop(bins, docs, binId, name, advisorName, c1);
      var second := HandleDrop(first.bins, first.documents, binId, name, advisorName, c2);
      second.bins == first.bins && |second.documents| == |docs| + 2
      && second.documents[0].requestFrequency == first.documents[0].requestFrequency
  {
    InsertIdempotent(bins, binId, name, name, c1.epochMs, c2.epochMs);
    DropFrequencyAfterInsert(bins, binId, name, c1.epochMs, binId);
  }

  /** The grid shows a due badge on a material exactly when its bin is not a one-time bin. */
  lemma MaterialDueBadge(name: string, advisorName: string, frequency: Frequency, clock: Clock)
    ensures var d := MaterialRecord(name, advisorName, frequency, clock);
      LocalNextDueDate(d.uploadedAt, d.requestFrequency).Some? <==> frequency != OneTime
  {
  }
}

=== FILE: presets.dfy ===
/**
 * Saved presets: named lists of bins, each bin a label and the document names
 * dropped into it. A preset can be saved, edited, deleted, and applied to a
 * client, which issues one document request per distinct name.
 */
module Presets {
  import opened Wrappers
  import opened Calendar
  import opened Text
  import opened Collections
  import opened Documents
  import opened DocumentStore

  /** A bin as a preset stores it: id, label and the item names in order. */
  datatype PresetBin = PresetBin(id: string, labelText: string, items: seq<string>)

  datatype Preset = Preset(id: string, name: string, bins: seq<PresetBin>, createdAt: Date, updatedAt: Date)

  /** The name given to a preset saved with a blank name: `Preset <n+1>`. */
  function DefaultPresetName(count: nat): (r: string)
    ensures |r| > 7 && r[..7] == "Preset "
    ensures AllDigits(r[7..]) && ParseDigits(r[7..]) == count + 1
  {
    var r := "Preset " + NatToString(count + 1);
    assert r[7..] == NatToString(count + 1);
    ParsePrint(count + 1);
    r
  }

  /** `savePreset`: put a new preset at the head of the list. */
  function SavePreset(presets: seq<Preset>, name: string, bins: seq<PresetBin>, clock: Clock): (r: seq<Preset>)
    ensures |r| == |presets| + 1 && r[1..] == presets
    ensures r[0].id == "preset-" + IntToString(clock.epochMs)
    ensures |r[0].name| > 0
    ensures !Blank(name) ==> r[0].name == Trim(name)
    ensures Blank(name) ==> r[0].name == DefaultPresetName(|presets|)
    ensures r[0].bins == bins
    ensures r[0].createdAt == r[0].updatedAt == clock.local
  {
    var trimmed := Trim(name);
    var chosen := if trimmed != [] then trimmed else DefaultPresetName(|presets|);
    [Preset("preset-" + IntToString(clock.epochMs), chosen, bins, clock.local, clock.local)] + presets
  }

  /** Saving again under the name a preset was saved with keeps that name. */
  lemma SavedNameIsStable(presets: seq<Preset>, name: string, bins: seq<PresetBin>, clock: Clock, later: Clock)
    ensures var saved := SavePreset(presets, name, bins, clock);
      SavePreset(saved, saved[0].name, bins, later)[0].name == saved[0].name
  {
    var saved := SavePreset(presets, name, bins, clock);
    if !Blank(name) {
      TrimIdempotent(name);
    } else {
      var d := DefaultPresetName(|presets|);
      assert !IsSpace(d[0]) && !IsSpace(d[|d| - 1]) by {
        assert d[0] == 'P';
        assert d[|d| - 1] == NatToString(|presets| + 1)[|NatToString(|presets| + 1)| - 1];
      }
      assert !Blank(d) by {
        assert !IsSpace(d[0]);
      }
      assert LeadingSpaceCount(d) == 0;
      assert TrailingSpaceCount(d) == 0;
    }
  }

  /** The fields `updatePreset` may replace; a `None` field is left as it is. */
  datatype PresetUpdate = PresetUpdate(name: Option<string>, bins: Option<seq<PresetBin>>)

  function ApplyUpdate(p: Preset, update: PresetUpdate, now: Date): (q: Preset)
    ensures q.id == p.id && q.createdAt == p.createdAt && q.updatedAt == now
    ensures q.name == update.name.GetOr(p.name) && q.bins == update.bins.GetOr(p.bins)
  {
    p.(name := update.name.GetOr(p.name), bins := update.bins.GetOr(p.bins), updatedAt := now)
  }

  /** `updatePreset`: apply the update to every preset with the given id. */
  function UpdatePreset(presets: seq<Preset>, presetId: string, update: PresetUpdate, now: Date): (r: seq<Preset>)
    ensures |r| == |presets|
    ensures forall i :: 0 <= i < |presets| && presets[i].id != presetId ==> r[i] == presets[i]
    ensures forall i :: 0 <= i < |presets| && presets[i].id == presetId ==> r[i] == ApplyUpdate(presets[i], update, now)
  {
    seq(|presets|, i requires 0 <= i < |presets| =>
      if presets[i].id == presetId then ApplyUpdate(presets[i], update, now) else presets[i])
  }

  predicate HasPreset(presets: seq<Preset>, presetId: string) {
    exists i :: 0 <= i < |presets| && presets[i].id == presetId
  }

  /** An update addressed to an unknown id leaves the list as it was. */
  lemma UpdateUnknownPreset(presets: seq<Preset>, presetId: string, update: PresetUpdate, now: Date)
    requires !HasPreset(presets, presetId)
    ensures UpdatePreset(presets, presetId, update, now) == presets
  {
  }

  /** An update that sets nothing still stamps `updatedAt` and changes nothing else. */
  lemma EmptyUpdateTouchesOnlyStamp(presets: seq<Preset>, presetId: string, now: Date)
    ensures var r := UpdatePreset(presets, presetId, PresetUpdate(None, None), now);
      forall i :: 0 <= i < |presets| ==> r[i].(updatedAt := presets[i].updatedAt) == presets[i]
  {
  }

  /** `deletePreset`: keep the presets with another id, in order. */
  function DeletePreset(presets: seq<Preset>, presetId: string): (r: seq<Preset>)
    ensures forall p :: p in r <==> p in presets && p.id != presetId
    ensures !HasPreset(r, presetId)
    ensures |r| <= |presets|
  {
    Filter(presets, (p: Preset) => p.id != presetId)
  }

  /** Deleting a preset that was just saved under a fresh id gives back the list from before. */
  lemma DeleteUndoesSave(presets: seq<Preset>, name: string, bins: seq<PresetBin>, clock: Clock)
    requires !HasPreset(presets, "preset-" + IntToString(clock.epochMs))
    ensures DeletePreset(SavePreset(presets, name, bins, clock), "preset-" + IntToString(clock.epochMs)) == presets
  {
    var id := "preset-" + IntToString(clock.epochMs);
    var saved := SavePreset(presets, name, bins, clock);
    var keep := (p: Preset) => p.id != id;
    assert saved == [saved[0]] + presets;
    assert Filter(saved, keep) == Filter(presets, keep);
    FilterAll(presets, keep);
  }

  /** `presets.find(p => p.id === presetId)`. */
  function FindPreset(presets: seq<Preset>, presetId: string): (r: Option<Preset>)
    ensures r.Some? ==> r.value in presets && r.value.id == presetId
    ensures r.Some? ==>
      exists i :: 0 <= i < |presets| && presets[i] == r.value && forall j :: 0 <= j < i ==> presets[j].id != presetId
    ensures r.None? <==> !HasPreset(presets, presetId)
    decreases |presets|
  {
    if presets == [] then None
    else if presets[0].id == presetId then Some(presets[0])
    else
      var rest := FindPreset(presets[1..], presetId);
      assert HasPreset(presets, presetId) ==> HasPreset(presets[1..], presetId) by {
        if HasPreset(presets, presetId) {
          var i :| 0 <= i < |presets| && presets[i].id == presetId;
          assert presets[1..][i - 1] == presets[i];
        }
      }
      assert HasPreset(presets[1..], presetId) ==> HasPreset(presets, presetId) by {
        if HasPreset(presets[1..], presetId) {
          var i :| 0 <= i < |presets| - 1 && presets[1..][i].id == presetId;
          assert presets[i + 1] == presets[1..][i];
        }
      }
      rest
  }

  /** One request a preset issues: a document name and the frequency of its bin. */
  datatype Call = Call(name: string, frequency: Frequency)

  /** The calls of one bin, in item order, all with the frequency its label implies. */
  function BinCalls(b: PresetBin): (r: seq<Call>)
    ensures |r| == |b.items|
    ensures forall k :: 0 <= k < |r| ==> r[k] == Call(b.items[k], InferFrequencyFromLabel(b.labelText))
  {
    seq(|b.items|, k requires 0 <= k < |b.items| => Call(b.items[k], InferFrequencyFromLabel(b.labelText)))
  }

  /** Every item of every bin, bin by bin. */
  function Flatten(bins: seq<PresetBin>): (r: seq<Call>)
    decreases |bins|
  {
    if bins == [] then [] else Flatten(bins[..|bins| - 1]) + BinCalls(bins[|bins| - 1])
  }

  /** The case-folded names of a list of calls. */
  function Keys(calls: seq<Call>): (r: set<string>)
    ensures forall k :: k in r <==> exists i :: 0 <= i < |calls| && Lower(calls[i].name) == k
  {
    set i | 0 <= i < |calls| :: Lower(calls[i].name)
  }

  /** The call at `i` is the first with its case-folded name. */
  predicate FirstOfItsName(calls: seq<Call>, i: nat)
    requires i < |calls|
  {
    forall j :: 0 <= j < i ==> Lower(calls[j].name) != Lower(calls[i].name)
  }

  /** Reference definition: keep each call whose case-folded name has not occurred before it. */
  function FirstOccurrences(calls: seq<Call>): (r: seq<Call>)
    decreases |calls|
  {
    if calls == [] then []
    else
      var n := |calls| - 1;
      FirstOccurrences(calls[..n]) + (if FirstOfItsName(calls, n) then [calls[n]] else [])
  }

  lemma FirstOfItsNameByKeys(calls: seq<Call>)
    requires calls != []
    ensures FirstOfItsName(calls, |calls| - 1) <==> Lower(calls[|calls| - 1].name) !in Keys(calls[..|calls| - 1])
  {
    var n := |calls| - 1;
    if !FirstOfItsName(calls, n) {
      var j :| 0 <= j < n && Lower(calls[j].name) == Lower(calls[n].name);
      assert calls[..n][j] == calls[j];
    }
  }

  lemma FirstInPrefix(calls: seq<Call>, prefix: seq<Call>, c: Call)
    requires |prefix| <= |calls| && prefix == calls[..|prefix|]
    requires exists i :: 0 <= i < |prefix| && prefix[i] == c && FirstOfItsName(prefix, i)
    ensures exists i :: 0 <= i < |calls| && calls[i] == c && FirstOfItsName(calls, i)
  {
    var i :| 0 <= i < |prefix| && prefix[i] == c && FirstOfItsName(prefix, i);
    assert calls[i] == c;
    forall j | 0 <= j < i
      ensures Lower(calls[j].name) != Lower(calls[i].name)
    {
      assert prefix[j] == calls[j];
    }
  }

  /** What the first occurrences are: distinct names, every name covered, and each kept call is a first occurrence. */
  lemma FirstOccurrencesMeaning(calls: seq<Call>)
    ensures var r := FirstOccurrences(calls);
      && (forall i, j :: 0 <= i < j < |r| ==> Lower(r[i].name) != Lower(r[j].name))
      && Keys(r) == Keys(calls)
      && (forall c :: c in r ==> exists i :: 0 <= i < |calls| && calls[i] == c && FirstOfItsName(calls, i))
  {
    FirstOccurrencesKeys(calls);
    FirstOccurrencesDistinct(calls);
    FirstOccurrencesAreFirsts(calls);
  }

  lemma {:induction false} FirstOccurrencesKeys(calls: seq<Call>)
    ensures Keys(FirstOccurrences(calls)) == Keys(calls)
    decreases |calls|
  {
    if calls != [] {
      var n := |calls| - 1;
      var prev := FirstOccurrences(calls[..n]);
      FirstOccurrencesKeys(calls[..n]);
      assert calls == calls[..n] + [calls[n]];
      KeysSnoc(calls[..n], calls[n]);
      FirstOfItsNameByKeys(calls);
      if FirstOfItsName(calls, n) {
        assert FirstOccurrences(calls) == prev + [calls[n]];
        KeysSnoc(prev, calls[n]);
      } else {
        assert FirstOccurrences(calls) == prev;
        assert Lower(calls[n].name) in Keys(calls[..n]);
      }
    }
  }

  lemma {:induction false} FirstOccurrencesDistinct(calls: seq<Call>)
    ensures var r := FirstOccurrences(calls);
      forall i, j :: 0 <= i < j < |r| ==> Lower(r[i].name) != Lower(r[j].name)
    decreases |calls|
  {
    if calls != [] {
      var n := |calls| - 1;
      var prev := FirstOccurrences(calls[..n]);
      var r := FirstOccurrences(calls);
      FirstOccurrencesDistinct(calls[..n]);
      FirstOccurrencesKeys(calls[..n]);
      FirstOfItsNameByKeys(calls);
      if FirstOfItsName(calls, n) {
        assert r == prev + [calls[n]];
        forall i, j | 0 <= i < j < |r|
          ensures Lower(r[i].name) != Lower(r[j].name)
        {
          if j == |prev| {
            assert r[i] == prev[i];
            assert Lower(prev[i].name) in Keys(prev);
          } else {
            assert r[i] == prev[i] && r[j] == prev[j];
          }
        }
      }
    }
  }

  lemma {:induction false} FirstOccurrencesAreFirsts(calls: seq<Call>)
    ensures forall c :: c in FirstOccurrences(calls) ==> exists i :: 0 <= i < |calls| && calls[i] == c && FirstOfItsName(calls, i)
    decreases |calls|
  {
    if calls != [] {
      var n := |calls| - 1;
      var prev := FirstOccurrences(calls[..n]);
      FirstOccurrencesAreFirsts(calls[..n]);
      forall c | c in FirstOccurrences(calls)
        ensures exists i :: 0 <= i < |calls| && calls[i] == c && FirstOfItsName(calls, i)
      {
        if c in prev {
          FirstInPrefix(calls, calls[..n], c);
        } else {
          assert calls[n] == c && FirstOfItsName(calls, n);
        }
      }
    }
  }

  /** Issue the calls in order, the k-th one at clock reading `clockAt(k)`; each sees the list the previous one left. */
  function IssueAll(docs: seq<Document>, calls: seq<Call>, clientId: string, advisorName: string, clockAt: nat -> Clock): (r: seq<Document>)
    ensures |docs| <= |r| <= |docs| + |calls|
    decreases |calls|
  {
    if calls == [] then docs
    else
      var n := |calls| - 1;
      var before := IssueAll(docs, calls[..n], clientId, advisorName, clockAt);
      RequestAddsAtMostOne(before, calls[n].name, None, advisorName, clientId, calls[n].frequency, clockAt(n));
      RequestDocument(before, calls[n].name, None, advisorName, clientId, calls[n].frequency, clockAt(n)).documents
  }

  /** Flattening one more bin appends its calls. */
  lemma FlattenSnoc(bins: seq<PresetBin>, b: nat)
    requires b < |bins|
    ensures Flatten(bins[..b + 1]) == Flatten(bins[..b]) + BinCalls(bins[b])
  {
    assert bins[..b + 1][..b] == bins[..b];
  }

  lemma KeysSnoc(prefix: seq<Call>, c: Call)
    ensures Keys(prefix + [c]) == Keys(prefix) + {Lower(c.name)}
  {
    var next := prefix + [c];
    forall x | x in Keys(next)
      ensures x in Keys(prefix) + {Lower(c.name)}
    {
      var i :| 0 <= i < |next| && Lower(next[i].name) == x;
      if i < |prefix| {
        assert next[i] == prefix[i];
      }
    }
    forall x | x in Keys(prefix)
      ensures x in Keys(next)
    {
      var i :| 0 <= i < |prefix| && Lower(prefix[i].name) == x;
      assert next[i] == prefix[i];
    }
    assert next[|prefix|] == c;
  }

  lemma FirstOccurrencesSnoc(prefix: seq<Call>, c: Call)
    ensures FirstOccurrences(prefix + [c])
         == FirstOccurrences(prefix) + (if Lower(c.name) !in Keys(prefix) then [c] else [])
  {
    var next := prefix + [c];
    assert next[..|next| - 1] == prefix;
    FirstOfItsNameByKeys(next);
  }

  lemma IssueSnoc(docs: seq<Document>, issued: seq<Call>, c: Call, clientId: string, advisorName: string, clockAt: nat -> Clock)
    ensures IssueAll(docs, issued + [c], clientId, advisorName, clockAt)
         == RequestDocument(IssueAll(docs, issued, clientId, advisorName, clockAt),
                            c.name, None, advisorName, clientId, c.frequency, clockAt(|issued|)).documents
  {
    assert (issued + [c])[..|issued|] == issued;
  }

  lemma BinPrefixSnoc(head: seq<Call>, bin: PresetBin, k: nat)
    requires k < |bin.items|
    ensures head + BinCalls(bin)[..k + 1] == (head + BinCalls(bin)[..k]) + [Call(bin.items[k], InferFrequencyFromLabel(bin.labelText))]
  {
    assert BinCalls(bin)[..k + 1] == BinCalls(bin)[..k] + [BinCalls(bin)[k]];
  }

  /** One item of the inner walk: issue a request unless the name was already seen. */
  method IssueItem(
    c: Call, ghost prefix: seq<Call>, docs: seq<Document>, clientId: string, advisorName: string,
    clockAt: nat -> Clock, r0: seq<Document>, issued0: seq<Call>, seen0: set<string>)
    returns (r: seq<Document>, issued: seq<Call>, seen: set<string>)
    requires issued0 == FirstOccurrences(prefix)
    requires seen0 == Keys(prefix)
    requires r0 == IssueAll(docs, issued0, clientId, advisorName, clockAt)
    ensures issued == FirstOccurrences(prefix + [c])
    ensures seen == Keys(prefix + [c])
    ensures r == IssueAll(docs, issued, clientId, advisorName, clockAt)
  {
    KeysSnoc(prefix, c);
    FirstOccurrencesSnoc(prefix, c);
    var key := Lower(c.name);
    if key !in seen0 {
      IssueSnoc(docs, issued0, c, clientId, advisorName, clockAt);
      r := RequestDocument(r0, c.name, None, advisorName, clientId, c.frequency, clockAt(|issued0|)).documents;
      issued := issued0 + [c];
      seen := seen0 + {key};
    } else {
      r, issued, seen := r0, issued0, seen0;
    }
  }

  /** The inner walk of `applyPresetToClient` over one bin's items. */
  method IssueBin(
    bin: PresetBin, ghost head: seq<Call>, docs: seq<Document>, clientId: string, advisorName: string,
    clockAt: nat -> Clock, r0: seq<Document>, issued0: seq<Call>, seen0: set<string>)
    returns (r: seq<Document>, issued: seq<Call>, seen: set<string>)
    requires issued0 == FirstOccurrences(head)
    requires seen0 == Keys(head)
    requires r0 == IssueAll(docs, issued0, clientId, advisorName, clockAt)
    ensures issued == FirstOccurrences(head + BinCalls(bin))
    ensures seen == Keys(head + BinCalls(bin))
    ensures r == IssueAll(docs, issued, clientId, advisorName, clockAt)
  {
    var frequency := InferFrequencyFromLabel(bin.labelText);
    r, issued, seen := r0, issued0, seen0;
    assert head + BinCalls(bin)[..0] == head;
    var k := 0;
    while k < |bin.items|
      invariant 0 <= k <= |bin.items|
      invariant issued == FirstOccurrences(head + BinCalls(bin)[..k])
      invariant seen == Keys(head + BinCalls(bin)[..k])
      invariant r == IssueAll(docs, issued, clientId, advisorName, clockAt)
    {
      BinPrefixSnoc(head, bin, k);
      r, issued, seen := IssueItem(Call(bin.items[k], frequency), head + BinCalls(bin)[..k],
                                   docs, clientId, advisorName, clockAt, r, issued, seen);
      k := k + 1;
    }
    assert BinCalls(bin)[..|bin.items|] == BinCalls(bin);
  }

  /**
   * `applyPresetToClient`: for an existing preset, walk its bins and their
   * items, skip names already seen (case-insensitively), and issue a request
   * for each new one with the frequency of its bin's label.
   */
  method ApplyPresetToClient(
    presets: seq<Preset>, docs: seq<Document>, presetId: string,
    clientId: string, advisorName: string, clockAt: nat -> Clock)
    returns (r: seq<Document>, issued: seq<Call>)
    ensures !HasPreset(presets, presetId) ==> r == docs && issued == []
    ensures HasPreset(presets, presetId) ==>
      var p := FindPreset(presets, presetId).value;
      && issued == FirstOccurrences(Flatten(p.bins))
      && r == IssueAll(docs, issued, clientId, advisorName, clockAt)
  {
    var found := FindPreset(presets, presetId);
    if found.None? {
      return docs, [];
    }
    var bins := found.value.bins;
    var seen: set<string> := {};
    r, issued := docs, [];
    var b := 0;
    while b < |bins|
      invariant 0 <= b <= |bins|
      invariant issued == FirstOccurrences(Flatten(bins[..b]))
      invariant seen == Keys(Flatten(bins[..b]))
      invariant r == IssueAll(docs, issued, clientId, advisorName, clockAt)
    {
      r, issued, seen := IssueBin(bins[b], Flatten(bins[..b]), docs, clientId, advisorName, clockAt, r, issued, seen);
      FlattenSnoc(bins, b);
      b := b + 1;
    }
    assert bins[..|bins|] == bins;
  }

  lemma BinLabelExamples()
    ensures InferFrequencyFromLabel("Monthly docs") == Monthly
    ensures InferFrequencyFromLabel("Yearly returns") == Yearly
  {
    MonthlyDocsLabel();
    YearlyReturnsLabel();
  }

  lemma MonthlyDocsLabel()
    ensures InferFrequencyFromLabel("Monthly docs") == Monthly
  {
    assert Lower("Monthly docs") == "monthly docs";
    assert OccursAt("monthly docs", "month", 0);
    NotContainsByChar("monthly docs", "day", 1);
  }

  lemma YearlyReturnsLabel()
    ensures InferFrequencyFromLabel("Yearly returns") == Yearly
  {
    assert Lower("Yearly returns") == "yearly returns";
    assert OccursAt("yearly returns", "year", 0);
    YearlyReturnsNotEarlier();
  }

  lemma YearlyReturnsNotEarlier()
    ensures !Contains("yearly returns", "day") && !Contains("yearly returns", "month")
    ensures !Contains("yearly returns", "quarter")
  {
    NotContainsByChar("yearly returns", "day", 0);
    NotContainsByChar("yearly returns", "month", 0);
    NotContainsByChar("yearly returns", "quarter", 0);
  }

  lemma ExampleFlatten(b1: PresetBin, b2: PresetBin)
    requires b1 == PresetBin("b1", "Monthly docs", ["Bank Statement", "Payslip"])
    requires b2 == PresetBin("b2", "Yearly returns", ["bank statement", "Tax Return"])
    ensures Flatten([b1, b2]) == [Call("Bank Statement", Monthly), Call("Payslip", Monthly),
                                  Call("bank statement", Yearly), Call("Tax Return", Yearly)]
  {
    BinLabelExamples();
    assert [b1, b2][..1] == [b1];
    assert Flatten([b1]) == BinCalls(b1);
  }

  lemma ExampleFirsts(c1: Call, c2: Call, c3: Call, c4: Call)
    requires Lower(c1.name) == Lower(c3.name)
    requires Lower(c2.name) != Lower(c1.name)
    requires Lower(c4.name) != Lower(c1.name) && Lower(c4.name) != Lower(c2.name)
    ensures FirstOccurrences([c1, c2, c3, c4]) == [c1, c2, c4]
  {
    var calls := [c1, c2, c3, c4];
    assert calls[..3] == [c1, c2, c3];
    assert [c1, c2, c3][..2] == [c1, c2];
    assert [c1, c2][..1] == [c1];
    assert [c1][..0] == [];
    assert FirstOfItsName([c1], 0);
    assert FirstOccurrences([c1]) == [c1];
    assert FirstOfItsName([c1, c2], 1);
    assert FirstOccurrences([c1, c2]) == [c1, c2];
    assert !FirstOfItsName([c1, c2, c3], 2);
    assert FirstOccurrences([c1, c2, c3]) == [c1, c2];
    assert FirstOfItsName(calls, 3);
  }

  /** Two bins sharing a name in different case: the name is requested once, with the first bin's frequency. */
  lemma ApplyExample()
    ensures FirstOccurrences(Flatten([
      PresetBin("b1", "Monthly docs", ["Bank Statement", "Payslip"]),
      PresetBin("b2", "Yearly returns", ["bank statement", "Tax Return"])]))
      == [Call("Bank Statement", Monthly), Call("Payslip", Monthly), Call("Tax Return", Yearly)]
  {
    ExampleFlatten(PresetBin("b1", "Monthly docs", ["Bank Statement", "Payslip"]),
                   PresetBin("b2", "Yearly returns", ["bank statement", "Tax Return"]));
    assert Lower("Bank Statement") == "bank statement" == Lower("bank statement");
    assert Lower("Payslip") == "payslip";
    assert Lower("Tax Return") == "tax return";
    ExampleFirsts(Call("Bank Statement", Monthly), Call("Payslip", Monthly),
                  Call("bank statement", Yearly), Call("Tax Return", Yearly));
  }
}

=== FILE: schedule.dfy ===
/**
 * The financial overview: when each record is next due, which are overdue or
 * due within two weeks, the eight earliest due, the client filter of the
 * calendar, one summary row per client, and the per-day calendar cells.
 */
module Schedule {
  import opened Wrappers
  import opened Calendar
  import opened Text
  import opened Collections
  import opened Documents

  /**
   * `getNextDueDate`: an explicit due date wins; otherwise one recurrence step
   * after the upload, and nothing for a one-time or missing frequency.
   */
  function NextDueDate(uploadedAt: Date, frequency: Option<Frequency>, explicit: Option<Date>): (r: Option<Date>)
    ensures explicit.Some? ==> r == explicit
    ensures explicit.None? ==> (r.None? <==> frequency.None? || frequency == Some(OneTime))
    ensures explicit.None? && r.Some? ==> Instant(r.value) > Instant(uploadedAt) && r.value.ms == uploadedAt.ms
    ensures explicit.None? && frequency == Some(Daily) ==> Instant(r.value) == Instant(uploadedAt) + MsPerDay
    ensures (explicit.None? && frequency == Some(Monthly)
             && uploadedAt.day <= DaysInMonth(TargetYear(uploadedAt, 1), TargetMonth(uploadedAt, 1))) ==>
      r == Some(DateTime(TargetYear(uploadedAt, 1), TargetMonth(uploadedAt, 1), uploadedAt.day, uploadedAt.ms))
    ensures (explicit.None? && frequency == Some(Quarterly)
             && uploadedAt.day <= DaysInMonth(TargetYear(uploadedAt, 3), TargetMonth(uploadedAt, 3))) ==>
      r == Some(DateTime(TargetYear(uploadedAt, 3), TargetMonth(uploadedAt, 3), uploadedAt.day, uploadedAt.ms))
    ensures explicit.None? && frequency == Some(Yearly) && uploadedAt.day <= DaysInMonth(uploadedAt.year + 1, uploadedAt.month) ==>
      r == Some(DateTime(uploadedAt.year + 1, uploadedAt.month, uploadedAt.day, uploadedAt.ms))
  {
    if explicit.Some? then explicit
    else
      match frequency
      case None => None
      case Some(OneTime) => None
      case Some(Daily) => Some(AddDays(uploadedAt, 1))
      case Some(Monthly) => Some(AddMonths(uploadedAt, 1))
      case Some(Quarterly) => Some(AddMonths(uploadedAt, 3))
      case Some(Yearly) => Some(AddYear(uploadedAt))
  }

  /** A monthly step from 31 January lands on 2 or 3 March, not at the end of February. */
  lemma MonthlyOverflowExample()
    ensures NextDueDate(DateTime(2025, 0, 31, 0), Some(Monthly), None) == Some(DateTime(2025, 2, 3, 0))
    ensures NextDueDate(DateTime(2024, 0, 31, 0), Some(Monthly), None) == Some(DateTime(2024, 2, 2, 0))
  {
    JanuaryOverflow(DateTime(2025, 0, 31, 0));
    JanuaryOverflow(DateTime(2024, 0, 31, 0));
  }

  /** One month after 31 January spills the days February lacks into March. */
  lemma JanuaryOverflow(t: Date)
    requires t.month == 0 && t.day == 31
    ensures AddMonths(t, 1) == DateTime(t.year, 2, 31 - DaysInMonth(t.year, 1), t.ms)
  {
    assert TargetYear(t, 1) == t.year && TargetMonth(t, 1) == 1;
  }

  /** The next due date of a record. */
  function Due(d: Document): Option<Date> {
    NextDueDate(d.uploadedAt, d.requestFrequency, d.dueDate)
  }

  predicate HasDue(d: Document) {
    Due(d).Some?
  }

  /** A record paired with its due date. */
  datatype Dated = Dated(doc: Document, due: Date)

  function Docs(xs: seq<Dated>): (r: seq<Document>)
    ensures |r| == |xs|
    ensures forall i :: 0 <= i < |xs| ==> r[i] == xs[i].doc
  {
    seq(|xs|, i requires 0 <= i < |xs| => xs[i].doc)
  }

  function ToDated(pairs: seq<(Document, Date)>): (r: seq<Dated>)
    ensures |r| == |pairs|
    ensures forall i :: 0 <= i < |r| ==> r[i].doc == pairs[i].0 && r[i].due == pairs[i].1
  {
    seq(|pairs|, i requires 0 <= i < |pairs| => Dated(pairs[i].0, pairs[i].1))
  }

  /** `documentsWithDue`: the records that have a due date, in list order, each with it. */
  function DocumentsWithDue(docs: seq<Document>): (r: seq<Dated>)
    ensures |r| <= |docs|
    ensures forall i :: 0 <= i < |r| ==> Due(r[i].doc) == Some(r[i].due)
    ensures Docs(r) == Filter(docs, HasDue)
  {
    FilterMapKeeps(docs, Due, HasDue);
    ToDated(FilterMap(docs, Due))
  }

  lemma DocumentsWithDueAppend(a: seq<Document>, b: seq<Document>)
    ensures DocumentsWithDue(a + b) == DocumentsWithDue(a) + DocumentsWithDue(b)
  {
    FilterMapAppend(a, b, Due);
    ToDatedAppend(FilterMap(a, Due), FilterMap(b, Due));
  }

  lemma ToDatedAppend(pa: seq<(Document, Date)>, pb: seq<(Document, Date)>)
    ensures ToDated(pa + pb) == ToDated(pa) + ToDated(pb)
  {
    var l, r := ToDated(pa + pb), ToDated(pa) + ToDated(pb);
    forall i | 0 <= i < |l|
      ensures l[i] == r[i]
    {
      if i < |pa| {
        assert (pa + pb)[i] == pa[i];
      } else {
        assert (pa + pb)[i] == pb[i - |pa|];
      }
    }
  }

  /** The end of the due-soon window: fourteen days after now. */
  function SoonThreshold(now: Date): (r: Date)
    ensures Instant(r) == Instant(now) + 14 * MsPerDay
  {
    AddDays(now, 14)
  }

  predicate IsOverdue(x: Dated, now: Date) {
    Instant(x.due) < Instant(now)
  }

  predicate IsDueSoon(x: Dated, now: Date) {
    Instant(now) <= Instant(x.due) <= Instant(SoonThreshold(now))
  }

  function Overdue(withDue: seq<Dated>, now: Date): (r: seq<Dated>)
    ensures forall x :: x in r <==> x in withDue && Instant(x.due) < Instant(now)
  {
    Filter(withDue, (x: Dated) => IsOverdue(x, now))
  }

  function DueSoon(withDue: seq<Dated>, now: Date): (r: seq<Dated>)
    ensures forall x :: x in r <==> x in withDue && Instant(now) <= Instant(x.due) <= Instant(now) + 14 * MsPerDay
  {
    Filter(withDue, (x: Dated) => IsDueSoon(x, now))
  }

  /** No record is both overdue and due soon, so the two buckets together hold at most every dated record. */
  lemma BucketsDisjoint(withDue: seq<Dated>, now: Date)
    ensures forall x :: !(x in Overdue(withDue, now) && x in DueSoon(withDue, now))
    ensures |Overdue(withDue, now)| + |DueSoon(withDue, now)| <= |withDue|
  {
    FilterDisjointCount(withDue, (x: Dated) => IsOverdue(x, now), (x: Dated) => IsDueSoon(x, now));
  }

  /** The sort key of `upcoming`: the due instant. */
  function Key(x: Dated): int {
    Instant(x.due)
  }

  const UpcomingCount: nat := 8

  /** `upcoming`: the eight earliest due records, earliest first. */
  function Upcoming(withDue: seq<Dated>): (r: seq<Dated>)
    ensures |r| == if |withDue| < UpcomingCount then |withDue| else UpcomingCount
    ensures forall i, j :: 0 <= i < j < |r| ==> Key(r[i]) <= Key(r[j])
    ensures multiset(r) <= multiset(withDue)
    ensures forall y :: y in multiset(withDue) - multiset(r) ==>
      forall i :: 0 <= i < |r| ==> Key(r[i]) <= Key(y)
  {
    Least(withDue, UpcomingCount, Key)
  }

  /** `selectedClientIds.has(clientId)` after a toggle. */
  function ToggleClient(selected: set<string>, clientId: string): (r: set<string>)
    ensures clientId in r <==> clientId !in selected
    ensures forall c :: c != clientId ==> (c in r <==> c in selected)
  {
    if clientId in selected then selected - {clientId} else selected + {clientId}
  }

  /** Toggling the same client twice restores the selection. */
  lemma ToggleTwice(selected: set<string>, clientId: string)
    ensures ToggleClient(ToggleClient(selected, clientId), clientId) == selected
  {
  }

  predicate InSelection(d: Document, selected: set<string>) {
    Truthy(d.clientId) && d.clientId.value in selected
  }

  /** `filteredDocuments`: every record when nothing is selected, else those of the selected clients, in order. */
  function FilteredDocuments(docs: seq<Document>, selected: set<string>): (r: seq<Document>)
    ensures selected == {} ==> r == docs
    ensures selected != {} ==> forall d :: d in r <==> d in docs && Truthy(d.clientId) && d.clientId.value in selected
    ensures selected != {} ==> forall d :: d in r ==> d.clientId.Some?
  {
    if selected == {} then docs else Filter(docs, (d: Document) => InSelection(d, selected))
  }

  /** `clearClientFilters` shows every record again. */
  lemma ClearShowsAll(docs: seq<Document>)
    ensures FilteredDocuments(docs, {}) == docs
  {
  }

  lemma FilteredKeepsOrder(docs: seq<Document>, selected: set<string>)
    ensures IsSubsequence(FilteredDocuments(docs, selected), docs)
  {
    if selected == {} {
      SubsequenceRefl(docs);
    } else {
      FilterIsSubsequence(docs, (d: Document) => InSelection(d, selected));
    }
  }

  /** A client as the overview lists it. */
  datatype Client = Client(id: string, name: string, pendingUpdates: nat, unreadMessages: nat)

  datatype ClientRow = ClientRow(client: Client, documentsCount: nat, pendingUpdates: nat,
                                 unreadMessages: nat, dueSoon: nat, overdue: nat)

  predicate OfClient(d: Document, clientId: string) {
    d.clientId == Some(clientId)
  }

  function ClientDocs(docs: seq<Document>, clientId: string): (r: seq<Document>)
    ensures forall d :: d in r <==> d in docs && d.clientId == Some(clientId)
  {
    Filter(docs, (d: Document) => OfClient(d, clientId))
  }

  /** The dated records that belong to one client. */
  function OfClientDated(xs: seq<Dated>, clientId: string): (r: seq<Dated>)
    ensures forall x :: x in r <==> x in xs && x.doc.clientId == Some(clientId)
  {
    Filter(xs, (x: Dated) => OfClient(x.doc, clientId))
  }

  /** The overdue bucket of a single record, taken after or before restricting to one client, agrees. */
  lemma OneRecordOverdue(d: Document, clientId: string, now: Date)
    ensures Overdue(DocumentsWithDue(ClientDocs([d], clientId)), now)
         == OfClientDated(Overdue(DocumentsWithDue([d]), now), clientId)
  {
    DocumentsWithDueOne(d);
    if Due(d).Some? {
      var x := Dated(d, Due(d).value);
      assert [x][1..] == [];
    }
    assert [d][1..] == [];
    if OfClient(d, clientId) {
      assert ClientDocs([d], clientId) == [d];
    } else {
      assert ClientDocs([d], clientId) == [];
      assert DocumentsWithDue([]) == [];
    }
  }

  /** The same for the due-soon bucket. */
  lemma OneRecordDueSoon(d: Document, clientId: string, now: Date)
    ensures DueSoon(DocumentsWithDue(ClientDocs([d], clientId)), now)
         == OfClientDated(DueSoon(DocumentsWithDue([d]), now), clientId)
  {
    DocumentsWithDueOne(d);
    if Due(d).Some? {
      var x := Dated(d, Due(d).value);
      assert [x][1..] == [];
    }
    assert [d][1..] == [];
    if OfClient(d, clientId) {
      assert ClientDocs([d], clientId) == [d];
    } else {
      assert ClientDocs([d], clientId) == [];
      assert DocumentsWithDue([]) == [];
    }
  }

  lemma DocumentsWithDueOne(d: Document)
    ensures DocumentsWithDue([d]) == if Due(d).Some? then [Dated(d, Due(d).value)] else []
  {
    assert [d][1..] == [];
    assert FilterMap([d], Due) == if Due(d).Some? then [(d, Due(d).value)] else [];
  }

  /** Restricting to one client commutes with computing the overdue bucket. */
  lemma {:induction false} ClientOverdue(docs: seq<Document>, clientId: string, now: Date)
    ensures Overdue(DocumentsWithDue(ClientDocs(docs, clientId)), now)
         == OfClientDated(Overdue(DocumentsWithDue(docs), now), clientId)
    decreases |docs|
  {
    if docs == [] {
      assert ClientDocs(docs, clientId) == [];
    } else {
      var d, ds := docs[0], docs[1..];
      assert docs == [d] + ds;
      ClientOverdue(ds, clientId, now);
      OneRecordOverdue(d, clientId, now);
      var late := (x: Dated) => IsOverdue(x, now);
      FilterAppend([d], ds, (x: Document) => OfClient(x, clientId));
      DocumentsWithDueAppend(ClientDocs([d], clientId), ClientDocs(ds, clientId));
      DocumentsWithDueAppend([d], ds);
      FilterAppend(DocumentsWithDue(ClientDocs([d], clientId)), DocumentsWithDue(ClientDocs(ds, clientId)), late);
      FilterAppend(DocumentsWithDue([d]), DocumentsWithDue(ds), late);
      FilterAppend(Overdue(DocumentsWithDue([d]), now), Overdue(DocumentsWithDue(ds), now),
                   (x: Dated) => OfClient(x.doc, clientId));
    }
  }

  /** Restricting to one client commutes with computing the due-soon bucket. */
  lemma {:induction false} ClientDueSoon(docs: seq<Document>, clientId: string, now: Date)
    ensures DueSoon(DocumentsWithDue(ClientDocs(docs, clientId)), now)
         == OfClientDated(DueSoon(DocumentsWithDue(docs), now), clientId)
    decreases |docs|
  {
    if docs == [] {
      assert ClientDocs(docs, clientId) == [];
    } else {
      var d, ds := docs[0], docs[1..];
      assert docs == [d] + ds;
      ClientDueSoon(ds, clientId, now);
      OneRecordDueSoon(d, clientId, now);
      var soon := (x: Dated) => IsDueSoon(x, now);
      FilterAppend([d], ds, (x: Document) => OfClient(x, clientId));
      DocumentsWithDueAppend(ClientDocs([d], clientId), ClientDocs(ds, clientId));
      DocumentsWithDueAppend([d], ds);
      FilterAppend(DocumentsWithDue(ClientDocs([d], clientId)), DocumentsWithDue(ClientDocs(ds, clientId)), soon);
      FilterAppend(DocumentsWithDue([d]), DocumentsWithDue(ds), soon);
      FilterAppend(DueSoon(DocumentsWithDue([d]), now), DueSoon(DocumentsWithDue(ds), now),
                   (x: Dated) => OfClient(x.doc, clientId));
    }
  }

  function Row(client: Client, docs: seq<Document>, now: Date): (row: ClientRow)
    ensures row.client == client
    ensures row.overdue + row.dueSoon <= row.documentsCount
    ensures row.documentsCount == |ClientDocs(docs, client.id)|
    ensures row.overdue == |OfClientDated(Overdue(DocumentsWithDue(docs), now), client.id)|
    ensures row.dueSoon == |OfClientDated(DueSoon(DocumentsWithDue(docs), now), client.id)|
  {
    var mine := ClientDocs(docs, client.id);
    var dated := DocumentsWithDue(mine);
    BucketsDisjoint(dated, now);
    ClientOverdue(docs, client.id, now);
    ClientDueSoon(docs, client.id, now);
    ClientRow(client, |mine|, client.pendingUpdates, client.unreadMessages,
              |DueSoon(dated, now)|, |Overdue(dated, now)|)
  }

  /** `clientRows`: one row per client, in client order. */
  function ClientRows(clients: seq<Client>, docs: seq<Document>, now: Date): (r: seq<ClientRow>)
    ensures |r| == |clients|
    ensures forall i :: 0 <= i < |r| ==>
      && r[i].client == clients[i]
      && r[i].pendingUpdates == clients[i].pendingUpdates && r[i].unreadMessages == clients[i].unreadMessages
      && r[i].overdue + r[i].dueSoon <= r[i].documentsCount
      && r[i].documentsCount == |ClientDocs(docs, clients[i].id)|
      && r[i].overdue == |OfClientDated(Overdue(DocumentsWithDue(docs), now), clients[i].id)|
      && r[i].dueSoon == |OfClientDated(DueSoon(DocumentsWithDue(docs), now), clients[i].id)|
  {
    seq(|clients|, i requires 0 <= i < |clients| => Row(clients[i], docs, now))
  }

  /** A calendar entry: the day a record falls due, its id and its name. */
  datatype Event = Event(id: string, day: CivilDay, title: string)

  /** The day an entry is shown on: the due date rebuilt from its year, month and day. */
  function EventDayOf(due: Date): (c: CivilDay)
    ensures !(0 <= due.year <= 99) ==> c == DayOf(due)
    ensures 0 <= due.year <= 99 ==>
      && 0 <= c.month < 12 && 1 <= c.day <= DaysInMonth(c.year, c.month)
      && DayNumber(c.year, c.month, c.day) == DayNumber(1900 + due.year, due.month, due.day)
  {
    DayOf(LocalMidnight(due.year, due.month, due.day))
  }

  /**
   * `calendarEvents`: one entry per record with a due date, in list order,
   * on the day of that date (years 0..99 land in 1900..1999).
   */
  function CalendarEvents(filtered: seq<Document>): (r: seq<Event>)
    ensures |r| == |DocumentsWithDue(filtered)|
    ensures forall i :: 0 <= i < |r| ==>
      var x := DocumentsWithDue(filtered)[i];
      r[i].id == x.doc.id && r[i].title == x.doc.name
      && (!(0 <= x.due.year <= 99) ==> r[i].day == DayOf(x.due))
      && (0 <= x.due.year <= 99 ==>
            0 <= r[i].day.month < 12 && 1 <= r[i].day.day <= DaysInMonth(r[i].day.year, r[i].day.month)
            && DayNumber(r[i].day.year, r[i].day.month, r[i].day.day) == DayNumber(1900 + x.due.year, x.due.month, x.due.day))
  {
    var dated := DocumentsWithDue(filtered);
    seq(|dated|, i requires 0 <= i < |dated| => Event(dated[i].doc.id, EventDayOf(dated[i].due), dated[i].doc.name))
  }

  function EventDay(e: Event): CivilDay {
    e.day
  }

  /** `eventsByDay`: the entries grouped by day, days in order of first appearance. */
  function EventsByDay(events: seq<Event>): (r: seq<(CivilDay, seq<Event>)>)
    ensures DistinctKeys(r) && TotalSize(r) == |events|
  {
    GroupOrderedShape(events, EventDay);
    GroupOrdered(events, EventDay)
  }

  /** Each day's list holds exactly that day's entries in order, and a day has a list iff it has an entry. */
  lemma EventsByDayContents(events: seq<Event>)
    ensures var r := EventsByDay(events);
      && (forall k :: HasKey(r, k) <==> Occurs(events, EventDay, k))
      && (forall j :: 0 <= j < |r| ==> r[j].1 == Matching(events, EventDay, r[j].0))
      && ToMap(r) == GroupBy(events, EventDay)
  {
    GroupOrderedKeys(events, EventDay);
    GroupOrderedGroups(events, EventDay);
    GroupOrderedAgrees(events, EventDay);
  }

  const MaxItems: nat := 3

  /** What one calendar cell shows: up to three titles and, past that, how many more. */
  datatype DayCell = DayCell(shown: seq<string>, more: Option<nat>)

  function DayContent(events: seq<Event>): (c: DayCell)
    ensures |c.shown| == if |events| < MaxItems then |events| else MaxItems
    ensures forall i :: 0 <= i < |c.shown| ==> c.shown[i] == events[i].title
    ensures c.more.Some? <==> |events| > MaxItems
    ensures |c.shown| + c.more.GetOr(0) == |events|
  {
    var n := if |events| < MaxItems then |events| else MaxItems;
    var shown := seq(n, i requires 0 <= i < n => events[i].title);
    DayCell(shown, if |events| > MaxItems then Some(|events| - MaxItems) else None)
  }
}

=== FILE: settings.dfy ===
/**
 * The preset editor of the settings page: a preset name and four bins that
 * are edited with the shared bin operations, saved as a new preset, and
 * filled again from an existing preset by its Edit button.
 */
module SettingsEditor {
  import opened Text
  import opened Documents
  import opened Presets
  import opened Bins

  /** The editor's state: the name field and the bins. */
  datatype Editor = Editor(presetName: string, bins: seq<Bin>)

  /** The editor as the page opens it. */
  const InitialEditor: Editor := Editor("New Preset", [
    Bin("bin-1", "Monthly Docs", []),
    Bin("bin-2", "Quarterly Docs", []),
    Bin("bin-3", "Yearly Docs", []),
    Bin("bin-4", "One-Time", [])])

  /**
   * `handleDrop`: an empty name is ignored; otherwise the name is filed in
   * the addressed bin unless that bin already holds it in some case. Nothing
   * reaches the store.
   */
  function HandleDrop(e: Editor, binId: string, name: string, nowMs: int): (r: Editor)
    ensures r.presetName == e.presetName && |r.bins| == |e.bins|
    ensures name == [] ==> r == e
    ensures forall k :: 0 <= k < |e.bins| ==> r.bins[k].id == e.bins[k].id && r.bins[k].labelText == e.bins[k].labelText
    ensures forall k :: 0 <= k < |e.bins| && e.bins[k].id != binId ==> r.bins[k] == e.bins[k]
    ensures forall k :: 0 <= k < |e.bins| && e.bins[k].id == binId && HasName(e.bins[k].items, name) ==> r.bins[k] == e.bins[k]
    ensures name != [] ==>
      forall k :: 0 <= k < |e.bins| && e.bins[k].id == binId && !HasName(e.bins[k].items, name) ==>
        r.bins[k].items == e.bins[k].items + [BinItem(NewItemId(binId, nowMs), name)]
  {
    if name == [] then e else e.(bins := InsertName(e.bins, binId, name, nowMs))
  }

  /** `handleSavePreset`: save the bins, without item ids, under the name field as a new preset. */
  function HandleSavePreset(presets: seq<Preset>, e: Editor, clock: Clock): (r: seq<Preset>)
    ensures |r| == |presets| + 1 && r[1..] == presets
    ensures r[0].bins == ToPresetBins(e.bins)
    ensures PresetDocumentCount(r[0].bins) == TotalItems(e.bins)
    ensures !Blank(e.presetName) ==> r[0].name == Trim(e.presetName)
  {
    SavedCountMatches(e.bins);
    SavePreset(presets, e.presetName, ToPresetBins(e.bins), clock)
  }

  /** Saving keeps every item, so the saved preset lists as many documents as the editor held. */
  lemma {:induction false} SavedCountMatches(bins: seq<Bin>)
    ensures PresetDocumentCount(ToPresetBins(bins)) == TotalItems(bins)
    decreases |bins|
  {
    if bins != [] {
      var n := |bins| - 1;
      SavedCountMatches(bins[..n]);
      assert ToPresetBins(bins)[..n] == ToPresetBins(bins[..n]);
    }
  }

  /** The Edit button: fill the editor with the preset's name and its bins under fresh item ids. */
  function EditPreset(p: Preset, nowMs: int): (r: Editor)
    ensures r.presetName == p.name
    ensures ToPresetBins(r.bins) == p.bins
    ensures TotalItems(r.bins) == PresetDocumentCount(p.bins)
  {
    LoadThenSave(p.bins, nowMs);
    LoadedCountMatches(p.bins, nowMs);
    Editor(p.name, LoadPresetBins(p.bins, nowMs))
  }

  /**
   * Editing a saved preset and saving again adds a second preset with the
   * same name and bins; the page never calls `updatePreset`, so the
   * original stays in the list.
   */
  lemma EditThenSaveCopies(presets: seq<Preset>, name: string, pbins: seq<PresetBin>, c1: Clock, nowMs: int, c2: Clock)
    ensures var saved := SavePreset(presets, name, pbins, c1);
      var again := HandleSavePreset(saved, EditPreset(saved[0], nowMs), c2);
      |again| == |presets| + 2 && again[1..] == saved
      && again[0].name == saved[0].name && again[0].bins == saved[0].bins
  {
    SavedNameIsStable(presets, name, pbins, c1, c2);
  }
}

=== FILE: store.dfy ===
/**
 * The document store: requesting a document (reconciled onto a similar
 * fulfilled record as an update request, or added as a new outstanding
 * record at the head of the list), update requests, frequency and due-date
 * edits, deletion, and the label-to-frequency rule used when presets are
 * applied. Every operation maps the current list to the next one.
 */
module DocumentStore {
  import opened Wrappers
  import opened Calendar
  import opened Text
  import opened Collections
  import opened Documents

  /** A word that counts for similarity: longer than two characters. */
  predicate IsSignificant(w: string) {
    |w| > 2
  }

  /** The significant words of a name: lower-cased, extension dropped, split on single spaces. */
  function SignificantWords(name: string): (ws: seq<string>)
    ensures forall i :: 0 <= i < |ws| ==> |ws[i]| > 2 && ' ' !in ws[i]
    ensures IsSubsequence(ws, Split(StripExtension(Lower(name)), ' '))
    ensures forall w :: w in Split(StripExtension(Lower(name)), ' ') && |w| > 2 ==> w in ws
  {
    var pieces := Split(StripExtension(Lower(name)), ' ');
    var ws := Filter(pieces, IsSignificant);
    assert forall i :: 0 <= i < |ws| ==> ws[i] in pieces;
    FilterIsSubsequence(pieces, IsSignificant);
    ws
  }

  /** How many entries of `ws` (counted with repetition) also occur in `pool`. */
  function CountShared(ws: seq<string>, pool: seq<string>): (n: nat)
    ensures n <= |ws|
    decreases |ws|
  {
    if ws == [] then 0 else (if ws[0] in pool then 1 else 0) + CountShared(ws[1..], pool)
  }

  function Max(a: nat, b: nat): nat {
    if a >= b then a else b
  }

  /** `matches >= Math.min(2, wordCount * 0.6)`, in exact integer arithmetic. */
  predicate MeetsThreshold(matches: nat, wordCount: nat) {
    matches >= 2 || 5 * matches >= 3 * wordCount
  }

  /** The similarity test between a stored name and a requested name. */
  predicate Similar(storedName: string, requestedName: string) {
    var stored := SignificantWords(storedName);
    var requested := SignificantWords(requestedName);
    MeetsThreshold(CountShared(stored, requested), Max(|stored|, |requested|))
  }

  /** The number of shared words the threshold asks for, as a function of the larger word count. */
  function RequiredMatches(wordCount: nat): nat {
    if wordCount == 0 then 0 else if wordCount == 1 then 1 else 2
  }

  /** The 60% rule never asks for more than two shared words: 0, 1 or 2 depending on the word count. */
  lemma ThresholdIsSmall(matches: nat, wordCount: nat)
    ensures MeetsThreshold(matches, wordCount) <==> matches >= RequiredMatches(wordCount)
  {
  }

  /** Two names without a single word longer than two characters are always similar. */
  lemma ShortNamesAlwaysSimilar(storedName: string, requestedName: string)
    requires SignificantWords(storedName) == [] && SignificantWords(requestedName) == []
    ensures Similar(storedName, requestedName)
  {
  }

  /** Two shared significant words make any two names similar, however long they are. */
  lemma TwoSharedWordsSuffice(storedName: string, requestedName: string)
    requires CountShared(SignificantWords(storedName), SignificantWords(requestedName)) >= 2
    ensures Similar(storedName, requestedName)
  {
  }

  /** A record the request could be reconciled onto. */
  predicate Candidate(d: Document, requestedName: string) {
    Fulfilled(d) && Similar(d.name, requestedName)
  }

  /** `documents.find(...)`: the first candidate at or after `from`. */
  function FindMatch(docs: seq<Document>, requestedName: string, from: nat): (r: Option<nat>)
    requires from <= |docs|
    ensures r.Some? ==> from <= r.value < |docs| && Candidate(docs[r.value], requestedName)
    ensures r.Some? ==> forall j :: from <= j < r.value ==> !Candidate(docs[j], requestedName)
    ensures r.None? ==> forall j :: from <= j < |docs| ==> !Candidate(docs[j], requestedName)
  {
    FindFirst(docs, (d: Document) => Candidate(d, requestedName), from)
  }

  /** Set the update-request fields on every record with the given id; nothing else changes. */
  function RequestDocumentUpdate(
    docs: seq<Document>, documentId: string, requestedBy: string,
    description: Option<string>, requestedVersion: Option<string>, now: Date): (r: seq<Document>)
    ensures |r| == |docs|
    ensures forall i :: 0 <= i < |docs| && docs[i].id != documentId ==> r[i] == docs[i]
    ensures forall i :: 0 <= i < |docs| && docs[i].id == documentId ==>
      r[i] == docs[i].(hasUpdateRequest := true, updateRequestedBy := Some(requestedBy),
                       updateRequestedAt := Some(now), updateRequestDescription := description,
                       requestedVersion := requestedVersion)
  {
    seq(|docs|, i requires 0 <= i < |docs| =>
      if docs[i].id == documentId
      then docs[i].(hasUpdateRequest := true, updateRequestedBy := Some(requestedBy),
                    updateRequestedAt := Some(now), updateRequestDescription := description,
                    requestedVersion := requestedVersion)
      else docs[i])
  }

  /** Asking twice for the same update leaves the list as asking once. */
  lemma RequestDocumentUpdateIdempotent(
    docs: seq<Document>, documentId: string, requestedBy: string,
    description: Option<string>, requestedVersion: Option<string>, now: Date)
    ensures var once := RequestDocumentUpdate(docs, documentId, requestedBy, description, requestedVersion, now);
      RequestDocumentUpdate(once, documentId, requestedBy, description, requestedVersion, now) == once
  {
  }

  /** An unknown id leaves the list as it was. */
  lemma RequestDocumentUpdateUnknownId(
    docs: seq<Document>, documentId: string, requestedBy: string,
    description: Option<string>, requestedVersion: Option<string>, now: Date)
    requires !HasId(docs, documentId)
    ensures RequestDocumentUpdate(docs, documentId, requestedBy, description, requestedVersion, now) == docs
  {
  }

  /** Overwrite the recurrence of every record with the given id. */
  function UpdateRequestFrequency(docs: seq<Document>, documentId: string, frequency: Frequency): (r: seq<Document>)
    ensures |r| == |docs|
    ensures forall i :: 0 <= i < |docs| && docs[i].id != documentId ==> r[i] == docs[i]
    ensures forall i :: 0 <= i < |docs| && docs[i].id == documentId ==>
      r[i] == docs[i].(requestFrequency := Some(frequency))
  {
    seq(|docs|, i requires 0 <= i < |docs| =>
      if docs[i].id == documentId then docs[i].(requestFrequency := Some(frequency)) else docs[i])
  }

  /** The last frequency written wins; an earlier edit leaves no trace. */
  lemma UpdateRequestFrequencyLastWins(docs: seq<Document>, documentId: string, f1: Frequency, f2: Frequency)
    ensures UpdateRequestFrequency(UpdateRequestFrequency(docs, documentId, f1), documentId, f2)
         == UpdateRequestFrequency(docs, documentId, f2)
  {
  }

  /** Set (or, with `None`, clear) the explicit due date of every record with the given id. */
  function UpdateDocumentDueDate(docs: seq<Document>, documentId: string, dueDate: Option<Date>): (r: seq<Document>)
    ensures |r| == |docs|
    ensures forall i :: 0 <= i < |docs| && docs[i].id != documentId ==> r[i] == docs[i]
    ensures forall i :: 0 <= i < |docs| && docs[i].id == documentId ==> r[i] == docs[i].(dueDate := dueDate)
  {
    seq(|docs|, i requires 0 <= i < |docs| =>
      if docs[i].id == documentId then docs[i].(dueDate := dueDate) else docs[i])
  }

  /** Clearing a due date that was just set restores a record that had none. */
  lemma DueDateSetThenClear(docs: seq<Document>, documentId: string, dueDate: Date)
    requires forall i :: 0 <= i < |docs| && docs[i].id == documentId ==> docs[i].dueDate.None?
    ensures UpdateDocumentDueDate(UpdateDocumentDueDate(docs, documentId, Some(dueDate)), documentId, None) == docs
  {
  }

  /** Remove every record with the given id, keeping the others in order. No outstanding-only guard. */
  function DeleteRequestedDocument(docs: seq<Document>, documentId: string): (r: seq<Document>)
    ensures forall d :: d in r <==> d in docs && d.id != documentId
    ensures forall d :: multiset(r)[d] == if d.id != documentId then multiset(docs)[d] else 0
    ensures !HasId(r, documentId)
    ensures |r| <= |docs|
  {
    FilterCount(docs, (d: Document) => d.id != documentId);
    Filter(docs, (d: Document) => d.id != documentId)
  }

  lemma DeleteKeepsOrder(docs: seq<Document>, documentId: string)
    ensures IsSubsequence(DeleteRequestedDocument(docs, documentId), docs)
  {
    FilterIsSubsequence(docs, (d: Document) => d.id != documentId);
  }

  /** Deleting an id no record carries changes nothing. */
  lemma DeleteUnknownId(docs: seq<Document>, documentId: string)
    requires !HasId(docs, documentId)
    ensures DeleteRequestedDocument(docs, documentId) == docs
  {
    FilterAll(docs, (d: Document) => d.id != documentId);
  }

  /** The outstanding record `requestDocument` creates when nothing similar exists. */
  function NewRequestRecord(
    documentName: string, description: Option<string>, requestedBy: string,
    clientId: string, frequency: Frequency, clock: Clock): (d: Document)
    ensures Outstanding(d) && !Fulfilled(d) && !d.hasUpdateRequest
    ensures d.name == documentName && d.folder == "Documents"
    ensures d.requestFrequency == Some(frequency) && d.clientId == Some(clientId)
  {
    Document(
      id := "req-" + IntToString(clock.epochMs),
      name := documentName, kind := "", size := "", uploadedBy := "",
      uploadedAt := clock.local, folder := "Documents",
      clientId := Some(clientId), url := None, isRequested := true,
      requestedBy := Some(requestedBy), requestedAt := Some(clock.local),
      description := description, requestFrequency := Some(frequency), dueDate := None,
      hasUpdateRequest := false, updateRequestedBy := None, updateRequestedAt := None,
      updateRequestDescription := None, requestedVersion := None)
  }

  datatype RequestOutcome = RequestOutcome(documents: seq<Document>, request: DocumentRequest)

  /**
   * `requestDocument`: reconcile onto the first similar fulfilled record as an
   * update request, or put a new outstanding record at the head of the list.
   */
  function RequestDocument(
    docs: seq<Document>, documentName: string, description: Option<string>,
    requestedBy: string, clientId: string, frequency: Frequency, clock: Clock): (r: RequestOutcome)
    ensures r.request.documentName == documentName && r.request.description == description
    ensures r.request.requestedBy == requestedBy && r.request.clientId == clientId
    ensures r.request.frequency == frequency && r.request.status == "pending"
    ensures r.request.requestedAt == clock.local
    ensures FindMatch(docs, documentName, 0).None? ==>
      && r.documents == [NewRequestRecord(documentName, description, requestedBy, clientId, frequency, clock)] + docs
      && r.request.id == "req-" + IntToString(clock.epochMs)
    ensures FindMatch(docs, documentName, 0).Some? ==>
      var i := FindMatch(docs, documentName, 0).value;
      && |r.documents| == |docs|
      && r.request.id == docs[i].id
      && r.documents[i].hasUpdateRequest
      && r.documents[i].requestedVersion == YearToken(documentName)
      && r.documents[i].requestFrequency == docs[i].requestFrequency
      && r.documents[i].updateRequestedBy == Some(requestedBy)
      && (forall j :: 0 <= j < |docs| && docs[j].id != docs[i].id ==> r.documents[j] == docs[j])
  {
    match FindMatch(docs, documentName, 0)
    case Some(i) =>
      var existing := docs[i];
      RequestOutcome(
        RequestDocumentUpdate(docs, existing.id, requestedBy, description, YearToken(documentName), clock.local),
        DocumentRequest(existing.id, documentName, description, requestedBy, clock.local, clientId, "pending", frequency))
    case None =>
      var created := NewRequestRecord(documentName, description, requestedBy, clientId, frequency, clock);
      RequestOutcome(
        [created] + docs,
        DocumentRequest(created.id, documentName, description, requestedBy, clock.local, clientId, "pending", frequency))
  }

  /** A request that found nothing similar adds exactly one record, and never a fulfilled one. */
  lemma RequestAddsAtMostOne(
    docs: seq<Document>, documentName: string, description: Option<string>,
    requestedBy: string, clientId: string, frequency: Frequency, clock: Clock)
    ensures var r := RequestDocument(docs, documentName, description, requestedBy, clientId, frequency, clock);
      && |r.documents| <= |docs| + 1
      && (|r.documents| == |docs| + 1 <==> (forall j :: 0 <= j < |docs| ==> !Candidate(docs[j], documentName)))
  {
  }

  /** Deleting the record a fresh request just created gives back the list from before the request. */
  lemma DeleteUndoesNewRequest(
    docs: seq<Document>, documentName: string, description: Option<string>,
    requestedBy: string, clientId: string, frequency: Frequency, clock: Clock)
    requires FindMatch(docs, documentName, 0).None?
    requires !HasId(docs, "req-" + IntToString(clock.epochMs))
    ensures var r := RequestDocument(docs, documentName, description, requestedBy, clientId, frequency, clock);
      DeleteRequestedDocument(r.documents, r.request.id) == docs
  {
    var r := RequestDocument(docs, documentName, description, requestedBy, clientId, frequency, clock);
    var id := "req-" + IntToString(clock.epochMs);
    assert r.documents[1..] == docs;
    DeleteUnknownId(docs, id);
  }

  /**
   * A request never changes which record a later request would be reconciled
   * onto: new records are outstanding, and update requests touch neither names
   * nor urls. This is why the store may read a stale list when a preset issues
   * several requests in a row.
   */
  lemma RequestKeepsCandidates(
    docs: seq<Document>, documentName: string, description: Option<string>,
    requestedBy: string, clientId: string, frequency: Frequency, clock: Clock, laterName: string)
    ensures var after := RequestDocument(docs, documentName, description, requestedBy, clientId, frequency, clock).documents;
      (FindMatch(after, laterName, 0).Some? <==> FindMatch(docs, laterName, 0).Some?)
      && (FindMatch(docs, laterName, 0).Some? ==>
            after[FindMatch(after, laterName, 0).value].id == docs[FindMatch(docs, laterName, 0).value].id)
  {
    var after := RequestDocument(docs, documentName, description, requestedBy, clientId, frequency, clock).documents;
    match FindMatch(docs, documentName, 0)
    case None =>
      assert after[1..] == docs;
      CandidatesShifted(docs, after, laterName);
    case Some(i) =>
      UpdateKeepsIdentity(docs, docs[i].id, requestedBy, description, YearToken(documentName), clock.local);
      CandidatesSame(docs, after, laterName);
  }

  /** An update request keeps every record's id, name and url. */
  lemma UpdateKeepsIdentity(
    docs: seq<Document>, documentId: string, requestedBy: string,
    description: Option<string>, requestedVersion: Option<string>, now: Date)
    ensures var r := RequestDocumentUpdate(docs, documentId, requestedBy, description, requestedVersion, now);
      |r| == |docs| && forall j :: 0 <= j < |docs| ==> r[j].id == docs[j].id && r[j].name == docs[j].name && r[j].url == docs[j].url
  {
  }

  lemma CandidatesShifted(docs: seq<Document>, after: seq<Document>, name: string)
    requires |after| == |docs| + 1 && after[1..] == docs && !Fulfilled(after[0])
    ensures FindMatch(after, name, 0).Some? <==> FindMatch(docs, name, 0).Some?
    ensures FindMatch(docs, name, 0).Some? ==> FindMatch(after, name, 0) == Some(FindMatch(docs, name, 0).value + 1)
  {
    FindFirstShifted(docs, after, (d: Document) => Candidate(d, name));
  }

  lemma CandidatesSame(docs: seq<Document>, after: seq<Document>, name: string)
    requires |after| == |docs|
    requires forall j :: 0 <= j < |docs| ==>
      after[j].id == docs[j].id && after[j].name == docs[j].name && after[j].url == docs[j].url
    ensures FindMatch(after, name, 0) == FindMatch(docs, name, 0)
  {
    var p := (d: Document) => Candidate(d, name);
    forall j | 0 <= j < |docs|
      ensures p(after[j]) <==> p(docs[j])
    {
      SameCandidate(after[j], docs[j], name);
    }
    FindFirstSame(after, docs, p, p);
  }

  /** Whether a record is a candidate depends only on its name and url. */
  lemma SameCandidate(a: Document, b: Document, name: string)
    requires a.name == b.name && a.url == b.url
    ensures Candidate(a, name) <==> Candidate(b, name)
  {
  }

  /** `inferFrequencyFromLabel` of the store: case-insensitive, checking day, month, quarter, year in that order. */
  function InferFrequencyFromLabel(labelText: string): (f: Frequency)
    ensures f == Daily <==> Contains(Lower(labelText), "day")
    ensures f == Monthly <==> !Contains(Lower(labelText), "day") && Contains(Lower(labelText), "month")
    ensures f == Quarterly <==>
      !Contains(Lower(labelText), "day") && !Contains(Lower(labelText), "month") && Contains(Lower(labelText), "quarter")
    ensures f == Yearly <==>
      !Contains(Lower(labelText), "day") && !Contains(Lower(labelText), "month") && !Contains(Lower(labelText), "quarter")
      && Contains(Lower(labelText), "year")
  {
    var l := Lower(labelText);
    if Contains(l, "day") then Daily
    else if Contains(l, "month") then Monthly
    else if Contains(l, "quarter") then Quarterly
    else if Contains(l, "year") then Yearly
    else if Contains(l, "one") then OneTime
    else OneTime
  }

  /**
   * "daily" does not contain "day", so a "Daily Docs" label falls through to
   * one-time; only labels spelling "day" itself (e.g. "Every day") are daily.
   */
  lemma DailyLabelExamples()
    ensures InferFrequencyFromLabel("Daily Docs") == OneTime
    ensures InferFrequencyFromLabel("Every day") == Daily
  {
    DailyDocsLabel();
    assert Lower("Every day") == "every day";
    assert OccursAt("every day", "day", 6);
  }

  /** "daily" does not contain "day", and nothing else in "Daily Docs" names a period. */
  lemma DailyDocsLabel()
    ensures InferFrequencyFromLabel("Daily Docs") == OneTime
  {
    assert Lower("Daily Docs") == "daily docs";
    DailyDocsNoDay("daily docs");
    DailyDocsNoPeriod("daily docs");
  }

  lemma DailyDocsNoDay(s: string)
    requires s == "daily docs"
    ensures !Contains(s, "day")
  {
    forall i | 0 <= i <= |s| - 3
      ensures !OccursAt(s, "day", i)
    {
      if i == 0 {
        NotOccursAtByChar(s, "day", i, 2);
      } else if i == 6 {
        NotOccursAtByChar(s, "day", i, 1);
      } else {
        assert i == 1 || i == 2 || i == 3 || i == 4 || i == 5 || i == 7;
        NotOccursAtByChar(s, "day", i, 0);
      }
    }
  }

  lemma DailyDocsNoPeriod(s: string)
    requires s == "daily docs"
    ensures !Contains(s, "month") && !Contains(s, "quarter") && !Contains(s, "year")
  {
    NotContainsByChar(s, "month", 0);
    NotContainsByChar(s, "quarter", 0);
    NotContainsByChar(s, "year", 1);
  }
}

=== FILE: text.dfy ===
/**
 * String primitives the source takes from JavaScript: ASCII case folding
 * (`toLowerCase`), substring search (`includes`), `trim`, the whitespace
 * collapse `replace(/\s+/g, ' ')`, `split(' ')`, the extension strip
 * `replace(/\.[^/.]+$/, '')`, the year matcher `/\b(19|20)\d{2}\b/`, and
 * decimal rendering of numbers in template strings. Character classes are the
 * ASCII readings of `\s`, `\d` and `\w`.
 */
module Text {
  import opened Wrappers

  /** `\s` restricted to ASCII: tab, line feed, vertical tab, form feed, carriage return, space. */
  predicate IsSpace(c: char) {
    c == ' ' || ('\t' <= c <= '\r')
  }

  predicate IsDigit(c: char) {
    '0' <= c <= '9'
  }

  /** `\w`: ASCII letters, digits and underscore. */
  predicate IsWordChar(c: char) {
    ('a' <= c <= 'z') || ('A' <= c <= 'Z') || IsDigit(c) || c == '_'
  }

  predicate AllDigits(s: string) {
    forall i :: 0 <= i < |s| ==> IsDigit(s[i])
  }

  predicate AllWordChars(s: string) {
    forall i :: 0 <= i < |s| ==> IsWordChar(s[i])
  }

  function LowerChar(c: char): char {
    if 'A' <= c <= 'Z' then (c as int + 32) as char else c
  }

  function UpperChar(c: char): char {
    if 'a' <= c <= 'z' then (c as int - 32) as char else c
  }

  /** `toLowerCase()` on ASCII letters; every other character is kept. */
  function Lower(s: string): (r: string)
    ensures |r| == |s|
  {
    seq(|s|, i requires 0 <= i < |s| => LowerChar(s[i]))
  }

  /** `toUpperCase()` on ASCII letters. */
  function Upper(s: string): (r: string)
    ensures |r| == |s|
  {
    seq(|s|, i requires 0 <= i < |s| => UpperChar(s[i]))
  }

  /** Folding is idempotent and forgets the case the text was written in. */
  lemma LowerFolds(s: string)
    ensures Lower(Lower(s)) == Lower(s)
    ensures Lower(Upper(s)) == Lower(s)
  {
    assert forall i :: 0 <= i < |s| ==> Lower(Lower(s))[i] == Lower(s)[i];
    assert forall i :: 0 <= i < |s| ==> Lower(Upper(s))[i] == Lower(s)[i];
  }

  /** Case-insensitive equality as the source writes it: `a.toLowerCase() === b.toLowerCase()`. */
  predicate SameIgnoringCase(a: string, b: string) {
    Lower(a) == Lower(b)
  }

  /** `s.includes(t)`. */
  predicate Contains(s: string, t: string) {
    exists i :: 0 <= i <= |s| - |t| && OccursAt(s, t, i)
  }

  predicate OccursAt(s: string, t: string, i: int) {
    0 <= i <= |s| - |t| && s[i..i + |t|] == t
  }

  lemma ContainsEmpty(s: string)
    ensures Contains(s, "")
  {
    assert OccursAt(s, "", 0);
  }

  /** An occurrence of `t + u` holds an occurrence of `t` at the same place. */
  lemma ContainsPrefix(s: string, t: string, u: string)
    requires Contains(s, t + u)
    ensures Contains(s, t)
  {
    var i :| 0 <= i <= |s| - |t + u| && OccursAt(s, t + u, i);
    assert s[i..i + |t|] == (t + u)[..|t|] == t;
    assert OccursAt(s, t, i);
  }

  /** Lower-casing works character by character, so it distributes over concatenation. */
  lemma LowerAppend(a: string, b: string)
    ensures Lower(a + b) == Lower(a) + Lower(b)
  {
    assert forall i :: 0 <= i < |a + b| ==> Lower(a + b)[i] == (Lower(a) + Lower(b))[i];
  }

  /** One mismatching character rules out an occurrence at that position. */
  lemma NotOccursAtByChar(s: string, t: string, i: int, j: nat)
    requires 0 <= i <= |s| - |t| && j < |t| && s[i + j] != t[j]
    ensures !OccursAt(s, t, i)
  {
    assert s[i + j] == s[i..i + |t|][j];
  }

  /** A text that lacks one of the pattern's characters cannot contain the pattern. */
  lemma NotContainsByChar(s: string, t: string, j: nat)
    requires j < |t| && t[j] !in s
    ensures !Contains(s, t)
  {
    forall i | 0 <= i <= |s| - |t|
      ensures !OccursAt(s, t, i)
    {
      assert s[i + j] == s[i..i + |t|][j];
    }
  }

  /** A string with nothing but whitespace (or nothing at all): what `!s.trim()` detects. */
  predicate Blank(s: string) {
    forall i :: 0 <= i < |s| ==> IsSpace(s[i])
  }

  /** Length of the leading whitespace run. */
  function LeadingSpaceCount(s: string): (n: nat)
    ensures n <= |s|
    ensures forall k :: 0 <= k < n ==> IsSpace(s[k])
    ensures n < |s| ==> !IsSpace(s[n])
    decreases |s|
  {
    if s == [] || !IsSpace(s[0]) then 0 else 1 + LeadingSpaceCount(s[1..])
  }

  /** Length of the trailing whitespace run. */
  function TrailingSpaceCount(s: string): (n: nat)
    ensures n <= |s|
    ensures forall k :: |s| - n <= k < |s| ==> IsSpace(s[k])
    ensures n < |s| ==> !IsSpace(s[|s| - n - 1])
    decreases |s|
  {
    if s == [] || !IsSpace(s[|s| - 1]) then 0 else 1 + TrailingSpaceCount(s[..|s| - 1])
  }

  /** `s.trim()`: the text between the leading and trailing whitespace runs. */
  function Trim(s: string): (r: string)
    ensures |r| > 0 ==> !IsSpace(r[0]) && !IsSpace(r[|r| - 1])
    ensures LeadingSpaceCount(s) + |r| <= |s|
    ensures r == s[LeadingSpaceCount(s)..LeadingSpaceCount(s) + |r|]
    ensures forall k :: LeadingSpaceCount(s) + |r| <= k < |s| ==> IsSpace(s[k])
    ensures r == [] <==> Blank(s)
  {
    var a := LeadingSpaceCount(s);
    if a == |s| then []
    else
      var b := TrailingSpaceCount(s);
      assert |s| - b > a;
      s[a..|s| - b]
  }

  /** Trimming a trimmed string changes nothing. */
  lemma TrimIdempotent(s: string)
    ensures Trim(Trim(s)) == Trim(s)
  {
    var r := Trim(s);
    if r != [] {
      assert LeadingSpaceCount(r) == 0;
      assert TrailingSpaceCount(r) == 0;
    }
  }

  /** Every whitespace character is a plain space and is never followed by another whitespace character. */
  predicate NoSpaceRuns(s: string) {
    forall i :: 0 <= i < |s| && IsSpace(s[i]) ==> s[i] == ' ' && (i + 1 < |s| ==> !IsSpace(s[i + 1]))
  }

  /** Single spaces between words and none at either end: the shape of a normalised name. */
  predicate Clean(s: string) {
    NoSpaceRuns(s) && (|s| > 0 ==> !IsSpace(s[0]) && !IsSpace(s[|s| - 1]))
  }

  /** `s.replace(/\s+/g, ' ')`: each maximal whitespace run becomes one space. */
  function CollapseSpaces(s: string): (r: string)
    ensures NoSpaceRuns(r)
    ensures |r| <= |s|
    ensures |s| > 0 ==> |r| > 0 && (IsSpace(s[0]) ==> r[0] == ' ') && (!IsSpace(s[0]) ==> r[0] == s[0])
    ensures |r| == 0 ==> |s| == 0
    decreases |s|
  {
    if s == [] then []
    else if IsSpace(s[0]) then [' '] + CollapseSpaces(s[LeadingSpaceCount(s)..])
    else [s[0]] + CollapseSpaces(s[1..])
  }

  /** A text that is already free of whitespace runs is left alone by the collapse. */
  lemma {:induction false} CollapseFixpoint(s: string)
    requires NoSpaceRuns(s)
    ensures CollapseSpaces(s) == s
    decreases |s|
  {
    if s != [] {
      assert NoSpaceRuns(s[1..]);
      if IsSpace(s[0]) {
        assert LeadingSpaceCount(s) == 1 by {
          if |s| > 1 {
            assert !IsSpace(s[1]);
            assert LeadingSpaceCount(s[1..]) == 0;
          }
        }
        assert s[LeadingSpaceCount(s)..] == s[1..];
      }
      CollapseFixpoint(s[1..]);
    }
  }

  /** The characters of `s` other than whitespace, in order. */
  function NonSpaceChars(s: string): (r: string)
    ensures |r| <= |s|
    ensures forall i :: 0 <= i < |r| ==> !IsSpace(r[i])
    decreases |s|
  {
    if s == [] then []
    else (if IsSpace(s[0]) then [] else [s[0]]) + NonSpaceChars(s[1..])
  }

  lemma {:induction false} NonSpaceAppend(a: string, b: string)
    ensures NonSpaceChars(a + b) == NonSpaceChars(a) + NonSpaceChars(b)
    decreases |a|
  {
    if a == [] {
      assert a + b == b;
    } else {
      assert (a + b)[0] == a[0];
      assert (a + b)[1..] == a[1..] + b;
      NonSpaceAppend(a[1..], b);
    }
  }

  /** A text has no characters besides whitespace exactly when it is blank. */
  lemma {:induction false} NonSpaceBlank(s: string)
    ensures NonSpaceChars(s) == [] <==> Blank(s)
    decreases |s|
  {
    if s != [] {
      NonSpaceBlank(s[1..]);
      if Blank(s) {
        assert Blank(s[1..]) by {
          forall i | 0 <= i < |s| - 1
            ensures IsSpace(s[1..][i])
          {
            assert s[1..][i] == s[i + 1];
          }
        }
      } else if IsSpace(s[0]) {
        var i :| 0 <= i < |s| && !IsSpace(s[i]);
        assert s[1..][i - 1] == s[i];
      }
    }
  }

  /** Dropping or keeping whitespace around a text keeps its other characters. */
  lemma DropBlankEnds(s: string, a: nat, b: nat)
    requires a <= b <= |s|
    requires Blank(s[..a]) && Blank(s[b..])
    ensures NonSpaceChars(s[a..b]) == NonSpaceChars(s)
  {
    assert s == s[..a] + s[a..b] + s[b..];
    NonSpaceAppend(s[..a] + s[a..b], s[b..]);
    NonSpaceAppend(s[..a], s[a..b]);
    NonSpaceBlank(s[..a]);
    NonSpaceBlank(s[b..]);
  }

  /** Collapsing whitespace runs keeps every other character, in order. */
  lemma {:induction false} CollapseKeepsText(s: string)
    ensures NonSpaceChars(CollapseSpaces(s)) == NonSpaceChars(s)
    decreases |s|
  {
    if s != [] {
      if IsSpace(s[0]) {
        var n := LeadingSpaceCount(s);
        var rest := CollapseSpaces(s[n..]);
        CollapseKeepsText(s[n..]);
        assert ([' '] + rest)[0] == ' ' && ([' '] + rest)[1..] == rest;
        assert s[n..][..0] == [];
        assert Blank(s[..n]);
        assert s[n..] == s[n..|s|];
        DropBlankEnds(s, n, |s|);
      } else {
        var rest := CollapseSpaces(s[1..]);
        CollapseKeepsText(s[1..]);
        assert ([s[0]] + rest)[0] == s[0] && ([s[0]] + rest)[1..] == rest;
      }
    }
  }

  /** Trimming keeps every character that is not whitespace, in order. */
  lemma TrimKeepsText(s: string)
    ensures NonSpaceChars(Trim(s)) == NonSpaceChars(s)
  {
    var a := LeadingSpaceCount(s);
    var r := Trim(s);
    assert Blank(s[..a]);
    assert Blank(s[a + |r|..]);
    DropBlankEnds(s, a, a + |r|);
  }

  /** `replace(/\s+/g, ' ').trim()`. */
  function NormalizeSpaces(s: string): (r: string)
    ensures Clean(r)
    ensures |r| <= |s|
    ensures NonSpaceChars(r) == NonSpaceChars(s)
    ensures r == [] <==> Blank(s)
  {
    var c := CollapseSpaces(s);
    var r := Trim(c);
    CollapseKeepsText(s);
    TrimKeepsText(c);
    NonSpaceBlank(s);
    NonSpaceBlank(r);
    TrimKeepsNoRuns(c);
    r
  }

  /** Trimming a text without whitespace runs leaves none. */
  lemma TrimKeepsNoRuns(c: string)
    requires NoSpaceRuns(c)
    ensures NoSpaceRuns(Trim(c))
  {
    var r := Trim(c);
    var a := LeadingSpaceCount(c);
    forall i | 0 <= i < |r| && IsSpace(r[i])
      ensures r[i] == ' ' && (i + 1 < |r| ==> !IsSpace(r[i + 1]))
    {
      assert r[i] == c[a + i];
      if i + 1 < |r| {
        assert r[i + 1] == c[a + i + 1];
      }
    }
  }

  /** Clean text is a fixpoint of the normalisation. */
  lemma NormalizeFixpoint(s: string)
    requires Clean(s)
    ensures NormalizeSpaces(s) == s
  {
    CollapseFixpoint(s);
    assert LeadingSpaceCount(s) == 0;
    if s != [] {
      assert TrailingSpaceCount(s) == 0;
    }
  }

  /** `s.split(sep)`: the pieces between separators; always at least one piece. */
  function Split(s: string, sep: char): (r: seq<string>)
    ensures |r| >= 1
    ensures forall i :: 0 <= i < |r| ==> sep !in r[i]
    decreases |s|
  {
    if s == [] then [""]
    else
      var rest := Split(s[1..], sep);
      if s[0] == sep then [""] + rest
      else [[s[0]] + rest[0]] + rest[1..]
  }

  /** `pieces.join(sep)`. */
  function Join(pieces: seq<string>, sep: char): string
    requires |pieces| >= 1
    decreases |pieces|
  {
    if |pieces| == 1 then pieces[0] else pieces[0] + [sep] + Join(pieces[1..], sep)
  }

  /** Splitting loses nothing: joining the pieces with the separator gives the text back. */
  lemma {:induction false} SplitJoin(s: string, sep: char)
    ensures Join(Split(s, sep), sep) == s
    decreases |s|
  {
    if s != [] {
      var rest := Split(s[1..], sep);
      SplitJoin(s[1..], sep);
      if s[0] == sep {
        assert Join(Split(s, sep), sep) == "" + [sep] + Join(rest, sep);
      } else {
        var r := [[s[0]] + rest[0]] + rest[1..];
        if |rest| == 1 {
          assert Join(r, sep) == [s[0]] + rest[0];
        } else {
          assert r[1..] == rest[1..];
          assert Join(r, sep) == [s[0]] + rest[0] + [sep] + Join(rest[1..], sep);
        }
      }
    }
  }

  /** Position `i` starts a file extension as `/\.[^/.]+$/` finds it: a dot followed by at least one character, none of them a dot or a slash. */
  predicate ExtensionAt(s: string, i: int) {
    0 <= i < |s| - 1 && s[i] == '.' && forall k :: i < k < |s| ==> s[k] != '.' && s[k] != '/'
  }

  function ExtensionStart(s: string, n: nat): (r: Option<nat>)
    requires n <= |s|
    requires forall k :: n <= k < |s| ==> s[k] != '.' && s[k] != '/'
    ensures r.Some? ==> ExtensionAt(s, r.value)
    ensures r.None? ==> forall i :: 0 <= i < |s| ==> !ExtensionAt(s, i)
    decreases n
  {
    if n == 0 then None
    else if s[n - 1] == '/' then None
    else if s[n - 1] == '.' then (if n < |s| then Some(n - 1) else None)
    else ExtensionStart(s, n - 1)
  }

  /** `s.replace(/\.[^/.]+$/, '')`: drop the last extension, if there is one. */
  function StripExtension(s: string): (r: string)
    ensures forall i :: ExtensionAt(s, i) ==> r == s[..i]
    ensures (forall i :: 0 <= i < |s| ==> !ExtensionAt(s, i)) ==> r == s
  {
    match ExtensionStart(s, |s|)
    case Some(i) =>
      assert forall j :: ExtensionAt(s, j) ==> j == i;
      s[..i]
    case None => s
  }

  /** A match of `/\b(19|20)\d{2}\b/` starts at `i`. */
  predicate YearAt(s: string, i: int) {
    && 0 <= i && i + 4 <= |s|
    && (i == 0 || !IsWordChar(s[i - 1]))
    && ((s[i] == '1' && s[i + 1] == '9') || (s[i] == '2' && s[i + 1] == '0'))
    && IsDigit(s[i + 2]) && IsDigit(s[i + 3])
    && (i + 4 == |s| || !IsWordChar(s[i + 4]))
  }

  /** Leftmost year match at or after `from`. */
  function FindYear(s: string, from: nat): (r: Option<nat>)
    ensures r.Some? ==> from <= r.value && YearAt(s, r.value)
    ensures r.Some? ==> forall j :: from <= j < r.value ==> !YearAt(s, j)
    ensures r.None? ==> forall j :: from <= j ==> !YearAt(s, j)
    decreases |s| - from
  {
    if from + 4 > |s| then None
    else if YearAt(s, from) then Some(from)
    else FindYear(s, from + 1)
  }

  /** `s.match(/\b(19|20)\d{2}\b/)?.[0]`: the first word-bounded 19xx/20xx year. */
  function YearToken(s: string): (r: Option<string>)
    ensures r.Some? ==> |r.value| == 4 && AllDigits(r.value)
    ensures r.Some? ==>
      exists i :: YearAt(s, i) && r.value == s[i..i + 4] && forall j :: 0 <= j < i ==> !YearAt(s, j)
    ensures r.None? <==> forall i :: !YearAt(s, i)
  {
    match FindYear(s, 0)
    case Some(i) => Some(s[i..i + 4])
    case None => None
  }

  function DigitChar(d: nat): (c: char)
    requires d < 10
    ensures IsDigit(c)
  {
    ('0' as int + d) as char
  }

  /** Decimal rendering of a natural number, most significant digit first, no leading zeros. */
  function NatToString(n: nat): (r: string)
    ensures |r| >= 1 && AllDigits(r)
    ensures |r| > 1 ==> r[0] != '0'
    decreases n
  {
    if n < 10 then [DigitChar(n)] else NatToString(n / 10) + [DigitChar(n % 10)]
  }

  /** The value of a digit string (`parseInt` on a string of decimal digits). */
  function ParseDigits(s: string): nat
    requires AllDigits(s)
    decreases |s|
  {
    if s == [] then 0 else ParseDigits(s[..|s| - 1]) * 10 + (s[|s| - 1] as int - '0' as int)
  }

  /** Rendering a number and parsing it back gives the number. */
  lemma {:induction false} ParsePrint(n: nat)
    ensures ParseDigits(NatToString(n)) == n
    decreases n
  {
    if n >= 10 {
      ParsePrint(n / 10);
      var r := NatToString(n);
      assert r[..|r| - 1] == NatToString(n / 10);
    }
  }

  /** A digit string without a leading zero denotes a positive number. */
  lemma {:induction false} ParseLeadPositive(s: string)
    requires |s| >= 1 && AllDigits(s) && s[0] != '0'
    ensures ParseDigits(s) >= 1
    decreases |s|
  {
    if |s| > 1 {
      ParseLeadPositive(s[..|s| - 1]);
    }
  }

  /** Parsing a digit string without a leading zero and rendering it again gives the string back. */
  lemma {:induction false} PrintParse(s: string)
    requires |s| >= 1 && AllDigits(s) && s[0] != '0'
    ensures NatToString(ParseDigits(s)) == s
    decreases |s|
  {
    var n := |s| - 1;
    if n == 0 {
      assert ParseDigits(s) == ParseDigits([]) * 10 + (s[0] as int - '0' as int);
    } else {
      var init := s[..n];
      PrintParse(init);
      ParseLeadPositive(init);
      var v := ParseDigits(s);
      assert v == ParseDigits(init) * 10 + (s[n] as int - '0' as int);
      assert v / 10 == ParseDigits(init) && v % 10 == s[n] as int - '0' as int;
      assert NatToString(v) == NatToString(v / 10) + [DigitChar(v % 10)];
      assert init + [s[n]] == s;
    }
  }

  /** `String(n)` for an integer, with a leading minus sign when negative. */
  function IntToString(n: int): (r: string)
    ensures |r| >= 1
    ensures n >= 0 ==> r == NatToString(n)
    ensures n < 0 ==> r == "-" + NatToString(-n)
  {
    if n < 0 then "-" + NatToString(-n) else NatToString(n)
  }

  /** The leftmost position at or after `from` whose suffix satisfies `p`. */
  function FirstSuffix(s: string, p: string -> bool, from: nat): (r: Option<nat>)
    requires from <= |s|
    ensures r.Some? ==> from <= r.value <= |s| && p(s[r.value..])
    ensures r.Some? ==> forall j :: from <= j < r.value ==> !p(s[j..])
    ensures r.None? ==> forall j :: from <= j <= |s| ==> !p(s[j..])
    decreases |s| - from
  {
    if p(s[from..]) then Some(from)
    else if from == |s| then None
    else FirstSuffix(s, p, from + 1)
  }
}

=== FILE: wrappers.dfy ===
/** Optional values: the model's rendering of TypeScript's `T | undefined`. */
module Wrappers {

  datatype Option<+T> = None | Some(value: T) {

    /** Returns the value in `Some`, or `default` for `None` (the `??` operator). */
    function GetOr(default: T): T {
      match this
      case Some(v) => v
      case None => default
    }
  }
}
